=== FILE: README.md ===
# A verified model of a Rust path tracer's core

The modelled program is a small offline path tracer written in Rust, in the style of "Ray Tracing: The Next Week". It renders a scene of spheres, moving spheres, rectangles, rotated instances, fog volumes (constant media), lists and BVH nodes. It uses Lambertian, metal, dielectric and light materials. Textures are solid, checker, Perlin-noise marble and image textures. It has a thin-lens camera with a shutter interval. A row-banded worker loop sums `samples_per_pixel` estimates of `ray_color` per pixel and quantises the sum to bytes.

This project is a Dafny model of that core, with proofs about it.

- `f64` is modelled as `real`.
- The interval bounds `t_min` and `t_max` can be `±INFINITY`. They are an extended real, `Utility.Ext`.
- The transcendental functions and `PI` come from `Utility.Oracle`. The ghost predicate `Utility.Valid` states the only facts the proofs use about them:
  - `sqrt(x)² = x` and `sqrt(x) ≥ 0` for `x ≥ 0`;
  - `sin² + cos² = 1`;
  - `ln` is negative on `(0, 1)`;
  - `PI > 0`.
- Every random draw is a parameter with its range as a precondition. No claim is made about distributions.
- The trait objects of the source are closed datatypes:
  - `Scene.Hittable` for the hittables;
  - `Materials.Material` for the materials;
  - `Textures.Texture` for the textures.
- `hit(&self, r, t_min, t_max, &mut rec) -> bool` becomes a function that takes the caller's record and returns the flag together with the record as it is afterwards. That record is `Records.HitResult`.
- `bounding_box(.., &mut output_box) -> bool` is handled the same way.

| file | module | source |
|---|---|---|
| utility.dfy | Utility | `rtweekend.rs`: `fmax`, `fmin`, `clamp`, `random_f64_1`, `degrees_to_radians`; the oracle |
| vec3.dfy | Vectors | `vec3.rs` |
| ray.dfy | Rays | `ray.rs` |
| color.dfy | Colors | `color.rs` |
| aabb.dfy | Boxes | `aabb.rs` |
| hit_record.dfy | Records | `HitRecord` of `hiitable.rs` |
| sphere.dfy | Spheres | `Sphere` of `object.rs` |
| moving_sphere.dfy | MovingSpheres | `moving_sphere.rs` |
| aarect.dfy | Rects | `aarect.rs` |
| rotate.dfy | Rotations | the arithmetic of `Rotatey` in `hiitable.rs` |
| constant_medium.dfy | Media | the arithmetic of `constant_medium.rs` |
| hittables.dfy | Scene | the hittable dispatch: `Hiitable::hit` and `bounding_box` of every implementation, `bvh.rs` and `ConstantMedium::hit`, plus the inherent `hit` and `bounding_box` of `HittableList` |
| hittable_list.dfy | Lists | `hittable_list.rs`: `add` and the scan loop as a method |
| texture.dfy | Textures | `texture.rs` |
| perlin.dfy | Noise | `perlin.rs` |
| material.dfy | Materials | `material.rs` |
| camera.dfy | Cameras | `camera.rs` |
| render.dfy | Render | `ray_color`, the row bands, the row flip and the pixel sum of `main.rs` |

Where the code departs from what the program evidently intends, the model keeps both versions. The as-written definition comes with a lemma exhibiting the departure. The corrected definition carries the intended property and is the one the rest of the model uses. These cases are listed under "Findings".

Hit queries return a flag and update the caller's record in place, as `Hiitable::hit` does (hiitable.rs:50).

## Model

| member | source | states |
|---|---|---|
| Utility.ExtMax | raytracer/src/rtweekend.rs:30-36 | `fmax` over interval bounds returns one of its arguments and is above both |
| Utility.ExtMin | raytracer/src/rtweekend.rs:38-44 | `fmin` over interval bounds returns one of its arguments and is below both |
| Utility.Fmax | raytracer/src/rtweekend.rs:30-36 | `fmax` returns one of its arguments, no smaller than either |
| Utility.Fmin | raytracer/src/rtweekend.rs:38-44 | `fmin` returns one of its arguments, no larger than either |
| Utility.Clamp | raytracer/src/rtweekend.rs:46-54 | the result lies in [min, max] when that range is non-empty; a value inside is unchanged; a value below gives `min` |
| Utility.RandomRange | raytracer/src/rtweekend.rs:26-28 | a draw in [0, 1) maps into [min, max), and onto `min` when the range is a single point |
| Utility.DegreesToRadiansLinear | raytracer/src/rtweekend.rs:8-10 | the conversion maps 0 to 0 and 180 to pi, and is additive and homogeneous |
| Rays.At | raytracer/src/ray.rs:22-24 | the point at `t` lies `t` direction vectors away from the origin |
| Rays.AtAffine | raytracer/src/ray.rs:22-24 | the ray starts at its origin at `t = 0` and moves by `direction * dt` for every step `dt` |
| Vectors.Unit | raytracer/src/vec3.rs:40-49 | the unit vector of a non-zero vector has squared length 1 |
| Vectors.UnitLength | raytracer/src/vec3.rs:40-49 | dividing a vector by a positive length whose square is its squared length gives squared length 1 |
| Vectors.RandomInUnitSphere | raytracer/src/vec3.rs:78-85 | returns a candidate exactly when some candidate lies strictly inside the unit ball; what it returns is inside, and is the first such candidate |
| Vectors.RandomInUnitDisk | raytracer/src/vec3.rs:100-108 | a returned point lies strictly inside the unit disk in the plane z = 0, with x and y in [-1, 1) |
| Vectors.RandomInHemisphere | raytracer/src/vec3.rs:91-98 | the result is the ball sample or its negation, has the same length, and lies on the normal's side |
| Vectors.ArithmeticExamples | raytracer/src/vec3.rs:297-385 | the source's unit-test examples for `+`, `+ f64` and `squared_length` hold |
| Vectors.AddComponentwise | raytracer/src/vec3.rs:144-164 | vector and scalar addition act on each indexed component separately |
| Vectors.IndexRoundTrip | raytracer/src/vec3.rs:278-288 | indexing at 0, 1 and 2 recovers the vector |
| Vectors.SquaredLengthIsSelfDot | raytracer/src/vec3.rs:33-35 | the squared length equals the vector's dot product with itself and is never negative |
| Vectors.CrossOrthogonal | raytracer/src/vec3.rs:59-65 | the cross product is orthogonal to both factors |
| Vectors.DotLinear | raytracer/src/vec3.rs:228-233 | the dot product distributes over subtraction and pulls out scalars |
| Vectors.ReflectProperties | raytracer/src/vec3.rs:120-122 | reflection about a unit normal negates the normal component, and reflecting twice gives back the vector |
| Vectors.ReflectKeepsLength | raytracer/src/vec3.rs:120-122 | reflection about a unit normal keeps the squared length |
| Vectors.UnitKeepsSide | raytracer/src/vec3.rs:40-49 | normalising a vector with a negative component along a direction keeps that component negative |
| Vectors.NearZeroIff | raytracer/src/vec3.rs:110-118 | `near_zero` holds exactly when every indexed component is within 1e-7 of zero |
| Colors.ChannelByte | raytracer/src/color.rs:12-18 | every channel becomes a byte in [0, 255], including the NaN of a negative average |
| Colors.PixelBytes | raytracer/src/color.rs:6-21 | the three stored bytes are the three channels' bytes, each in [0, 255] |
| Colors.ZeroChannel | raytracer/src/color.rs:12-18 | a channel that accumulated nothing is byte 0 |
| Colors.FullChannel | raytracer/src/color.rs:12-18 | a channel whose average reaches 1 is byte 255 |
| Colors.ChannelMonotone | raytracer/src/color.rs:12-18 | with a positive sample count, a larger accumulated channel never gives a smaller byte |
| Boxes.Empty | raytracer/src/aabb.rs:12-17 | `new_0` is the degenerate box whose corners are both the origin |
| Boxes.FloatMax | raytracer/src/rtweekend.rs:30-36 | on numbers, `fmax` is above both arguments; a NaN first argument yields the second |
| Boxes.FloatMin | raytracer/src/rtweekend.rs:38-44 | on numbers, `fmin` is below both arguments; a NaN first argument is passed through |
| Boxes.SurroundingBox | raytracer/src/aabb.rs:96-108 | the surrounding box contains both boxes |
| Boxes.SurroundingBoxTightest | raytracer/src/aabb.rs:96-108 | every box containing both boxes contains their surrounding box, so it is the smallest such box |
| Boxes.SurroundingBoxAlgebra | raytracer/src/aabb.rs:96-108 | surrounding is symmetric, and surrounding a box with itself gives the box |
| Boxes.SlabExact | raytracer/src/aabb.rs:26-32 | for a non-zero direction component, a parameter lies strictly between the swapped entry and exit exactly when the ray's coordinate lies strictly between the slab's planes |
| Boxes.SlabInterior | raytracer/src/aabb.rs:26-32 | a coordinate strictly between the planes puts the parameter strictly between entry and exit, also for a zero component, where both are infinite |
| Boxes.SlabOrdered | raytracer/src/aabb.rs:26-32 | after the swap, the entry does not come after the exit |
| Boxes.HitFromComplete | raytracer/src/aabb.rs:25-71 | if a parameter in the window puts the ray strictly inside the box on the remaining axes, the remaining slab steps succeed |
| Boxes.HitFromSound | raytracer/src/aabb.rs:25-71 | for a ray with no zero direction component, a successful slab test leaves a parameter in the window inside the box on the remaining axes |
| Boxes.HitIff | raytracer/src/aabb.rs:25-71 | for a ray with no zero direction component, `hit` succeeds exactly when some parameter strictly inside the window puts the ray strictly inside the box |
| Boxes.HitComplete | raytracer/src/aabb.rs:25-71 | for every ray, a parameter strictly inside the window with the ray strictly inside the box makes `hit` succeed |
| Boxes.HitMonotone | raytracer/src/aabb.rs:25-71 | for a ray with no zero direction component, a ray that passes the test of a box passes the test of every box containing it |
| Boxes.EmptyWindowMisses | raytracer/src/aabb.rs:37-39 | for a ray with no zero direction component, an empty window never passes |
| Boxes.HitWindowMonotone | raytracer/src/aabb.rs:34-35 | for a ray with no zero direction component, a hit over a window is a hit over every wider window |
| Boxes.OriginInsideHits | raytracer/src/aabb.rs:25-71 | a ray whose origin is strictly inside the box hits it over every window around 0 |
| Boxes.ZeroDirectionDropsUpperBound | raytracer/src/aabb.rs:26-50 | with a zero direction component and the origin on that slab's far plane, the NaN exit drops the caller's `t_max`, so even an empty window passes |
| Rects.Coordinate | raytracer/src/aarect.rs:64-65 | the texture coordinate is 0 at the low edge, 1 at the high edge and in [0, 1] in between |
| Rects.Hit | raytracer/src/aarect.rs:48-73 | a miss leaves the record untouched; a hit is in the closed window, on the ray, on the rectangle, with normal ±z, the rectangle's material and texture coordinates in [0, 1] |
| Rects.BoundingBox | raytracer/src/aarect.rs:38-46 | the box is always reported and strictly straddles the plane z = k |
| Rects.PlaneParameter | raytracer/src/aarect.rs:55 | the ray reaches the plane z = k exactly at `(k - origin.z) / dir.z` |
| Rects.HitComplete | raytracer/src/aarect.rs:48-73 | if the ray reaches a point of the rectangle at some `t` in the window, `hit` reports that `t` |
| Rects.MissMeansNoPoint | raytracer/src/aarect.rs:48-73 | a miss means no parameter in the window reaches the rectangle |
| Rects.FrontFaceFromBelow | raytracer/src/aarect.rs:67-68 | the front face is hit exactly when the ray travels against the normal (0, 0, 1), and the stored normal opposes the ray |
| Rects.BoxContainsRect | raytracer/src/aarect.rs:38-46 | every point of the rectangle lies in its box, strictly inside along z |
| Records.NewRecord | raytracer/src/hiitable.rs:28-38 | `HitRecord::new` is all zeros, the back face and no material |
| Records.Miss | raytracer/src/hiitable.rs:50 | a miss returns false and leaves the caller's record as it was |
| Records.SetFrontFace | raytracer/src/hiitable.rs:39-46 | the face is front exactly when the ray travels against the outward normal; the stored normal is the outward one or its negation and never faces along the ray; nothing else changes |
| Records.SetFrontFaceProperties | raytracer/src/hiitable.rs:39-46 | setting the face twice changes nothing more; reversing the outward normal keeps the stored normal and flips the face unless the ray grazes |
| Rotations.ToLocal | raytracer/src/hiitable.rs:114-118 | turning into the child's frame keeps y |
| Rotations.ToWorld | raytracer/src/hiitable.rs:129-133 | turning back to the world frame keeps y |
| Rotations.RotateRay | raytracer/src/hiitable.rs:112-120 | the child's ray keeps the time, and turning its origin and direction back gives the caller's ray |
| Rotations.AfterChildHit | raytracer/src/hiitable.rs:126-136 | the point is turned back, the normal is the turned-back normal or its negation, the face is set against the rotated ray, and `t`, `u`, `v` and the material are the child's |
| Rotations.CornerWeighted | raytracer/src/hiitable.rs:77-82 | the weighted form `i * max + (1 - i) * min` of the loop picks the box's minimum or maximum on each axis |
| Rotations.RotatedCorners | raytracer/src/hiitable.rs:74-87 | the nested loops visit eight corners |
| Rotations.Coordinates | raytracer/src/hiitable.rs:89-95 | one coordinate is extracted from every corner |
| Rotations.CornerBox | raytracer/src/hiitable.rs:71-99 | the folded `fmin`/`fmax` box holds each of the eight rotated corners on every axis |
| Rotations.TurnOf | raytracer/src/hiitable.rs:66-68 | the stored sine and cosine satisfy `sin² + cos² = 1` |
| Rotations.New | raytracer/src/hiitable.rs:64-107 | the instance keeps the child's `hasbox` flag, and its sine and cosine are those of one angle |
| Rotations.InverseMaps | raytracer/src/hiitable.rs:114-133 | the ray's turn and the point's turn back are mutual inverses |
| Rotations.ToWorldLinear | raytracer/src/hiitable.rs:129-130 | turning back is linear |
| Rotations.HitPointOnOriginalRay | raytracer/src/hiitable.rs:120-135 | the child's point at `t` on the rotated ray, turned back, is the caller's ray at the same `t` |
| Rotations.ToWorldKeepsLength | raytracer/src/hiitable.rs:129-130 | turning back keeps lengths |
| Rotations.RotatedCornersInside | raytracer/src/hiitable.rs:71-99 | every rotated corner lies in the corner box |
| Rotations.RotatedXInside | raytracer/src/hiitable.rs:84 | the rotated x of every point of the child box lies within the corner box's x range |
| Rotations.RotatedZInside | raytracer/src/hiitable.rs:85 | the rotated z of every point of the child box lies within the corner box's z range |
| Rotations.RotatedYInside | raytracer/src/hiitable.rs:79-80 | the y of every point of the child box lies within the corner box's y range |
| Rotations.RotatedBoxContains | raytracer/src/hiitable.rs:64-107 | every point of the child box, rotated, lies in the box `new` stores, not only the corners |
| Spheres.NearestRoot | raytracer/src/object.rs:41-54 | a root is found only for a non-negative discriminant and lies in the closed window; it is the smaller root when that one is in the window and the larger one otherwise; no root means neither root is in the window |
| Spheres.Hit | raytracer/src/object.rs:36-64 | a miss leaves the record; a hit is the selected root, in the window, on the ray, with the sphere's material; a negative discriminant never hits |
| Spheres.BoundingBox | raytracer/src/object.rs:66-72 | the box runs from `center - radius` to `center + radius` on every axis |
| Spheres.DistanceAlongRay | raytracer/src/object.rs:37-40 | the squared distance from the centre along the ray is the quadratic `\|oc\|² + 2 t half_b + t² a` |
| Spheres.QuadraticRoots | raytracer/src/object.rs:41-50 | the quadratic vanishes exactly where `a t = -half_b ± sqrtd` |
| Spheres.OnSphereIffRoot | raytracer/src/object.rs:37-50 | a parameter puts the ray on the sphere exactly when it is one of the two roots |
| Spheres.RootsOrdered | raytracer/src/object.rs:48-50 | the root tried first is never larger than the root tried second |
| Spheres.HitPrefersSmallerRoot | raytracer/src/object.rs:48-54 | `hit` reports the smaller root whenever it lies in the window, and the larger one otherwise |
| Spheres.NearestRootOnSphere | raytracer/src/object.rs:41-57 | the root `hit` picks lies on the sphere |
| Spheres.NearestRootIsNearest | raytracer/src/object.rs:41-54 | no parameter of the window on the sphere comes before the root `hit` picks |
| Spheres.HitOnSphere | raytracer/src/object.rs:36-64 | a hit is a point of the sphere |
| Spheres.HitIsNearest | raytracer/src/object.rs:36-64 | a sphere that the ray meets inside the window is hit, no later than any such meeting point |
| Spheres.NegativeDiscriminantMisses | raytracer/src/object.rs:41-44 | with a negative discriminant no point of the ray lies on the sphere, so the early return loses nothing |
| Spheres.BoxContainsSphere | raytracer/src/object.rs:66-72 | every point of a sphere with positive radius lies in its box |
| MovingSpheres.NewEmpty | raytracer/src/moving_sphere.rs:18-27 | `new_0` is all zeros with no material |
| MovingSpheres.At | raytracer/src/moving_sphere.rs:47-51 | the sphere at one instant keeps the radius and the material |
| MovingSpheres.Hit | raytracer/src/moving_sphere.rs:55-83 | a miss leaves the record; a hit is the selected root of the sphere at the ray's time, in the window, on the ray, with the material, and with `u` and `v` untouched |
| MovingSpheres.BoundingBox | raytracer/src/moving_sphere.rs:85-116 | a box is always reported, and it contains the sphere's box at both ends of the query interval; it is the surrounding box of those two end boxes |
| MovingSpheres.BoundingBoxTightest | raytracer/src/moving_sphere.rs:85-116 | the reported box is the smallest holding the sphere's boxes at both ends of the query interval: every box containing both contains it |
| MovingSpheres.CenterEndpoints | raytracer/src/moving_sphere.rs:47-51 | the centre is `center0` at `time_0` and `center1` at `time_1` |
| MovingSpheres.StationaryCenter | raytracer/src/moving_sphere.rs:47-51 | a sphere whose two centres agree stands still |
| MovingSpheres.CenterAffine | raytracer/src/moving_sphere.rs:47-51 | the centre moves at constant velocity: equal time steps give equal displacements |
| MovingSpheres.HitIsStaticHitAtRayTime | raytracer/src/moving_sphere.rs:55-83 | `hit` agrees with the static sphere's `hit` at the ray's time in everything but `u` and `v` |
| MovingSpheres.HitOnSphere | raytracer/src/moving_sphere.rs:55-83 | a hit is a point of the sphere as it stands at the ray's time |
| MovingSpheres.HitIsNearest | raytracer/src/moving_sphere.rs:55-83 | a sphere the ray meets inside the window at its own time is hit, no later than any such meeting point |
| MovingSpheres.BoxContainsEndSpheres | raytracer/src/moving_sphere.rs:85-116 | every point of the sphere at either end of the query interval lies in the reported box |
| Scene.Hit | raytracer/src/hiitable.rs:50 | every object's `hit` leaves the caller's record as it was when it misses |
| Scene.Scan | raytracer/src/hittable_list.rs:25-42 | the list loop reports a hit once a member has, and on a miss leaves the caller's record |
| Scene.MediumHit | raytracer/src/constant_medium.rs:40-97 | the corrected medium query leaves the caller's record on a miss |
| Scene.MediumHitAsWritten | raytracer/src/constant_medium.rs:40-97 | the medium query as written leaves the caller's record on a miss |
| Scene.HitOnRayInWindow | raytracer/src/hiitable.rs:50 | every hit any object reports, nested objects included, lies in the query window and is the ray's point at the reported parameter |
| Scene.ScanOnRayInWindow | raytracer/src/hittable_list.rs:25-42 | the list loop's record stays in the window and on the ray |
| Scene.HitIgnoresRecord | raytracer/src/bvh.rs:127-142 | a query's flag and, on a hit, its record up to `u` and `v` do not depend on the record passed in, although the BVH threads its record from the left child into the right one |
| Scene.ScanIgnoresRecord | raytracer/src/hittable_list.rs:25-42 | the list's answer does not depend on the caller's record, since members write into a scratch record |
| Scene.BvhAgreesWithList | raytracer/src/bvh.rs:127-142 | a node whose box the ray passes answers as the list of its two children; a node whose box the ray misses reports a miss and leaves the record |
| Scene.ListOfTwo | raytracer/src/hittable_list.rs:25-42 | the list of two objects asks the first one over the window, then the second up to the first's hit, and reports the last record found |
| Scene.LeafNearest | raytracer/src/object.rs:36-64 | a sphere, moving sphere or rectangle that the ray meets at `t` inside the window is hit no later than `t` |
| Scene.ListFindsNearest | raytracer/src/hittable_list.rs:25-42 | if some member is a surface the ray meets at `t` inside the window, the list hits no later than `t` |
| Scene.ScanNoLater | raytracer/src/hittable_list.rs:28-38 | the list loop never reports a hit beyond its current bound `closest_so_far` |
| Scene.ScanFindsNearest | raytracer/src/hittable_list.rs:25-42 | from any state of the loop, a remaining member the ray meets at `t` makes the loop hit no later than `t` |
| Scene.MediumAsWrittenNeverHits | raytracer/src/constant_medium.rs:44-69 | as written, a medium reports a miss for every ray, window and boundary |
| Scene.MediumScattersInside | raytracer/src/constant_medium.rs:40-97 | a corrected medium hit lies after the entry the first probe finds, no later than the exit the second probe finds, inside the window, on the ray, with the phase function |
| Scene.MediumHitsWhenPathFits | raytracer/src/constant_medium.rs:59-84 | when both probes find the boundary and the free path fits in the span, the corrected medium scatters at the span's start plus the path divided by the ray's length |
| Scene.BoxIgnoresSeed | raytracer/src/hiitable.rs:52 | the flag `bounding_box` returns never depends on the box passed in, and neither does a box it reports |
| Scene.BoxScanSurrounds | raytracer/src/hittable_list.rs:48-70 | the corrected loop reports a box exactly when every remaining member does, and that box contains every member's box |
| Scene.BoxScanTightest | raytracer/src/hittable_list.rs:48-70 | every box containing all the members' boxes contains the box the corrected loop reports |
| Scene.ListBoxSurroundsMembers | raytracer/src/hittable_list.rs:48-70 | a corrected list reports a box exactly when it is not empty and every member reports one; the box is the smallest one containing all the members' boxes |
| Scene.ListBoxAsWrittenInverted | raytracer/src/hittable_list.rs:55-61 | as written, a list reports a box exactly when it is not empty and no member reports one |
| Scene.BoxScanAsWrittenInverted | raytracer/src/hittable_list.rs:54-69 | the loop as written succeeds exactly when no remaining member reports a box |
| Scene.OneSphereList | raytracer/src/hittable_list.rs:48-70 | a list of one sphere reports no box as written, and the sphere's box once corrected |
| Scene.NewRotateY | raytracer/src/hiitable.rs:64-107 | the rotated instance wraps the child, takes the flag the child reports for `bounding_box(0, 1, ..)`, and holds the sine and cosine of one angle |
| Scene.RotateYBoxContainsChild | raytracer/src/hiitable.rs:141-144 | a rotated instance reports its stored flag and box, and that box holds the rotation of every point of the child's box |
| Lists.Add | raytracer/src/hittable_list.rs:44-46 | `add` appends the object and keeps the others in order |
| Lists.HitLoop | raytracer/src/hittable_list.rs:25-42 | the loop agrees with the recursive list query; it hits exactly when some member reported a hit, keeps the nearest reported parameter, stays in the window and on the ray, and leaves the record on a miss |
| Lists.ScanAppend | raytracer/src/hittable_list.rs:30-40 | the loop over `a + b` is the loop over `a` followed by the loop over `b` from the state `a` leaves |
| Lists.AddKeepsNearest | raytracer/src/hittable_list.rs:44-46 | adding an object never loses a hit and never makes it later |
| Lists.EmptyListMisses | raytracer/src/hittable_list.rs:25-51 | an empty list never hits, leaves the record, and reports no box |
| Media.NewWithTexture | raytracer/src/constant_medium.rs:19-25 | the stored value is `-1 / d` and the phase function is isotropic over the texture |
| Media.NewWithColor | raytracer/src/constant_medium.rs:26-32 | the stored value is `-1 / d` and the phase function is isotropic over the colour |
| Media.ClampedSpan | raytracer/src/constant_medium.rs:59-73 | the span exists exactly when the probes and the window overlap; it lies within both and starts at 0 or later |
| Media.HitDistance | raytracer/src/constant_medium.rs:77 | the free path is positive for a positive density and a draw in (0, 1) |
| Media.Scatter | raytracer/src/constant_medium.rs:83-94 | the scattering record has the given `t`, the ray's point there, normal (1, 0, 0), the front face and the phase function, and keeps `u` and `v` |
| Media.ResolveAsWritten | raytracer/src/constant_medium.rs:59-96 | the step as written hits only when the span exists, and leaves the record on a miss |
| Media.Resolve | raytracer/src/constant_medium.rs:59-96 | the corrected step hits only when the span exists, leaves the record on a miss, and otherwise scatters at the parameter it reports |
| Media.Probed | raytracer/src/constant_medium.rs:47-53 | the medium hits only when both probes found the boundary, and leaves the record on a miss |
| Media.ZeroProbesLeaveNoSpan | raytracer/src/constant_medium.rs:47-69 | probe parameters both 0, as the clones leave them, never give a span, whatever the window |
| Media.ResolveWithinSpan | raytracer/src/constant_medium.rs:59-96 | the corrected step scatters inside the clamped span, inside the window and between the probe parameters |
| Media.ProbedScattersInside | raytracer/src/constant_medium.rs:47-96 | for any two probe results, a hit lies after the first probe's parameter, no later than the second's, inside the window, on the ray, with the phase function |
| Media.ResolveHitsWhenPathFits | raytracer/src/constant_medium.rs:75-84 | the corrected step scatters exactly when the span exists, the ray has length and the free path fits, and then at the span's start plus the path divided by the ray's length |
| Media.ResolveAsWrittenOvershoots | raytracer/src/constant_medium.rs:83 | as written, a direction of length 2, probes 0 and 1, window [0, 1] and a free path of 1.5 scatter at `t = 1.5`, outside the window; the corrected step gives 0.75 |
| Materials.LambertianOfColor | raytracer/src/material.rs:28-32 | `Lambertian::new1` wraps the colour in a solid texture |
| Materials.MetalNew | raytracer/src/material.rs:72-81 | `Metal::new` keeps the colour and caps the fuzz at 1 from above only: below 1 it is kept, otherwise it becomes 1 |
| Materials.DiffLightOfColor | raytracer/src/material.rs:182-186 | `DiffLight::new2` wraps the colour in a solid texture |
| Materials.RefractionRatio | raytracer/src/material.rs:137-141 | the ratio is `1 / ir` on the front face and `ir` on the back face |
| Materials.CappedCosine | raytracer/src/material.rs:145-149 | the cosine is capped at 1 and otherwise equals `-unit_direction · normal` |
| Materials.LambertianScatter | raytracer/src/material.rs:40-58 | a Lambertian surface always scatters from the hit point at the incoming time, with the albedo's colour there, along normal plus unit vector, or along the normal when that sum is near zero |
| Materials.LambertianLeavesSurface | raytracer/src/material.rs:47-51 | for a unit normal and a draw in the unit ball, the scatter direction never points below the surface. That direction is `normal + random_unit_vector()`, or the normal when the sum is near zero, as `Materials.LambertianScatter` shows |
| Materials.MirrorLeavesSurface | raytracer/src/material.rs:85-102 | a metal of fuzz 0 that a ray of nonzero direction meets from the front of a unit normal always scatters, along a unit direction on the normal's side whose normal component is that of the incoming unit direction, negated: the angle of reflection equals the angle of incidence |
| Materials.MetalScatter | raytracer/src/material.rs:85-102 | a metal scatters exactly when the fuzzed reflection leaves on the normal's side; then it scatters with its colour along that direction, and a fuzz of 0 reflects the unit direction exactly |
| Materials.DielectricScatter | raytracer/src/material.rs:129-164 | a dielectric always scatters from the hit point at the incoming time with white attenuation, along the direction chosen from the face's ratio and the capped cosine |
| Materials.DielectricChoice | raytracer/src/material.rs:150-159 | it reflects under total internal reflection; otherwise it reflects exactly when the reflectance exceeds the draw, and refracts when it does not |
| Materials.EmissionByKind | raytracer/src/material.rs:60-62 | a light never scatters and emits its texture's colour; Lambertian, metal and dielectric surfaces emit black |
| Materials.ReflectanceAtNormalIncidence | raytracer/src/material.rs:121-125 | Schlick's formula at cosine 1 gives the base reflectance |
| Materials.R0Bounds | raytracer/src/material.rs:122-123 | for a positive index the base reflectance lies in [0, 1] |
| Materials.ReflectanceBounds | raytracer/src/material.rs:121-125 | for a cosine in [0, 1] and a positive index, the reflectance lies between the base reflectance and 1 |
| Textures.CheckerOfColors | raytracer/src/texture.rs:50-55 | `CheckerTexture::new_2` builds a checker with both sides present |
| Textures.TruncI32 | raytracer/src/texture.rs:130-131 | the `as i32` cast of a non-negative value is non-negative and, within the i32 range, is the integer part |
| Textures.EmptyImage | raytracer/src/texture.rs:100-107 | `ImageTexture::new_0` builds an image texture the renderer accepts: the empty buffer with zero dimensions |
| Textures.ImageValue | raytracer/src/texture.rs:122-150 | with the guard on the empty buffer, an image without data shows (0, 1, 1), and every colour of an 8-bit RGB image whose i32 byte index cannot overflow lies in [0, 1]³ |
| Textures.Marble | raytracer/src/texture.rs:86-88 | the marble colour is grey, and in [0, 1] when the sine is in [-1, 1] |
| Textures.ValueDispatch | raytracer/src/texture.rs:31-35 | a solid colour ignores u, v and the point; a checker shows its odd side exactly where the product of sines is negative and its even side elsewhere |
| Textures.CheckerOfColorsValue | raytracer/src/texture.rs:50-66 | `new_2(c1, c2)` shows `c2` where the sines are negative and `c1` elsewhere |
| Textures.UvClampedAndFlipped | raytracer/src/texture.rs:127-128 | the clamped u and the flipped v lie in [0, 1], and in-range values are kept |
| Textures.PixelIndexBounds | raytracer/src/texture.rs:130-137 | for an image of at least one pixel the column lies in [0, width) and the row in [0, height) |
| Textures.ByteIndexInBounds | raytracer/src/texture.rs:141-143 | with three bytes per pixel (`bytes_per_scanline = width * 3`, texture.rs:116), the three byte indices of an in-range pixel are inside the buffer, and the i32 sums `j * bytes_per_scanline + i * 3 + k` that compute them do not overflow |
| Textures.PixelColorRange | raytracer/src/texture.rs:139-149 | each channel is a byte over 255, hence in [0, 1] |
| Textures.EmptyImagePanics | raytracer/src/texture.rs:100-107 | for the texture `ImageTexture::new_0` builds, the guard at line 123 misses the empty buffer and the lookup goes out of range for every (u, v) |
| Textures.ImageValueCorrected | raytracer/src/texture.rs:122-150 | with the corrected guard the empty texture shows (0, 1, 1), and on every well-sized image the corrected and as-written lookups agree |
| Textures.SinBounded | raytracer/src/texture.rs:60 | the sine lies in [-1, 1] |
| Textures.NoiseTextureRange | raytracer/src/texture.rs:84-89 | the noise texture's colour is a grey level in [0, 1] |
| Noise.Swap | raytracer/src/perlin.rs:60 | `p.swap(i, j)` exchanges the two entries and leaves every other entry in place |
| Noise.PermuteFrom | raytracer/src/perlin.rs:57-62 | the reference definition of the swap loop keeps the length |
| Noise.SwapMultiset | raytracer/src/perlin.rs:60 | a swap keeps the multiset of entries |
| Noise.Permute | raytracer/src/perlin.rs:57-62 | `permute` equals the reference definition, is a permutation of its input, leaves the entries from `n` on in place, and for `n <= 1` changes nothing |
| Noise.Iota | raytracer/src/perlin.rs:46-50 | the starting table holds 0, 1, ..., n - 1 in order |
| Noise.GeneratePerm | raytracer/src/perlin.rs:44-55 | `perlin_generate_perm` returns 256 distinct entries, each in [0, 256), forming a permutation of 0..255 |
| Noise.IotaCount | raytracer/src/perlin.rs:46-50 | each of 0..n-1 occurs exactly once in the starting table and nothing else occurs |
| Noise.PermutationOfIota | raytracer/src/perlin.rs:44-55 | a sequence with the multiset of 0..n-1 has length n, entries in [0, n) and no repeats |
| Noise.FloorI32 | raytracer/src/perlin.rs:69-71 | `floor() as i32` stays in the i32 range and is the floor whenever the floor fits |
| Noise.WrappingAdd | raytracer/src/perlin.rs:79-81 | the i32 addition `i + di` stays in the i32 range and is exact when the sum fits |
| Noise.AsUsize | raytracer/src/perlin.rs:79-81 | `as usize` of an i32 is a 64-bit pattern |
| Noise.MaskIsLowByte | raytracer/src/perlin.rs:79-81 | masking the 64-bit pattern bitwise with 255 gives the table index |
| Noise.HashIndexIsMod | raytracer/src/perlin.rs:79-81 | the table index of a lattice coordinate is the coordinate modulo 256, negative coordinates included, so it is in bounds |
| Noise.LowBits | raytracer/src/perlin.rs:79-81 | masking bitwise with 2^k - 1 keeps the value modulo 2^k |
| Noise.Xor3 | raytracer/src/perlin.rs:79-81 | the XOR of three table entries indexes the 256 random vectors |
| Noise.Fraction | raytracer/src/perlin.rs:65-67 | the fractional part `x - floor(x)` lies in [0, 1) |
| Noise.Corners | raytracer/src/perlin.rs:73-84 | the cell has eight corner vectors |
| Noise.SmoothBounds | raytracer/src/perlin.rs:91-93 | the smoothstep maps [0, 1] into [0, 1] and fixes both ends |
| Noise.WeightsSumToOne | raytracer/src/perlin.rs:95-105 | the eight trilinear weights sum to 1 |
| Noise.NoiseZeroAtLattice | raytracer/src/perlin.rs:64-87 | noise is 0 at every integer lattice point |
| Noise.TrilinearAtCorner | raytracer/src/perlin.rs:89-108 | at the cell's corner (0, 0, 0) the interpolation is 0 |
| Noise.TurbWith | raytracer/src/perlin.rs:110-123 | the loop of `turb` returns the absolute value of the series of `depth` octaves, each `2^-k * noise(p * 2^k)`; a depth of 0 or less gives 0 |
| Noise.Turb | raytracer/src/perlin.rs:110-123 | `turb` of a generator is non-negative and is the absolute value of its octave series |
| Noise.TurbFirstOctave | raytracer/src/perlin.rs:115-119 | the first octave is the noise at `p` itself |
| Noise.New | raytracer/src/perlin.rs:29-42 | `Perlin::new` builds 256 random vectors, each the unit vector of its cube draw, and three valid tables |
| Cameras.New | raytracer/src/camera.rs:26-64 | `Camera::new` starts at `lookfrom` with lens radius `aperture / 2` and the given shutter times; its frame vectors are pairwise orthogonal, they are unit vectors unless the view direction is zero or parallel to `vup`, and the viewport centre lies `focus_dist` along `-w` |
| Cameras.GetRay | raytracer/src/camera.rs:66-75 | `get_ray` aims at the viewport point (s, t) whatever the lens sample, starts at the lens offset `u * rd.x + v * rd.y`, and draws its time in [time_0, time_1) |
| Cameras.FrameOrthogonal | raytracer/src/camera.rs:41-43 | `u = unit(vup x w)` and `v = w x u` are orthogonal to `w` and to each other |
| Cameras.FrameUnit | raytracer/src/camera.rs:41-43 | `w`, `u` and `v` are unit vectors unless the view direction is zero or parallel to `vup` |
| Cameras.ViewportCentre | raytracer/src/camera.rs:51-56 | the lower left corner puts the viewport centre `focus_dist` along `-w` from `lookfrom` |
| Cameras.UnitKeepsOrthogonal | raytracer/src/camera.rs:42 | normalising keeps a vector orthogonal to what it was orthogonal to |
| Cameras.CrossUnit | raytracer/src/camera.rs:43 | the cross product of two orthogonal unit vectors is a unit vector |
| Cameras.PinholeStartsAtLookfrom | raytracer/src/camera.rs:66-75 | with lens radius 0 every ray starts at the camera origin |
| Cameras.RayStartsOnLens | raytracer/src/camera.rs:66-75 | with an orthonormal frame a ray starts in the lens plane through the camera orthogonal to `w`, inside the lens disk |
| Cameras.CentreRay | raytracer/src/camera.rs:26-75 | the centre ray through the lens centre leaves `lookfrom` along `-w` scaled by `focus_dist` |
| Render.WorldHit | raytracer/src/main.rs:46-52 | the world is searched on [0.001, ∞) into a fresh record, and a miss leaves the record fresh |
| Render.Step | raytracer/src/main.rs:50-67 | a bounce escapes to the background exactly when the world search misses |
| Render.RayColor | raytracer/src/main.rs:45-73 | `ray_color` is black once the depth is used up, and the background on a ray that hits nothing |
| Render.RayColorLoop | raytracer/src/main.rs:45-73 | the recursion unrolled into a loop that carries the light collected so far and the product of the attenuations computes the same estimate |
| Render.CombineIdentity | raytracer/src/main.rs:69-73 | nothing collected and full throughput leave an estimate unchanged |
| Render.CombineStep | raytracer/src/main.rs:69-73 | folding one bounce `emitter + attenuation * rest` into the prefix regroups the sum, and a panic stays a panic |
| Render.NoScatterIsEmitted | raytracer/src/main.rs:59-67 | a hit whose material does not scatter gives exactly the emitted light |
| Render.DivMonotone | raytracer/src/main.rs:661-662 | integer division by a positive count is monotone |
| Render.BandEnds | raytracer/src/main.rs:655-662 | the first band starts at row 0 and the last one ends at row `height` |
| Render.BandsOrdered | raytracer/src/main.rs:661-662 | the band starts `height * c / job_times` never decrease |
| Render.BandsDisjoint | raytracer/src/main.rs:661-663 | no row lies in two bands |
| Render.FindBand | raytracer/src/main.rs:655-663 | every row of the image lies in the band of one of the `job_times` workers |
| Render.BandsCoverImage | raytracer/src/main.rs:655-663 | the band sizes add up to the band starts, and all bands together hold exactly `height` rows |
| Render.FlipRow | raytracer/src/main.rs:678 | the flipped row `height - j - 1` of a row in range is in range and mirrors it |
| Render.FlipRowInvolution | raytracer/src/main.rs:678 | flipping twice gives the row back, so no two rows share an image row |
| Render.SumAppend | raytracer/src/main.rs:665-674 | summing a sequence of sample estimates split in two is summing each part |
| Render.AccumulatePixel | raytracer/src/main.rs:665-674 | the pixel loop starts at zero and ends with the sum of all sample estimates |
| Render.SumBounds | raytracer/src/main.rs:665-674 | n samples with components in [0, 1] sum to a pixel with components in [0, n] |
| Render.SampleCoord | raytracer/src/main.rs:667-668 | the jittered coordinate of pixel i lies in [i / (n - 1), (i + 1) / (n - 1)) |

## Left out

- Threads, the shared image buffer and `join` (`main.rs`) are not modelled. Only the arithmetic of the row bands is: which rows a worker owns, and that the bands partition the image.
- The progress bar, CI detection, image encoding, the pixel store of `write_color` and the file output are I/O and are not modelled.
- The scene builders of `main.rs` are glue and are not modelled.
- The bodies of the `rand` calls in `rtweekend.rs` are not modelled. Every draw is a parameter with its range as a precondition:
  - `Utility.UnitDraw` for `random_f64`;
  - `Vectors.CubeDraw` and `Vectors.SquareDraw` for the rejection samplers;
  - `Noise.TargetsOk` for `random_i32_1`.
- A constant medium draws `random_f64` once per query. The model gives every medium in one query the same draw, `Scene.Env.mediumDraw`.
- Scene.EnvOk takes the medium draw from (0, 1). `random_f64` can return 0. There `ln(0) = -inf` and `hit_distance = +inf`, so the source misses at constant_medium.rs:79-80. The model leaves `Ln(o, 0)` unconstrained, so `Media.HitDistance` and the Scene lemmas that require `EnvOk` say nothing about a draw of 0.
- Transcendentals are uninterpreted, beyond the facts of `Utility.Valid`. This covers `sqrt`, `sin`, `cos`, `tan`, `acos`, `atan2`, `ln` and `PI`, as used in `get_sphere_uv`, the checker sines, the noise texture's sine and the camera's `tan`.
- Floating-point rounding, NaN and infinities are not modelled outside the slab test of `aabb.rs`. That test models signed infinities and NaN for zero direction components. Negative zero is treated as positive zero there.
- Division by zero elsewhere is excluded or given a value:
  - Spheres.Hit: a ray with a zero direction misses. The source reports a hit at `t = NaN` there: `a`, `half_b` and the discriminant are 0, the root is `-0/0 = NaN`, and NaN passes both window tests at object.rs:47-53. The radius is required to be nonzero, since the outward normal divides by it.
  - MovingSpheres.Hit: a ray with a zero direction misses, where the source reports a hit at `t = NaN` as for `Sphere::hit`. It also requires `time1 != time0`, since `center` divides by the interval.
  - Rects.Hit: a ray parallel to the plane misses. The source divides by the zero `d.z` at aarect.rs:55. For a ray lying in the plane `z = k` that gives `t = 0/0 = NaN`. NaN passes both the window test and the x/y test (aarect.rs:56-63), so the source reports a hit at `t = NaN`. A ray with a zero direction off the plane gets `t = ±inf`. With a window open above, `+inf` passes, the NaN coordinates pass the x/y test, and the source reports a hit at `t = +inf`. The rectangle is required to have nonzero extents, since `u` and `v` divide by them.
  - Vectors.Unit: the zero vector is returned unchanged, where the source prints an error and divides by zero.
  - Materials.Valid: it excludes a dielectric index of 0 or -1, where the refraction ratio or Schlick's formula divides by zero.
  - Colors.ChannelByte: it requires `samples_per_pixel != 0`.
  - Render.SampleCoord: it requires an image width or height other than 1.
- Vectors.Index requires an index below 3, since the source panics on any other.
- `Vec3::refract` is modelled by its formula only. No geometric property of it is stated.
- Vectors.Unit states squared length 1 only for a nonzero vector and a valid oracle.
- Materials.Scatter and Materials.Emitted have no contract of their own. What they compute is stated per material by `Materials.LambertianScatter`, `Materials.MetalScatter`, `Materials.DielectricScatter` and `Materials.EmissionByKind`.
- `Isotropic` is imported from `material` at constant_medium.rs:3 but is not defined in the modelled files. Its scatter and emission are inputs, `Materials.Foreign`.
- `Translate`, the `r#box` module and `BvhNode::new2` are outside the modelled files and are not modelled.
- The BVH constructor and its comparators are commented out in `bvh.rs` and are not modelled. A BVH node is built directly from two children and a box.
- `ImageTexture::new` decodes a file through the `image` crate and is not modelled.
- Textures.WellSizedImage describes what `ImageTexture::new` yields only for an 8-bit RGB picture whose last byte index, `height * bytes_per_scanline - 1`, fits in an i32. For grey, alpha or 16-bit pictures `into_bytes` has another length than `3 * width * height`. For a picture of more than 2^31 bytes the i32 index `j * bytes_per_scanline + i * 3` at texture.rs:141-143 overflows: a debug build panics and a release build wraps to a negative index that panics. `Textures.ImageValue` and `Textures.ByteIndexInBounds` say nothing about those pictures.
- `Perlin::new_0` builds a generator with empty tables. No modelled file calls it, and it is not modelled. `ImageTexture::new_0` is modelled as `Textures.EmptyImage`.
- Noise.WrappingAdd models the i32 `i + di` of perlin.rs:79-81 as a release build computes it, wrapping around. A debug build panics on that overflow instead. It is reachable: `Noise.FloorI32` saturates at `i32::MAX`, and adding `di = 1` then overflows.
- Noise.FloorI32 saturates the `floor() as i32` cast, but the i32 overflow of `height * c` in the band arithmetic is not modelled. Heights are naturals.
- Debug printing (`Ray::info`, the `debugging` branch of `ConstantMedium::hit`, the zero-length message of `unit`) is not modelled.
- Textures.Valid requires both sides of a checker texture to be present. The source panics only when the selected side is missing (texture.rs:59-66). So a checker with an unused missing side makes the model report `Render.Step`'s `Broken` where the source renders.
- Render.RayColor returns `None` where the source panics: on `rec.mat.clone().unwrap()` for a hit without a material, and for a material `Materials.Valid` excludes.
- Cameras.New states unit frame vectors only when `lookfrom - lookat` and `vup x w` have nonzero squared length, where the source divides by zero.
- Cameras.GetRay takes the point `random_in_unit_disk` returned as a parameter, rather than the draws that produce it.
- Boxes.HitIff, Boxes.HitFromSound, Boxes.HitMonotone, Boxes.EmptyWindowMisses and Boxes.HitWindowMonotone are stated for rays with no zero direction component. For such a component the source's NaN exit can drop the caller's `t_max`, as `Boxes.ZeroDirectionDropsUpperBound` shows. Completeness for strictly interior points, `Boxes.HitComplete`, holds for every direction.
- Spheres.BoxContainsSphere requires a positive radius. For a negative radius the source's box is inverted.
- Scene.Hittable has a `List` variant that may nest anywhere. In the source `HittableList` does not implement `Hiitable` (its `hit` and `bounding_box` at hittable_list.rs:25 and :48 are inherent), so a list is only ever queried at the root, as the world that `ray_color` takes (main.rs:45). Nesting it is a modelling convenience; the lemmas about lists also hold for the root list.
- Scene.MediumHit computes the second probe unconditionally. The source computes it only after the first succeeds, which gives the same result because the probes are pure.
- The corrected medium (`Media.Resolve`) with a ray of zero length reports a miss, where the corrected division would divide by zero.

## Findings

| source | as written | input that shows it | evidently intended | confidence | as-written member | corrected member |
|---|---|---|---|---|---|---|
| raytracer/src/hittable_list.rs:55-61 | `bounding_box` returns `false` as soon as a member does report a box | a list holding one sphere reports no box | fail only when a member reports no box, and otherwise return the union of the members' boxes | not executed | Scene.ListBoxAsWrittenInverted | Scene.ListBoxSurroundsMembers |
| raytracer/src/constant_medium.rs:47-53 | both boundary probes write into `rec1.clone()` and `rec2.clone()`, so `rec1.t` and `rec2.t` stay 0 and the span test at line 67 always fails | any ray through a medium whose boundary is a unit sphere at the origin, on the window [0.001, ∞) | the probes fill `rec1` and `rec2`, and the medium scatters inside the boundary | not executed | Scene.MediumAsWrittenNeverHits | Scene.MediumHitsWhenPathFits |
| raytracer/src/texture.rs:123 | the "no data" guard compares the buffer with the two bytes `[0, 0]` | `ImageTexture::new_0()` with any (u, v): the index becomes -3 and the lookup panics | the guard tests for the empty buffer and returns (0, 1, 1) | not executed | Textures.EmptyImagePanics | Textures.ImageValueCorrected |
| raytracer/src/constant_medium.rs:83 | `rec.t = rec1.t + hit_distance` adds a distance to a ray parameter | direction of length 2, probes at 0 and 1, window [0, 1], free path 1.5: `t = 1.5`, outside the window | `rec.t = rec1.t + hit_distance / ray_length`, which gives 0.75 | not executed | Media.ResolveAsWrittenOvershoots | Media.ResolveWithinSpan |

=== FILE: aabb.dfy ===
/** Axis-aligned bounding boxes (`aabb.rs`) and the slab test the BVH uses to
    skip whole subtrees.

    The slab test divides by each direction component. For a nonzero
    component the entry and exit parameters are finite. For a zero component
    the source multiplies by an infinite reciprocal, which yields an infinity of
    the sign of the distance to the slab, or NaN when the origin lies exactly on
    the slab's plane; `Float` carries those values, and `Ge` is the f64
    comparison that is false whenever NaN is involved. A direction component of
    negative zero (whose reciprocal is negative infinity) is treated as positive
    zero.
 */
module Boxes {
  import opened Utility
  import opened Vectors
  import opened Rays

  datatype Aabb = Aabb(minimum: Vec3, maximum: Vec3)

  /** `AAbb::new_0`: the degenerate box at the origin. */
  function Empty(): (b: Aabb)
    ensures b.minimum == b.maximum == Vectors.Zero()
  {
    Aabb(Vectors.Zero(), Vectors.Zero())
  }

  /** An f64 value in the slab test: an extended real or NaN. */
  datatype Float = NaN | Num(e: Ext)

  /** f64 `>=`: false as soon as either side is NaN. */
  predicate Ge(x: Float, y: Float) {
    x.Num? && y.Num? && Le(y.e, x.e)
  }

  /** `fmax` on f64: `if x >= y { x } else { y }`. */
  function FloatMax(x: Float, y: Float): (r: Float)
    ensures x.Num? && y.Num? ==> r.Num? && Le(x.e, r.e) && Le(y.e, r.e)
    ensures x.NaN? ==> r == y
  {
    if Ge(x, y) then x else y
  }

  /** `fmin` on f64: `if x >= y { y } else { x }`. */
  function FloatMin(x: Float, y: Float): (r: Float)
    ensures x.Num? && y.Num? ==> r.Num? && Le(r.e, x.e) && Le(r.e, y.e)
    ensures x.NaN? ==> r == x
  {
    if Ge(x, y) then y else x
  }

  /** The product of a finite number with an infinite reciprocal `1/+0`. */
  function TimesInfinity(x: real): Float {
    if x > 0.0 then Num(PosInf) else if x < 0.0 then Num(NegInf) else NaN
  }

  /** Entry and exit parameters of one slab, after the swap for a negative
      reciprocal (`aabb.rs`, each of the three blocks of `hit`). */
  function SlabTimes(mn: real, mx: real, o: real, d: real): (Float, Float) {
    if d != 0.0 then
      var invd := 1.0 / d;
      var t0 := (mn - o) * invd;
      var t1 := (mx - o) * invd;
      if invd < 0.0 then (Num(Fin(t1)), Num(Fin(t0))) else (Num(Fin(t0)), Num(Fin(t1)))
    else
      (TimesInfinity(mn - o), TimesInfinity(mx - o))
  }

  /** The slab test from axis `a` on, with the current window (lo, hi). */
  function HitFrom(b: Aabb, r: Ray, a: nat, lo: Float, hi: Float): bool
    requires a <= 3
    decreases 3 - a
  {
    if a == 3 then true
    else
      var (t0, t1) := SlabTimes(Index(b.minimum, a), Index(b.maximum, a),
                                Index(r.origin, a), Index(r.direction, a));
      var lo' := FloatMax(t0, lo);
      var hi' := FloatMin(t1, hi);
      if Ge(lo', hi') then false
      else HitFrom(b, r, a + 1, lo', hi')
  }

  /** `AAbb::hit`: does the ray cross the box for some parameter in the window? */
  function Hit(b: Aabb, r: Ray, tMin: Ext, tMax: Ext): bool {
    HitFrom(b, r, 0, Num(tMin), Num(tMax))
  }

  /** The point lies strictly inside the box on every axis. */
  predicate StrictlyInside(b: Aabb, p: Vec3) {
    forall a: nat :: a < 3 ==> Index(b.minimum, a) < Index(p, a) < Index(b.maximum, a)
  }

  /** The point lies in the closed box. */
  predicate Inside(b: Aabb, p: Vec3) {
    forall a: nat :: a < 3 ==> Index(b.minimum, a) <= Index(p, a) <= Index(b.maximum, a)
  }

  /** `outer` contains `inner` (both taken as closed boxes). */
  predicate Contains(outer: Aabb, inner: Aabb) {
    forall a: nat :: a < 3 ==>
      Index(outer.minimum, a) <= Index(inner.minimum, a) && Index(inner.maximum, a) <= Index(outer.maximum, a)
  }

  predicate NonzeroDirection(r: Ray) {
    forall a: nat :: a < 3 ==> Index(r.direction, a) != 0.0
  }

  /** `surrounding_box`: componentwise `fmin` of the minima and `fmax` of the maxima. */
  function SurroundingBox(b0: Aabb, b1: Aabb): (s: Aabb)
    ensures Contains(s, b0) && Contains(s, b1)
  {
    var s := Aabb(
      Vec3(Fmin(b0.minimum.x, b1.minimum.x), Fmin(b0.minimum.y, b1.minimum.y), Fmin(b0.minimum.z, b1.minimum.z)),
      Vec3(Fmax(b0.maximum.x, b1.maximum.x), Fmax(b0.maximum.y, b1.maximum.y), Fmax(b0.maximum.z, b1.maximum.z)));
    assert Contains(s, b0) && Contains(s, b1) by {
      forall a: nat | a < 3
        ensures Index(s.minimum, a) <= Index(b0.minimum, a) && Index(b0.maximum, a) <= Index(s.maximum, a)
        ensures Index(s.minimum, a) <= Index(b1.minimum, a) && Index(b1.maximum, a) <= Index(s.maximum, a)
      {
      }
    }
    s
  }

  // ----- The surrounding box -----

  /** Any box containing both boxes contains their surrounding box. */
  lemma SurroundingBoxTightest(b0: Aabb, b1: Aabb, c: Aabb)
    requires Contains(c, b0) && Contains(c, b1)
    ensures Contains(c, SurroundingBox(b0, b1))
  {
    var s := SurroundingBox(b0, b1);
    forall a: nat | a < 3
      ensures Index(c.minimum, a) <= Index(s.minimum, a) && Index(s.maximum, a) <= Index(c.maximum, a)
    {
      assert Index(c.minimum, a) <= Index(b0.minimum, a) && Index(c.minimum, a) <= Index(b1.minimum, a);
      assert Index(b0.maximum, a) <= Index(c.maximum, a) && Index(b1.maximum, a) <= Index(c.maximum, a);
    }
  }

  /** The surrounding box is symmetric and surrounding a box with itself changes nothing. */
  lemma SurroundingBoxAlgebra(b0: Aabb, b1: Aabb)
    ensures SurroundingBox(b0, b1) == SurroundingBox(b1, b0)
    ensures SurroundingBox(b0, b0) == b0
  {
  }

  lemma ContainsTransitive(a: Aabb, b: Aabb, c: Aabb)
    requires Contains(a, b) && Contains(b, c)
    ensures Contains(a, c)
  {
    forall i: nat | i < 3
      ensures Index(a.minimum, i) <= Index(c.minimum, i) && Index(c.maximum, i) <= Index(a.maximum, i)
    {
      assert Index(a.minimum, i) <= Index(b.minimum, i) && Index(b.maximum, i) <= Index(a.maximum, i);
    }
  }

  lemma ContainsInside(outer: Aabb, inner: Aabb, p: Vec3)
    requires Contains(outer, inner)
    ensures StrictlyInside(inner, p) ==> StrictlyInside(outer, p)
    ensures Inside(inner, p) ==> Inside(outer, p)
  {
    if StrictlyInside(inner, p) {
      forall a: nat | a < 3
        ensures Index(outer.minimum, a) < Index(p, a) < Index(outer.maximum, a)
      {
        assert Index(inner.minimum, a) < Index(p, a) < Index(inner.maximum, a);
      }
    }
    if Inside(inner, p) {
      forall a: nat | a < 3
        ensures Index(outer.minimum, a) <= Index(p, a) <= Index(outer.maximum, a)
      {
        assert Index(inner.minimum, a) <= Index(p, a) <= Index(inner.maximum, a);
      }
    }
  }

  // ----- One slab -----

  lemma LtScalePositive(x: real, y: real, k: real)
    requires k > 0.0
    ensures x < y <==> x * k < y * k
  {
    if x < y {
      MulPos(y - x, k);
    }
    if x * k < y * k {
      assert (y - x) * k > 0.0;
      if y - x <= 0.0 {
        MulNonneg(x - y, k);
      }
    }
  }

  /** For a nonzero direction component, a parameter lies strictly between the
      slab's entry and exit exactly when the ray's coordinate lies strictly
      between the slab's planes. */
  lemma SlabExact(mn: real, mx: real, o: real, d: real, t: real)
    requires d != 0.0
    ensures SlabTimes(mn, mx, o, d).0.Num? && SlabTimes(mn, mx, o, d).0.e.Fin?
    ensures SlabTimes(mn, mx, o, d).1.Num? && SlabTimes(mn, mx, o, d).1.e.Fin?
    ensures SlabTimes(mn, mx, o, d).0.e.v < t < SlabTimes(mn, mx, o, d).1.e.v
        <==> mn < o + d * t < mx
  {
    var invd := 1.0 / d;
    var t0 := (mn - o) * invd;
    var t1 := (mx - o) * invd;
    assert invd * d == 1.0;
    assert t0 * d == mn - o by {
      assert t0 * d == (mn - o) * (invd * d);
    }
    assert t1 * d == mx - o by {
      assert t1 * d == (mx - o) * (invd * d);
    }
    if d > 0.0 {
      assert invd > 0.0;
      ScaledBetween(t0, t1, t, d, mn - o, mx - o);
    } else {
      assert invd < 0.0;
      ScaledBetween(t1, t0, t, -d, o - mx, o - mn);
      assert t1 * (-d) == o - mx && t0 * (-d) == o - mn;
    }
  }

  /** For a positive scale `k`, with `lo * k == a` and `hi * k == b`, the
      parameter lies between `lo` and `hi` exactly when `t * k` lies between
      `a` and `b`. */
  lemma ScaledBetween(lo: real, hi: real, t: real, k: real, a: real, b: real)
    requires k > 0.0 && lo * k == a && hi * k == b
    ensures lo < t < hi <==> a < t * k < b
  {
    LtScalePositive(lo, t, k);
    LtScalePositive(t, hi, k);
  }

  /** A coordinate strictly between the planes puts the parameter strictly
      between entry and exit also for a zero direction component, where both
      are infinite. */
  lemma SlabInterior(mn: real, mx: real, o: real, d: real, t: real)
    requires mn < o + d * t < mx
    ensures SlabTimes(mn, mx, o, d).0.Num? && Lt(SlabTimes(mn, mx, o, d).0.e, Fin(t))
    ensures SlabTimes(mn, mx, o, d).1.Num? && Lt(Fin(t), SlabTimes(mn, mx, o, d).1.e)
  {
    if d != 0.0 {
      SlabExact(mn, mx, o, d, t);
    }
  }

  // ----- The slab test -----

  /** If some parameter inside the window (lo, hi) places the ray strictly inside
      the box, the slab test from axis `a` on succeeds. */
  lemma {:induction false} HitFromComplete(b: Aabb, r: Ray, a: nat, lo: Float, hi: Float, t: real)
    requires a <= 3
    requires lo.Num? && hi.Num? && Lt(lo.e, Fin(t)) && Lt(Fin(t), hi.e)
    requires forall i: nat :: a <= i < 3 ==> Index(b.minimum, i) < Index(At(r, t), i) < Index(b.maximum, i)
    ensures HitFrom(b, r, a, lo, hi)
    decreases 3 - a
  {
    if a < 3 {
      var mn, mx := Index(b.minimum, a), Index(b.maximum, a);
      var o, d := Index(r.origin, a), Index(r.direction, a);
      assert Index(At(r, t), a) == o + d * t;
      SlabInterior(mn, mx, o, d, t);
      var (t0, t1) := SlabTimes(mn, mx, o, d);
      var lo', hi' := FloatMax(t0, lo), FloatMin(t1, hi);
      assert Lt(lo'.e, Fin(t)) && Lt(Fin(t), hi'.e);
      HitFromComplete(b, r, a + 1, lo', hi', t);
    }
  }

  /** With every direction component nonzero, a successful slab test from axis
      `a` leaves a finite nonempty window of parameters all of which place the
      ray strictly inside the box on the remaining axes. */
  lemma {:induction false} HitFromSound(b: Aabb, r: Ray, a: nat, lo: Float, hi: Float)
    returns (t: real)
    requires a < 3 && NonzeroDirection(r)
    requires lo.Num? && hi.Num?
    requires HitFrom(b, r, a, lo, hi)
    ensures Lt(lo.e, Fin(t)) && Lt(Fin(t), hi.e)
    ensures forall i: nat :: a <= i < 3 ==> Index(b.minimum, i) < Index(At(r, t), i) < Index(b.maximum, i)
    decreases 3 - a
  {
    var mn, mx := Index(b.minimum, a), Index(b.maximum, a);
    var o, d := Index(r.origin, a), Index(r.direction, a);
    var (t0, t1) := SlabTimes(mn, mx, o, d);
    SlabFinite(mn, mx, o, d);
    var lo', hi' := FloatMax(t0, lo), FloatMin(t1, hi);
    NarrowedWindow(t0, t1, lo, hi);
    if a == 2 {
      t := (lo'.e.v + hi'.e.v) / 2.0;
    } else {
      t := HitFromSound(b, r, a + 1, lo', hi');
    }
    WithinNarrowed(t0, t1, lo, hi, t);
    AxisInside(b, r, a, t);
    forall i: nat | a <= i < 3
      ensures Index(b.minimum, i) < Index(At(r, t), i) < Index(b.maximum, i)
    {
    }
  }

  /** On an axis with a nonzero direction component, a parameter strictly
      between the slab's entry and exit puts the ray strictly between its planes. */
  lemma AxisInside(b: Aabb, r: Ray, a: nat, t: real)
    requires a < 3 && Index(r.direction, a) != 0.0
    requires var (t0, t1) := SlabTimes(Index(b.minimum, a), Index(b.maximum, a),
                                       Index(r.origin, a), Index(r.direction, a));
             t0.Num? && t1.Num? && Lt(t0.e, Fin(t)) && Lt(Fin(t), t1.e)
    ensures Index(b.minimum, a) < Index(At(r, t), a) < Index(b.maximum, a)
  {
    var mn, mx := Index(b.minimum, a), Index(b.maximum, a);
    var o, d := Index(r.origin, a), Index(r.direction, a);
    SlabExact(mn, mx, o, d, t);
    assert Index(At(r, t), a) == o + d * t;
  }

  lemma SlabFinite(mn: real, mx: real, o: real, d: real)
    requires d != 0.0
    ensures SlabTimes(mn, mx, o, d).0.Num? && SlabTimes(mn, mx, o, d).0.e.Fin?
    ensures SlabTimes(mn, mx, o, d).1.Num? && SlabTimes(mn, mx, o, d).1.e.Fin?
  {
  }

  /** One step of the slab test with finite entry and exit that keeps a
      nonempty window leaves a finite nonempty window. */
  lemma NarrowedWindow(t0: Float, t1: Float, lo: Float, hi: Float)
    requires t0.Num? && t0.e.Fin? && t1.Num? && t1.e.Fin? && lo.Num? && hi.Num?
    requires !Ge(FloatMax(t0, lo), FloatMin(t1, hi))
    ensures FloatMax(t0, lo).Num? && FloatMax(t0, lo).e.Fin?
    ensures FloatMin(t1, hi).Num? && FloatMin(t1, hi).e.Fin?
    ensures FloatMax(t0, lo).e.v < FloatMin(t1, hi).e.v
  {
  }

  /** A parameter inside the narrowed window lies inside the old window and the slab. */
  lemma WithinNarrowed(t0: Float, t1: Float, lo: Float, hi: Float, t: real)
    requires t0.Num? && t1.Num? && lo.Num? && hi.Num?
    requires Lt(FloatMax(t0, lo).e, Fin(t)) && Lt(Fin(t), FloatMin(t1, hi).e)
    ensures Lt(t0.e, Fin(t)) && Lt(Fin(t), t1.e) && Lt(lo.e, Fin(t)) && Lt(Fin(t), hi.e)
  {
  }

  /** `AAbb::hit` succeeds exactly when some parameter strictly inside the window
      puts the ray strictly inside the box (for a ray with no zero direction
      component). */
  lemma HitIff(b: Aabb, r: Ray, tMin: Ext, tMax: Ext)
    requires NonzeroDirection(r)
    ensures Hit(b, r, tMin, tMax) <==>
      exists t: real :: Lt(tMin, Fin(t)) && Lt(Fin(t), tMax) && StrictlyInside(b, At(r, t))
  {
    if Hit(b, r, tMin, tMax) {
      var t := HitFromSound(b, r, 0, Num(tMin), Num(tMax));
      assert StrictlyInside(b, At(r, t));
    }
    if exists t: real :: Lt(tMin, Fin(t)) && Lt(Fin(t), tMax) && StrictlyInside(b, At(r, t)) {
      var t: real :| Lt(tMin, Fin(t)) && Lt(Fin(t), tMax) && StrictlyInside(b, At(r, t));
      HitComplete(b, r, tMin, tMax, t);
    }
  }

  /** For any ray, zero direction components included: a parameter strictly
      inside the window that puts the ray strictly inside the box makes
      `AAbb::hit` succeed. */
  lemma HitComplete(b: Aabb, r: Ray, tMin: Ext, tMax: Ext, t: real)
    requires Lt(tMin, Fin(t)) && Lt(Fin(t), tMax) && StrictlyInside(b, At(r, t))
    ensures Hit(b, r, tMin, tMax)
  {
    HitFromComplete(b, r, 0, Num(tMin), Num(tMax), t);
  }

  /** A ray that passes the test of a box passes the test of any box containing it. */
  lemma HitMonotone(inner: Aabb, outer: Aabb, r: Ray, tMin: Ext, tMax: Ext)
    requires NonzeroDirection(r) && Contains(outer, inner)
    requires Hit(inner, r, tMin, tMax)
    ensures Hit(outer, r, tMin, tMax)
  {
    HitIff(inner, r, tMin, tMax);
    var t: real :| Lt(tMin, Fin(t)) && Lt(Fin(t), tMax) && StrictlyInside(inner, At(r, t));
    ContainsInside(outer, inner, At(r, t));
    HitComplete(outer, r, tMin, tMax, t);
  }

  /** An empty window never passes (for a ray with no zero direction component). */
  lemma EmptyWindowMisses(b: Aabb, r: Ray, tMin: Ext, tMax: Ext)
    requires NonzeroDirection(r) && Le(tMax, tMin)
    ensures !Hit(b, r, tMin, tMax)
  {
    HitIff(b, r, tMin, tMax);
  }

  /** Widening the window can only turn a miss into a hit (for a ray with no
      zero direction component): a miss on a window is a miss on every window inside it. */
  lemma HitWindowMonotone(b: Aabb, r: Ray, tMin: Ext, tMax: Ext, tMin': Ext, tMax': Ext)
    requires NonzeroDirection(r) && Le(tMin, tMin') && Le(tMax', tMax)
    requires Hit(b, r, tMin', tMax')
    ensures Hit(b, r, tMin, tMax)
  {
    HitIff(b, r, tMin', tMax');
    var t: real :| Lt(tMin', Fin(t)) && Lt(Fin(t), tMax') && StrictlyInside(b, At(r, t));
    HitComplete(b, r, tMin, tMax, t);
  }

  /** A ray whose origin lies strictly inside the box hits it over any window around 0. */
  lemma OriginInsideHits(b: Aabb, r: Ray, tMin: Ext, tMax: Ext)
    requires StrictlyInside(b, r.origin) && Lt(tMin, Fin(0.0)) && Lt(Fin(0.0), tMax)
    ensures Hit(b, r, tMin, tMax)
  {
    AtAffine(r, 0.0, 0.0);
    HitComplete(b, r, tMin, tMax, 0.0);
  }

  /** After the swap, entry does not come after exit when the slab is not inverted. */
  lemma SlabOrdered(mn: real, mx: real, o: real, d: real)
    requires d != 0.0 && mn <= mx
    ensures SlabTimes(mn, mx, o, d).0.Num? && SlabTimes(mn, mx, o, d).1.Num?
    ensures Le(SlabTimes(mn, mx, o, d).0.e, SlabTimes(mn, mx, o, d).1.e)
  {
    var invd := 1.0 / d;
    if invd < 0.0 {
      MulMono(mn - o, mx - o, -invd);
    } else {
      MulMono(mn - o, mx - o, invd);
    }
  }

  /** With a zero direction component and the origin on that slab's far plane,
      the exit parameter is NaN; `fmin(NaN, t_max)` yields NaN, and the next
      axis's `fmin(t1, NaN)` yields `t1`, so the caller's `t_max` is lost and
      even an empty window passes. */
  lemma ZeroDirectionDropsUpperBound()
    ensures var b := Aabb(Vec3(0.0, 0.0, 0.0), Vec3(1.0, 1.0, 1.0));
            var r := Ray(Vec3(1.0, 0.5, 0.5), Vec3(0.0, 1.0, 1.0), 0.0);
            Le(Fin(-1.0), Fin(0.0)) && Hit(b, r, Fin(0.0), Fin(-1.0))
  {
    var b := Aabb(Vec3(0.0, 0.0, 0.0), Vec3(1.0, 1.0, 1.0));
    var r := Ray(Vec3(1.0, 0.5, 0.5), Vec3(0.0, 1.0, 1.0), 0.0);
    assert SlabTimes(0.0, 1.0, 1.0, 0.0) == (Num(NegInf), NaN);
    assert SlabTimes(0.0, 1.0, 0.5, 1.0) == (Num(Fin(-0.5)), Num(Fin(0.5)));
    var lo1, hi1 := FloatMax(Num(NegInf), Num(Fin(0.0))), FloatMin(NaN, Num(Fin(-1.0)));
    assert lo1 == Num(Fin(0.0)) && hi1 == NaN;
    var lo2, hi2 := FloatMax(Num(Fin(-0.5)), lo1), FloatMin(Num(Fin(0.5)), hi1);
    assert lo2 == Num(Fin(0.0)) && hi2 == Num(Fin(0.5));
    assert HitFrom(b, r, 2, lo2, hi2);
    assert HitFrom(b, r, 1, lo1, hi1);
  }
}

=== FILE: aarect.dfy ===
/** Axis-aligned rectangles (`aarect.rs`): the rectangle [x0, x1] x [y0, y1]
    in the plane z = k. A ray meets the plane at `t = (k - origin.z) / dir.z`;
    the source divides without a check, and a ray parallel to the plane
    (`dir.z = 0`) misses here. */
module Rects {
  import opened Utility
  import opened Vectors
  import opened Rays
  import opened Records
  import opened Boxes
  import Materials

  type Rec = HitRecord<Materials.Material>

  datatype XyRect = XyRect(x0: real, x1: real, y0: real, y1: real, k: real, mat: Option<Materials.Material>)

  /** The padding `bounding_box` adds on both sides of the plane. */
  const Pad: real := 0.0001

  /** The rectangle holds the point: it lies in the plane and within both extents. */
  predicate OnRect(rect: XyRect, p: Vec3) {
    p.z == rect.k && rect.x0 <= p.x <= rect.x1 && rect.y0 <= p.y <= rect.y1
  }

  /** The texture coordinate of `x` along [lo, hi]. */
  function Coordinate(x: real, lo: real, hi: real): (c: real)
    requires lo != hi
    ensures lo < hi && lo <= x <= hi ==> 0.0 <= c <= 1.0
    ensures x == lo ==> c == 0.0
    ensures x == hi ==> c == 1.0
  {
    var c := (x - lo) / (hi - lo);
    assert lo < hi && lo <= x <= hi ==> 0.0 <= c <= 1.0 by {
      if lo < hi && lo <= x <= hi {
        RatioInUnit(x - lo, hi - lo);
      }
    }
    DivEnds(x - lo, hi - lo);
    c
  }

  /** `Xyrect::hit`: reject a parameter outside [t_min, t_max], then a point
      outside the rectangle, before writing anything; on a hit write the
      texture coordinates, `t`, the face against the normal (0, 0, 1), the
      material and the point. */
  function Hit(rect: XyRect, r: Ray, tMin: Ext, tMax: Ext, rec: Rec): (res: HitResult<Materials.Material>)
    requires rect.x0 != rect.x1 && rect.y0 != rect.y1
    ensures !res.hit ==> res.rec == rec
    ensures res.hit ==> (
      && Within(res.rec.t, tMin, tMax)
      && res.rec.p == At(r, res.rec.t)
      && OnRect(rect, res.rec.p)
      && (res.rec.normal == Vec3(0.0, 0.0, 1.0) || res.rec.normal == Vec3(0.0, 0.0, -1.0))
      && res.rec.mat == rect.mat)
    ensures res.hit && rect.x0 < rect.x1 ==> 0.0 <= res.rec.u <= 1.0
    ensures res.hit && rect.y0 < rect.y1 ==> 0.0 <= res.rec.v <= 1.0
  {
    if r.direction.z == 0.0 then Miss(rec)
    else
      var t := (rect.k - r.origin.z) / r.direction.z;
      if !Within(t, tMin, tMax) then Miss(rec)
      else
        var x := r.origin.x + t * r.direction.x;
        var y := r.origin.y + t * r.direction.y;
        if x < rect.x0 || x > rect.x1 || y < rect.y0 || y > rect.y1 then Miss(rec)
        else
          var rec1 := rec.(u := Coordinate(x, rect.x0, rect.x1), v := Coordinate(y, rect.y0, rect.y1), t := t);
          var rec2 := SetFrontFace(rec1, r, Vec3(0.0, 0.0, 1.0));
          PlaneParameter(r, rect.k, t);
          HitResult(true, rec2.(mat := rect.mat, p := At(r, t)))
  }

  /** `Xyrect::bounding_box`: the rectangle padded by `Pad` above and below
      the plane; it always reports a box. */
  function BoundingBox(rect: XyRect): (res: (bool, Aabb))
    ensures res.0
    ensures res.1.minimum.z < rect.k < res.1.maximum.z
  {
    (true, Aabb(Vec3(rect.x0, rect.y0, rect.k - Pad), Vec3(rect.x1, rect.y1, rect.k + Pad)))
  }

  // ----- Lemmas -----

  lemma RatioInUnit(a: real, b: real)
    requires 0.0 <= a <= b && b > 0.0
    ensures 0.0 <= a / b <= 1.0
  {
  }

  lemma DivEnds(a: real, w: real)
    requires w != 0.0
    ensures a == 0.0 ==> a / w == 0.0
    ensures a == w ==> a / w == 1.0
  {
  }

  /** The parameter at which the ray meets the plane z = k. */
  lemma PlaneParameter(r: Ray, k: real, t: real)
    requires r.direction.z != 0.0
    ensures At(r, t).z == k <==> t == (k - r.origin.z) / r.direction.z
  {
    var d := r.direction.z;
    if At(r, t).z == k {
      assert d * t == k - r.origin.z;
    } else {
      assert d * ((k - r.origin.z) / d) == k - r.origin.z;
    }
  }

  /** The rectangle's `hit` is complete: if the point of the ray at some `t`
      in the window lies on the rectangle, the ray hits it there. */
  lemma HitComplete(rect: XyRect, r: Ray, tMin: Ext, tMax: Ext, rec: Rec, t: real)
    requires rect.x0 != rect.x1 && rect.y0 != rect.y1 && r.direction.z != 0.0
    requires Within(t, tMin, tMax) && OnRect(rect, At(r, t))
    ensures Hit(rect, r, tMin, tMax, rec).hit && Hit(rect, r, tMin, tMax, rec).rec.t == t
  {
    PlaneParameter(r, rect.k, t);
  }

  /** A ray that misses reaches no point of the rectangle inside the window. */
  lemma MissMeansNoPoint(rect: XyRect, r: Ray, tMin: Ext, tMax: Ext, rec: Rec, t: real)
    requires rect.x0 != rect.x1 && rect.y0 != rect.y1 && r.direction.z != 0.0
    requires !Hit(rect, r, tMin, tMax, rec).hit && Within(t, tMin, tMax)
    ensures !OnRect(rect, At(r, t))
  {
    if OnRect(rect, At(r, t)) {
      HitComplete(rect, r, tMin, tMax, rec, t);
    }
  }

  /** A ray that travels against the normal (0, 0, 1) hits the front face. */
  lemma FrontFaceFromBelow(rect: XyRect, r: Ray, tMin: Ext, tMax: Ext, rec: Rec)
    requires rect.x0 != rect.x1 && rect.y0 != rect.y1
    requires Hit(rect, r, tMin, tMax, rec).hit
    ensures Hit(rect, r, tMin, tMax, rec).rec.frontFace <==> r.direction.z < 0.0
    ensures Hit(rect, r, tMin, tMax, rec).rec.normal.z * r.direction.z < 0.0
  {
  }

  /** Every point of the rectangle lies in its box, strictly inside along z. */
  lemma BoxContainsRect(rect: XyRect, p: Vec3)
    requires OnRect(rect, p)
    ensures Inside(BoundingBox(rect).1, p)
    ensures BoundingBox(rect).1.minimum.z < p.z < BoundingBox(rect).1.maximum.z
  {
    var b := BoundingBox(rect).1;
    forall a: nat | a < 3
      ensures Index(b.minimum, a) <= Index(p, a) <= Index(b.maximum, a)
    {
    }
  }
}

=== FILE: camera.dfy ===
/** The thin-lens camera (`camera.rs`). `New` builds an orthonormal frame
    `(u, v, w)` looking from `lookfrom` toward `lookat`, a viewport of the
    given vertical field of view placed `focusDist` in front of the camera,
    and a lens of radius `aperture / 2`. `GetRay` casts a ray from a point of
    the lens through the point `(s, t)` of the viewport at a shutter time
    between `time0` and `time1`; the lens sample and the time draw are
    parameters. */
module Cameras {
  import opened Utility
  import opened Vectors
  import opened Rays

  datatype Camera = Camera(
    origin: Vec3,
    lowerLeftCorner: Vec3,
    horizontal: Vec3,
    vertical: Vec3,
    u: Vec3,
    v: Vec3,
    w: Vec3,
    lensRadius: real,
    time0: real,
    time1: real)

  /** The point `(s, t)` of the viewport, in viewport coordinates from the
      lower left corner. */
  function ViewportPoint(cam: Camera, s: real, t: real): Vec3 {
    Add(Add(cam.lowerLeftCorner, Scale(cam.horizontal, s)), Scale(cam.vertical, t))
  }

  /** `Camera::new`; `combine` is the tuple `(focus_dist, time_0, time_1)`.
      The frame vectors are pairwise orthogonal whatever the inputs; they are
      unit vectors when neither `lookfrom - lookat` nor `vup x w` is zero, the
      cases where `unit` would divide by zero; the
      centre of the viewport lies `focusDist` along `-w` from the camera. */
  function New(aspectRatio: real, lookfrom: Vec3, lookat: Vec3, vup: Vec3, vfov: real,
               aperture: real, combine: (real, real, real), o: Oracle): (cam: Camera)
    ensures cam.origin == lookfrom && cam.lensRadius * 2.0 == aperture
    ensures cam.time0 == combine.1 && cam.time1 == combine.2
    ensures Dot(cam.u, cam.w) == 0.0 && Dot(cam.v, cam.w) == 0.0 && Dot(cam.v, cam.u) == 0.0
    ensures Valid(o) && SquaredLength(Sub(lookfrom, lookat)) != 0.0 ==> SquaredLength(cam.w) == 1.0
    ensures Valid(o) && SquaredLength(Sub(lookfrom, lookat)) != 0.0 && SquaredLength(Cross(vup, cam.w)) != 0.0 ==>
              SquaredLength(cam.u) == 1.0 && SquaredLength(cam.v) == 1.0
    ensures ViewportPoint(cam, 0.5, 0.5) == Sub(lookfrom, Scale(cam.w, combine.0))
  {
    var (focusDist, time0, time1) := combine;
    var theta := DegreesToRadians(vfov, o.pi);
    var h := Tan(o, theta / 2.0);
    var viewportHeight := 2.0 * h;
    var viewportWidth := aspectRatio * viewportHeight;
    var w := Unit(Sub(lookfrom, lookat), o);
    var c := Cross(vup, w);
    var u := Unit(c, o);
    var v := Cross(w, u);
    var horizontal := Scale(Scale(u, viewportWidth), focusDist);
    var vertical := Scale(Scale(v, viewportHeight), focusDist);
    var cam := Camera(
      lookfrom,
      Sub(Sub(Sub(lookfrom, Div(horizontal, 2.0)), Div(vertical, 2.0)), Scale(w, focusDist)),
      horizontal, vertical, u, v, w, aperture / 2.0, time0, time1);
    FrameOrthogonal(vup, w, o);
    FrameUnit(lookfrom, lookat, vup, o);
    ViewportCentre(lookfrom, u, v, w, viewportWidth, viewportHeight, focusDist);
    cam
  }

  /** `Camera::get_ray`. `disk` is the point `random_in_unit_disk` returned
      and `timeDraw` the draw of `random_f64_1`. The ray starts at the lens
      point `origin + u * rd.x + v * rd.y` with `rd = disk * lensRadius` and
      aims at the viewport point `(s, t)`, whatever the lens sample. */
  function GetRay(cam: Camera, s: real, t: real, disk: Vec3, timeDraw: real): (r: Ray)
    requires disk.z == 0.0 && SquaredLength(disk) < 1.0 && UnitDraw(timeDraw)
    ensures Add(r.origin, r.direction) == ViewportPoint(cam, s, t)
    ensures Sub(r.origin, cam.origin) == Add(Scale(cam.u, disk.x * cam.lensRadius), Scale(cam.v, disk.y * cam.lensRadius))
    ensures cam.time0 < cam.time1 ==> cam.time0 <= r.time < cam.time1
    ensures cam.time0 == cam.time1 ==> r.time == cam.time0
  {
    var rd := Scale(disk, cam.lensRadius);
    var offset := Add(Scale(cam.u, rd.x), Scale(cam.v, rd.y));
    Ray(Add(cam.origin, offset),
        Sub(Sub(Add(Add(cam.lowerLeftCorner, Scale(cam.horizontal, s)), Scale(cam.vertical, t)), cam.origin), offset),
        RandomRange(cam.time0, cam.time1, timeDraw))
  }

  // ----- Lemmas -----

  /** The frame `New` builds from `w`: `u = unit(vup x w)` and `v = w x u`
      are orthogonal to `w` and to each other. */
  lemma FrameOrthogonal(vup: Vec3, w: Vec3, o: Oracle)
    ensures var u := Unit(Cross(vup, w), o);
      Dot(u, w) == 0.0 && Dot(Cross(w, u), w) == 0.0 && Dot(Cross(w, u), u) == 0.0
  {
    CrossOrthogonal(vup, w);
    UnitKeepsOrthogonal(Cross(vup, w), w, o);
    CrossOrthogonal(w, Unit(Cross(vup, w), o));
  }

  /** The frame vectors are unit vectors unless the view direction is zero
      or parallel to `vup`. */
  lemma FrameUnit(lookfrom: Vec3, lookat: Vec3, vup: Vec3, o: Oracle)
    ensures var w := Unit(Sub(lookfrom, lookat), o);
      var u := Unit(Cross(vup, w), o);
      && (Valid(o) && SquaredLength(Sub(lookfrom, lookat)) != 0.0 ==> SquaredLength(w) == 1.0)
      && (Valid(o) && SquaredLength(Sub(lookfrom, lookat)) != 0.0 && SquaredLength(Cross(vup, w)) != 0.0 ==>
            SquaredLength(u) == 1.0 && SquaredLength(Cross(w, u)) == 1.0)
  {
    var w := Unit(Sub(lookfrom, lookat), o);
    var u := Unit(Cross(vup, w), o);
    if Valid(o) && SquaredLength(Sub(lookfrom, lookat)) != 0.0 && SquaredLength(Cross(vup, w)) != 0.0 {
      FrameOrthogonal(vup, w, o);
      CrossUnit(w, u);
    }
  }

  /** The lower left corner `New` computes puts the viewport centre
      `focusDist` along `-w` from the camera. */
  lemma ViewportCentre(lookfrom: Vec3, u: Vec3, v: Vec3, w: Vec3, width: real, height: real, focusDist: real)
    ensures var horizontal := Scale(Scale(u, width), focusDist);
      var vertical := Scale(Scale(v, height), focusDist);
      var corner := Sub(Sub(Sub(lookfrom, Div(horizontal, 2.0)), Div(vertical, 2.0)), Scale(w, focusDist));
      Add(Add(corner, Scale(horizontal, 0.5)), Scale(vertical, 0.5)) == Sub(lookfrom, Scale(w, focusDist))
  {
  }

  /** The squared length of `u * a + v * b`. */
  lemma SquaredLengthCombination(u: Vec3, v: Vec3, a: real, b: real)
    ensures SquaredLength(Add(Scale(u, a), Scale(v, b)))
         == a * a * SquaredLength(u) + 2.0 * a * b * Dot(v, u) + b * b * SquaredLength(v)
  {
    var d := Add(Scale(u, a), Scale(v, b));
    assert d.x * d.x == a * a * (u.x * u.x) + 2.0 * a * b * (v.x * u.x) + b * b * (v.x * v.x);
    assert d.y * d.y == a * a * (u.y * u.y) + 2.0 * a * b * (v.y * u.y) + b * b * (v.y * v.y);
    assert d.z * d.z == a * a * (u.z * u.z) + 2.0 * a * b * (v.z * u.z) + b * b * (v.z * v.z);
  }

  /** Normalising keeps a vector orthogonal to what it was orthogonal to. */
  lemma UnitKeepsOrthogonal(a: Vec3, b: Vec3, o: Oracle)
    requires Dot(a, b) == 0.0
    ensures Dot(Unit(a, o), b) == 0.0
  {
    var len := Length(a, o);
    if len != 0.0 {
      var q := Div(a, len);
      assert Dot(q, b) == Dot(a, b) / len;
    }
  }

  /** Lagrange's identity: the cross product of two orthogonal unit vectors is a unit vector. */
  lemma CrossUnit(a: Vec3, b: Vec3)
    requires SquaredLength(a) == 1.0 && SquaredLength(b) == 1.0 && Dot(a, b) == 0.0
    ensures SquaredLength(Cross(a, b)) == 1.0
  {
    assert SquaredLength(Cross(a, b)) == SquaredLength(a) * SquaredLength(b) - Dot(a, b) * Dot(a, b);
  }

  /** With a pinhole lens (`aperture == 0`) every ray starts at `lookfrom`. */
  lemma PinholeStartsAtLookfrom(cam: Camera, s: real, t: real, disk: Vec3, timeDraw: real)
    requires disk.z == 0.0 && SquaredLength(disk) < 1.0 && UnitDraw(timeDraw)
    requires cam.lensRadius == 0.0
    ensures GetRay(cam, s, t, disk, timeDraw).origin == cam.origin
  {
    var r := GetRay(cam, s, t, disk, timeDraw);
    assert Sub(r.origin, cam.origin) == Zero();
  }

  /** A ray starts in the lens plane, the plane through the camera orthogonal
      to `w`, inside the lens disk of radius `lensRadius`. */
  lemma RayStartsOnLens(cam: Camera, s: real, t: real, disk: Vec3, timeDraw: real)
    requires disk.z == 0.0 && SquaredLength(disk) < 1.0 && UnitDraw(timeDraw)
    requires Dot(cam.u, cam.w) == 0.0 && Dot(cam.v, cam.w) == 0.0 && Dot(cam.v, cam.u) == 0.0
    requires SquaredLength(cam.u) == 1.0 && SquaredLength(cam.v) == 1.0
    ensures var d := Sub(GetRay(cam, s, t, disk, timeDraw).origin, cam.origin);
      Dot(d, cam.w) == 0.0 && SquaredLength(d) <= cam.lensRadius * cam.lensRadius
  {
    var d := Sub(GetRay(cam, s, t, disk, timeDraw).origin, cam.origin);
    var a, b := disk.x * cam.lensRadius, disk.y * cam.lensRadius;
    assert d == Add(Scale(cam.u, a), Scale(cam.v, b));
    assert Dot(d, cam.w) == a * Dot(cam.u, cam.w) + b * Dot(cam.v, cam.w);
    SquaredLengthCombination(cam.u, cam.v, a, b);
    assert SquaredLength(d) == (disk.x * disk.x + disk.y * disk.y) * (cam.lensRadius * cam.lensRadius);
    SquareNonneg(cam.lensRadius);
    MulMono(disk.x * disk.x + disk.y * disk.y, 1.0, cam.lensRadius * cam.lensRadius);
  }

  /** The centre ray of a camera built by `New`, with the lens sample at the
      lens centre, leaves `lookfrom` along `-w` and reaches the focus plane
      after `focusDist`. */
  lemma CentreRay(aspectRatio: real, lookfrom: Vec3, lookat: Vec3, vup: Vec3, vfov: real,
                  aperture: real, combine: (real, real, real), o: Oracle, timeDraw: real)
    requires UnitDraw(timeDraw)
    ensures var cam := New(aspectRatio, lookfrom, lookat, vup, vfov, aperture, combine, o);
      var r := GetRay(cam, 0.5, 0.5, Zero(), timeDraw);
      r.origin == lookfrom && r.direction == Scale(cam.w, -combine.0)
  {
    var cam := New(aspectRatio, lookfrom, lookat, vup, vfov, aperture, combine, o);
    var r := GetRay(cam, 0.5, 0.5, Zero(), timeDraw);
    assert r.origin == lookfrom;
  }
}

=== FILE: color.dfy ===
/** The per-channel quantisation of `write_color` (`color.rs`): the
    accumulated sum of `samples_per_pixel` estimates is averaged, gamma
    corrected by a square root, clamped to [0, 0.999], scaled by 256 and
    truncated to a byte. Storing the byte into the image is left out. */
module Colors {
  import opened Utility
  import opened Vectors

  /** The byte of one channel. The square root of a negative average is NaN
      in the source; `clamp` lets NaN through (both its comparisons are
      false) and the saturating cast `as u8` turns NaN into 0. */
  function ChannelByte(c: real, samplesPerPixel: int, o: Oracle): (b: int)
    requires samplesPerPixel != 0
    ensures 0 <= b <= 255
  {
    var scale := 1.0 / (samplesPerPixel as real);
    var x := scale * c;
    if x < 0.0 then 0
    else
      var y := Clamp(Sqrt(o, x), 0.0, 0.999) * 256.0;
      assert 0.0 <= y < 256.0;
      y.Floor
  }

  /** The three bytes `write_color` stores for an accumulated colour. */
  function PixelBytes(color: Vec3, samplesPerPixel: int, o: Oracle): (rgb: (int, int, int))
    requires samplesPerPixel != 0
    ensures 0 <= rgb.0 <= 255 && 0 <= rgb.1 <= 255 && 0 <= rgb.2 <= 255
    ensures rgb.0 == ChannelByte(color.x, samplesPerPixel, o)
    ensures rgb.1 == ChannelByte(color.y, samplesPerPixel, o)
    ensures rgb.2 == ChannelByte(color.z, samplesPerPixel, o)
  {
    (ChannelByte(color.x, samplesPerPixel, o),
     ChannelByte(color.y, samplesPerPixel, o),
     ChannelByte(color.z, samplesPerPixel, o))
  }

  // ----- Lemmas -----

  /** A channel that accumulated nothing is byte 0. */
  lemma ZeroChannel(samplesPerPixel: int, o: Oracle)
    requires samplesPerPixel != 0 && Valid(o)
    ensures ChannelByte(0.0, samplesPerPixel, o) == 0
  {
  }

  /** A channel whose average reaches 1 is byte 255, the brightest. */
  lemma FullChannel(c: real, samplesPerPixel: int, o: Oracle)
    requires samplesPerPixel > 0 && Valid(o) && c >= samplesPerPixel as real
    ensures ChannelByte(c, samplesPerPixel, o) == 255
  {
    var n := samplesPerPixel as real;
    var x := (1.0 / n) * c;
    assert x >= 1.0 by {
      assert x == c / n;
      assert c / n >= n / n;
    }
    SqrtExact(o, 1.0, 1.0);
    SqrtMonotone(o, 1.0, x);
  }

  /** The byte never decreases as the accumulated channel grows. */
  lemma ChannelMonotone(c1: real, c2: real, samplesPerPixel: int, o: Oracle)
    requires samplesPerPixel > 0 && Valid(o) && c1 <= c2
    ensures ChannelByte(c1, samplesPerPixel, o) <= ChannelByte(c2, samplesPerPixel, o)
  {
    var scale := 1.0 / (samplesPerPixel as real);
    var x1 := scale * c1;
    var x2 := scale * c2;
    assert x1 <= x2 by {
      assert scale > 0.0;
      assert x2 - x1 == scale * (c2 - c1);
    }
    if x1 >= 0.0 {
      SqrtMonotone(o, x1, x2);
      ChannelMonotoneGiven(x1, x2, c1, c2, samplesPerPixel, o);
    }
  }

  /** The step of `ChannelMonotone` once the averages and their square roots
      are known to be ordered. */
  lemma ChannelMonotoneGiven(x1: real, x2: real, c1: real, c2: real, samplesPerPixel: int, o: Oracle)
    requires samplesPerPixel > 0
    requires x1 == (1.0 / (samplesPerPixel as real)) * c1 && x2 == (1.0 / (samplesPerPixel as real)) * c2
    requires 0.0 <= x1 <= x2 && Sqrt(o, x1) <= Sqrt(o, x2)
    ensures ChannelByte(c1, samplesPerPixel, o) <= ChannelByte(c2, samplesPerPixel, o)
  {
    var y1 := Clamp(Sqrt(o, x1), 0.0, 0.999) * 256.0;
    var y2 := Clamp(Sqrt(o, x2), 0.0, 0.999) * 256.0;
    assert y1 <= y2;
    FloorMonotone(y1, y2);
  }

  lemma FloorMonotone(a: real, b: real)
    requires a <= b
    ensures a.Floor <= b.Floor
  {
  }
}

=== FILE: constant_medium.dfy ===
/** Constant-density participating media (`constant_medium.rs`). The medium
    fills a boundary object. A query probes the boundary twice, for the entry
    and the exit parameter, clamps the span to the query window, and then
    draws an exponentially distributed free path `-ln(draw) / density`. The
    ray scatters inside the medium when that path is shorter than the
    distance the ray travels inside the boundary.

    The probing itself needs the boundary object, which belongs to the closed
    hittable type (`Scene`). This module holds what follows the probes. It
    takes the two probe parameters `t1` and `t2` as inputs. */
module Media {
  import opened Utility
  import opened Vectors
  import opened Rays
  import opened Records
  import Textures
  import Materials

  type Rec = HitRecord<Materials.Material>

  datatype Medium = Medium(negInvDensity: real, phase: Materials.Material)

  /** The offset past the entry at which the second probe starts (line 51). */
  const ProbeGap: real := 0.0001

  /** `ConstantMedium::new1`: density `d` and an isotropic phase function
      built from a texture. */
  function NewWithTexture(d: real, a: Option<Textures.Texture>): (m: Medium)
    requires d != 0.0
    ensures m.negInvDensity * d == -1.0
    ensures m.phase == Materials.Isotropic(Materials.OfTexture(a))
  {
    Medium(-1.0 / d, Materials.Isotropic(Materials.OfTexture(a)))
  }

  /** `ConstantMedium::new2`: density `d` and an isotropic phase function
      built from a colour. */
  function NewWithColor(d: real, c: Vec3): (m: Medium)
    requires d != 0.0
    ensures m.negInvDensity * d == -1.0
    ensures m.phase == Materials.Isotropic(Materials.OfColor(c))
  {
    Medium(-1.0 / d, Materials.Isotropic(Materials.OfColor(c)))
  }

  /** Lines 59-73: raise the entry to `t_min`, lower the exit to `t_max`,
      give up when the entry is not before the exit, and move a negative
      entry up to 0. */
  function ClampedSpan(t1: real, t2: real, tMin: Ext, tMax: Ext): (span: Option<(real, real)>)
    ensures span.Some? ==> (
      && Le(tMin, Fin(span.value.0)) && Le(Fin(span.value.1), tMax)
      && t1 <= span.value.0 && span.value.1 <= t2
      && 0.0 <= span.value.0)
    ensures span.None? <==> !(Lt(Fin(t1), tMax) && Lt(tMin, Fin(t2)) && Lt(tMin, tMax) && t1 < t2)
  {
    var entry := if Lt(Fin(t1), tMin) then tMin else Fin(t1);
    var exit := if Lt(tMax, Fin(t2)) then tMax else Fin(t2);
    if Le(exit, entry) then None
    else
      var a := if entry.v < 0.0 then 0.0 else entry.v;
      Some((a, exit.v))
  }

  /** The free path drawn at line 77: `neg_inv_density * ln(draw)`. */
  function HitDistance(m: Medium, draw: real, o: Oracle): (d: real)
    ensures Valid(o) && m.negInvDensity < 0.0 && 0.0 < draw < 1.0 ==> d > 0.0
  {
    var l := Ln(o, draw);
    assert Valid(o) && 0.0 < draw < 1.0 && m.negInvDensity < 0.0 ==> m.negInvDensity * l > 0.0 by {
      if Valid(o) && 0.0 < draw < 1.0 && m.negInvDensity < 0.0 {
        MulPos(-m.negInvDensity, -l);
      }
    }
    m.negInvDensity * l
  }

  /** The record of a scattering event at `t`: the point, the fixed normal
      (1, 0, 0) with its front face, and the phase function (lines 83-94). */
  function Scatter(m: Medium, r: Ray, rec: Rec, t: real): (rec': Rec)
    ensures rec'.t == t && rec'.p == At(r, t)
    ensures rec'.normal == Vec3(1.0, 0.0, 0.0) && rec'.frontFace
    ensures rec'.mat == Some(m.phase)
    ensures rec'.u == rec.u && rec'.v == rec.v
  {
    rec.(t := t, p := At(r, t), normal := Vec3(1.0, 0.0, 0.0), frontFace := true, mat := Some(m.phase))
  }

  /** Lines 59-94 as written, given the probe parameters: the scattering
      parameter is `rec1.t + hit_distance`, a world distance added to a ray
      parameter. */
  function ResolveAsWritten(m: Medium, r: Ray, t1: real, t2: real, tMin: Ext, tMax: Ext, rec: Rec, draw: real, o: Oracle): (res: HitResult<Materials.Material>)
    ensures !res.hit ==> res.rec == rec
    ensures res.hit ==> ClampedSpan(t1, t2, tMin, tMax).Some?
  {
    match ClampedSpan(t1, t2, tMin, tMax)
    case None => Miss(rec)
    case Some((a, b)) =>
      var rayLength := Length(r.direction, o);
      var distance := (b - a) * rayLength;
      var hitDistance := HitDistance(m, draw, o);
      if hitDistance > distance then Miss(rec)
      else HitResult(true, Scatter(m, r, rec, a + hitDistance))
  }

  /** Lines 59-94 with the free path converted to a ray parameter,
      `rec1.t + hit_distance / ray_length`. A ray without length travels no
      distance and misses. */
  function Resolve(m: Medium, r: Ray, t1: real, t2: real, tMin: Ext, tMax: Ext, rec: Rec, draw: real, o: Oracle): (res: HitResult<Materials.Material>)
    ensures !res.hit ==> res.rec == rec
    ensures res.hit ==> ClampedSpan(t1, t2, tMin, tMax).Some?
    ensures res.hit ==> res.rec == Scatter(m, r, rec, res.rec.t)
  {
    match ClampedSpan(t1, t2, tMin, tMax)
    case None => Miss(rec)
    case Some((a, b)) =>
      var rayLength := Length(r.direction, o);
      var distance := (b - a) * rayLength;
      var hitDistance := HitDistance(m, draw, o);
      if hitDistance > distance || rayLength == 0.0 then Miss(rec)
      else HitResult(true, Scatter(m, r, rec, a + hitDistance / rayLength))
  }

  /** The medium's answer once the boundary has been probed twice: a miss
      unless both probes found it, otherwise the step between them. */
  function Probed(m: Medium, probe1: HitResult<Materials.Material>, probe2: HitResult<Materials.Material>,
                  r: Ray, tMin: Ext, tMax: Ext, rec: Rec, draw: real, o: Oracle): (res: HitResult<Materials.Material>)
    ensures !res.hit ==> res.rec == rec
    ensures res.hit ==> probe1.hit && probe2.hit
  {
    if !probe1.hit || !probe2.hit then Miss(rec)
    else Resolve(m, r, probe1.rec.t, probe2.rec.t, tMin, tMax, rec, draw, o)
  }

  // ----- Lemmas -----

  /** Probes that leave both parameters at 0, as the clones at lines 47 and 51
      do, never leave a span: whatever the window, `hit` returns false. */
  lemma ZeroProbesLeaveNoSpan(tMin: Ext, tMax: Ext)
    ensures ClampedSpan(0.0, 0.0, tMin, tMax).None?
  {
  }

  /** The corrected step scatters inside the clamped span, and so inside the
      query window, for a positive density and a draw in (0, 1). */
  lemma ResolveWithinSpan(m: Medium, r: Ray, t1: real, t2: real, tMin: Ext, tMax: Ext, rec: Rec, draw: real, o: Oracle)
    requires Valid(o) && m.negInvDensity < 0.0 && 0.0 < draw < 1.0
    ensures var res := Resolve(m, r, t1, t2, tMin, tMax, rec, draw, o);
      res.hit ==> (
        && var span := ClampedSpan(t1, t2, tMin, tMax).value;
        && span.0 < res.rec.t <= span.1
        && Within(res.rec.t, tMin, tMax)
        && t1 < res.rec.t <= t2)
  {
    ResolveWithinSpanGiven(m, r, t1, t2, tMin, tMax, rec, draw, o);
  }

  /** A scattering step taken from two probes of the boundary: a hit when
      both probes found it, and then inside the span between them and the
      window, on the ray, with the phase function. */
  lemma ProbedScattersInside(m: Medium, probe1: HitResult<Materials.Material>, probe2: HitResult<Materials.Material>,
                             r: Ray, tMin: Ext, tMax: Ext, rec: Rec, draw: real, o: Oracle)
    requires Length(r.direction, o) >= 0.0 && HitDistance(m, draw, o) > 0.0
    ensures var res := Probed(m, probe1, probe2, r, tMin, tMax, rec, draw, o);
      res.hit ==> (
        && probe1.hit && probe2.hit
        && probe1.rec.t < res.rec.t <= probe2.rec.t
        && Within(res.rec.t, tMin, tMax)
        && res.rec.p == At(r, res.rec.t)
        && res.rec.mat == Some(m.phase))
  {
    if probe1.hit && probe2.hit {
      ResolveWithinSpanGiven(m, r, probe1.rec.t, probe2.rec.t, tMin, tMax, rec, draw, o);
    }
  }

  /** The same, from the two facts about the oracle the proof uses. */
  lemma ResolveWithinSpanGiven(m: Medium, r: Ray, t1: real, t2: real, tMin: Ext, tMax: Ext, rec: Rec, draw: real, o: Oracle)
    requires Length(r.direction, o) >= 0.0 && HitDistance(m, draw, o) > 0.0
    ensures var res := Resolve(m, r, t1, t2, tMin, tMax, rec, draw, o);
      res.hit ==> (
        && var span := ClampedSpan(t1, t2, tMin, tMax).value;
        && span.0 < res.rec.t <= span.1
        && Within(res.rec.t, tMin, tMax)
        && t1 < res.rec.t <= t2)
  {
    var res := Resolve(m, r, t1, t2, tMin, tMax, rec, draw, o);
    if res.hit {
      var span := ClampedSpan(t1, t2, tMin, tMax).value;
      var (a, b) := span;
      var len := Length(r.direction, o);
      var hd := HitDistance(m, draw, o);
      assert len >= 0.0 && len != 0.0 && hd > 0.0 && hd <= (b - a) * len;
      QuotientBelow(hd, b - a, len);
      assert res.rec.t == a + hd / len;
    }
  }

  /** The clamped span is not empty, the ray has length, and the free path
      fits in the distance the ray travels across the span. */
  predicate PathFits(m: Medium, r: Ray, t1: real, t2: real, tMin: Ext, tMax: Ext, draw: real, o: Oracle) {
    && ClampedSpan(t1, t2, tMin, tMax).Some?
    && Length(r.direction, o) != 0.0
    && var (a, b) := ClampedSpan(t1, t2, tMin, tMax).value;
    HitDistance(m, draw, o) <= (b - a) * Length(r.direction, o)
  }

  /** The corrected step scatters exactly when the path fits, that far along
      the ray from the start of the span. */
  lemma ResolveHitsWhenPathFits(m: Medium, r: Ray, t1: real, t2: real, tMin: Ext, tMax: Ext, rec: Rec, draw: real, o: Oracle)
    ensures Resolve(m, r, t1, t2, tMin, tMax, rec, draw, o).hit <==> PathFits(m, r, t1, t2, tMin, tMax, draw, o)
    ensures PathFits(m, r, t1, t2, tMin, tMax, draw, o) ==>
      Resolve(m, r, t1, t2, tMin, tMax, rec, draw, o).rec.t
        == ClampedSpan(t1, t2, tMin, tMax).value.0 + HitDistance(m, draw, o) / Length(r.direction, o)
  {
  }

  /** 0 < x <= y * len with len > 0 gives 0 < x / len <= y. */
  lemma QuotientBelow(x: real, y: real, len: real)
    requires len > 0.0 && 0.0 < x <= y * len
    ensures 0.0 < x / len <= y
  {
    assert (x / len) * len == x;
    if x / len > y {
      MulMono(y, x / len, len);
      assert false;
    }
  }

  /** As written, the scattering parameter can leave the query window: with a
      direction of length 2, probe parameters 0 and 1, window [0, 1] and a
      free path of 1.5, the medium reports `t = 1.5`. The corrected step
      reports `t = 0.75`, the point 1.5 units along the ray. */
  lemma ResolveAsWrittenOvershoots(m: Medium, rec: Rec, draw: real, o: Oracle)
    requires Valid(o) && HitDistance(m, draw, o) == 1.5
    ensures var r := Ray(Vec3(0.0, 0.0, 0.0), Vec3(2.0, 0.0, 0.0), 0.0);
      && ResolveAsWritten(m, r, 0.0, 1.0, Fin(0.0), Fin(1.0), rec, draw, o).hit
      && ResolveAsWritten(m, r, 0.0, 1.0, Fin(0.0), Fin(1.0), rec, draw, o).rec.t == 1.5
      && !Within(ResolveAsWritten(m, r, 0.0, 1.0, Fin(0.0), Fin(1.0), rec, draw, o).rec.t, Fin(0.0), Fin(1.0))
      && Resolve(m, r, 0.0, 1.0, Fin(0.0), Fin(1.0), rec, draw, o).rec.t == 0.75
  {
    var r := Ray(Vec3(0.0, 0.0, 0.0), Vec3(2.0, 0.0, 0.0), 0.0);
    LengthOfTwo(o);
    OvershootAtLengthTwo(m, r, rec, draw, o);
    CorrectedAtLengthTwo(m, r, rec, draw, o);
  }

  lemma OvershootAtLengthTwo(m: Medium, r: Ray, rec: Rec, draw: real, o: Oracle)
    requires Length(r.direction, o) == 2.0 && HitDistance(m, draw, o) == 1.5
    ensures && ResolveAsWritten(m, r, 0.0, 1.0, Fin(0.0), Fin(1.0), rec, draw, o).hit
            && ResolveAsWritten(m, r, 0.0, 1.0, Fin(0.0), Fin(1.0), rec, draw, o).rec.t == 1.5
            && !Within(ResolveAsWritten(m, r, 0.0, 1.0, Fin(0.0), Fin(1.0), rec, draw, o).rec.t, Fin(0.0), Fin(1.0))
  {
    UnitSpan();
    AsWrittenUnfold(m, r, 0.0, 1.0, Fin(0.0), Fin(1.0), rec, draw, o, 0.0, 1.0);
    OutsideUnitWindow(ResolveAsWritten(m, r, 0.0, 1.0, Fin(0.0), Fin(1.0), rec, draw, o).rec.t);
  }

  lemma CorrectedAtLengthTwo(m: Medium, r: Ray, rec: Rec, draw: real, o: Oracle)
    requires Length(r.direction, o) == 2.0 && HitDistance(m, draw, o) == 1.5
    ensures Resolve(m, r, 0.0, 1.0, Fin(0.0), Fin(1.0), rec, draw, o).rec.t == 0.75
  {
    UnitSpan();
    CorrectedUnfold(m, r, 0.0, 1.0, Fin(0.0), Fin(1.0), rec, draw, o, 0.0, 1.0);
    Quotient(Resolve(m, r, 0.0, 1.0, Fin(0.0), Fin(1.0), rec, draw, o).rec.t, HitDistance(m, draw, o), Length(r.direction, o));
  }

  lemma UnitSpan()
    ensures ClampedSpan(0.0, 1.0, Fin(0.0), Fin(1.0)) == Some((0.0, 1.0))
  {
  }

  lemma OutsideUnitWindow(t: real)
    requires t == 1.5
    ensures !Within(t, Fin(0.0), Fin(1.0))
  {
  }

  lemma Quotient(t: real, h: real, l: real)
    requires h == 1.5 && l == 2.0 && t == 0.0 + h / l
    ensures t == 0.75
  {
  }

  /** The as-written step once the span and the free path are known: it adds
      the free path to the entry parameter. */
  lemma AsWrittenUnfold(m: Medium, r: Ray, t1: real, t2: real, tMin: Ext, tMax: Ext, rec: Rec, draw: real, o: Oracle, a: real, b: real)
    requires ClampedSpan(t1, t2, tMin, tMax) == Some((a, b))
    requires HitDistance(m, draw, o) <= (b - a) * Length(r.direction, o)
    ensures ResolveAsWritten(m, r, t1, t2, tMin, tMax, rec, draw, o)
         == HitResult(true, Scatter(m, r, rec, a + HitDistance(m, draw, o)))
  {
  }

  /** The corrected step once the span and the free path are known: it adds
      the free path divided by the ray's length. */
  lemma CorrectedUnfold(m: Medium, r: Ray, t1: real, t2: real, tMin: Ext, tMax: Ext, rec: Rec, draw: real, o: Oracle, a: real, b: real)
    requires ClampedSpan(t1, t2, tMin, tMax) == Some((a, b))
    requires Length(r.direction, o) > 0.0 && HitDistance(m, draw, o) <= (b - a) * Length(r.direction, o)
    ensures Resolve(m, r, t1, t2, tMin, tMax, rec, draw, o)
         == HitResult(true, Scatter(m, r, rec, a + HitDistance(m, draw, o) / Length(r.direction, o)))
  {
    var rayLength, hitDistance := Length(r.direction, o), HitDistance(m, draw, o);
    assert !(hitDistance > (b - a) * rayLength || rayLength == 0.0);
  }

  lemma LengthOfTwo(o: Oracle)
    requires Valid(o)
    ensures Length(Vec3(2.0, 0.0, 0.0), o) == 2.0
  {
    assert SquaredLength(Vec3(2.0, 0.0, 0.0)) == 4.0;
    SqrtExact(o, 4.0, 2.0);
  }
}

=== FILE: hit_record.dfy ===
/** The hit record (`hiitable.rs`): what an intersection query reports about
    the nearest surface it found. The record is generic in the material type so
    that the materials, which read records, and the objects, which write them,
    can live in separate modules. */
module Records {
  import opened Utility
  import opened Vectors
  import opened Rays

  datatype HitRecord<M> = HitRecord(
    p: Vec3,          // `point3`
    normal: Vec3,
    t: real,
    u: real,
    v: real,
    frontFace: bool,  // `front_size`
    mat: Option<M>)

  /** The outcome of `hit(r, t_min, t_max, rec)`: the returned flag and the
      record as the call leaves it. */
  datatype HitResult<M> = HitResult(hit: bool, rec: HitRecord<M>)

  /** `HitRecord::new`: everything zero, back face, no material. */
  function NewRecord<M>(): (rec: HitRecord<M>)
    ensures rec.p == Zero() && rec.normal == Zero()
    ensures rec.t == 0.0 && rec.u == 0.0 && rec.v == 0.0
    ensures !rec.frontFace && rec.mat.None?
  {
    HitRecord(Zero(), Zero(), 0.0, 0.0, 0.0, false, None)
  }

  /** A miss: the flag is false and the record is the caller's. */
  function Miss<M>(rec: HitRecord<M>): (res: HitResult<M>)
    ensures !res.hit && res.rec == rec
  {
    HitResult(false, rec)
  }

  /** `set_front_size`: the record faces the ray when the ray travels against
      the outward normal, and the stored normal always opposes the ray. */
  function SetFrontFace<M>(rec: HitRecord<M>, r: Ray, outward: Vec3): (rec': HitRecord<M>)
    ensures rec'.frontFace <==> Dot(r.direction, outward) < 0.0
    ensures rec'.normal == outward || rec'.normal == Neg(outward)
    ensures Dot(r.direction, rec'.normal) <= 0.0
    ensures rec'.p == rec.p && rec'.t == rec.t && rec'.u == rec.u && rec'.v == rec.v && rec'.mat == rec.mat
  {
    var front := Dot(r.direction, outward) < 0.0;
    rec.(frontFace := front, normal := if front then outward else Neg(outward))
  }

  /** Setting the face twice with the same ray and normal changes nothing more,
      and reversing the outward normal keeps the stored normal but flips the face
      unless the ray grazes the surface. */
  lemma SetFrontFaceProperties<M>(rec: HitRecord<M>, r: Ray, outward: Vec3)
    ensures SetFrontFace(SetFrontFace(rec, r, outward), r, outward) == SetFrontFace(rec, r, outward)
    ensures Dot(r.direction, outward) != 0.0 ==>
      SetFrontFace(rec, r, Neg(outward)).normal == SetFrontFace(rec, r, outward).normal
      && SetFrontFace(rec, r, Neg(outward)).frontFace == !SetFrontFace(rec, r, outward).frontFace
  {
    assert Neg(Neg(outward)) == outward;
    assert Dot(r.direction, Neg(outward)) == -Dot(r.direction, outward);
  }
}

=== FILE: hittable_list.dfy ===
/** `HittableList` (`hittable_list.rs`): a sequence of objects. `add` appends;
    `hit` asks every member in order, each with the window shrunk to the
    nearest hit found so far, handing each the same scratch record; the
    caller's record receives the last hit found, which is the nearest one.
    The recursive form of the loop lives in `Scene.Scan`, where the list is
    one of the hittable variants; this module holds the loop as a method and
    the facts about growing a list. */
module Lists {
  import opened Utility
  import opened Rays
  import opened Records
  import Materials
  import Scene
  import Boxes

  type Rec = HitRecord<Materials.Material>

  /** `HittableList::add`: the object goes at the end, the others stay. */
  function Add(objs: seq<Scene.Hittable>, h: Scene.Hittable): (objs': seq<Scene.Hittable>)
    ensures |objs'| == |objs| + 1 && objs'[|objs|] == h
    ensures objs'[..|objs|] == objs
  {
    objs + [h]
  }

  /** `HittableList::hit` as the loop of lines 25-42. Besides the flag and the
      record it returns, for each member, the parameter that member reported
      (`None` for a miss) under the window in force when it was asked. The
      loop agrees with the recursive `Scene.Hit`, reports a hit exactly when
      some member did, and keeps the nearest of the members' reports. */
  method HitLoop(objs: seq<Scene.Hittable>, r: Ray, tMin: Ext, tMax: Ext, rec: Rec, env: Scene.Env)
    returns (hit: bool, out: Rec, ts: seq<Option<real>>)
    requires Scene.AllWellFormed(objs) && Scene.AllPhysical(objs) && Scene.EnvOk(env)
    ensures HitResult(hit, out) == Scene.Hit(Scene.List(objs), r, tMin, tMax, rec, env)
    ensures |ts| == |objs|
    ensures hit <==> exists k :: 0 <= k < |ts| && ts[k].Some?
    ensures hit ==> forall k :: 0 <= k < |ts| && ts[k].Some? ==> out.t <= ts[k].value
    ensures hit ==> exists k :: 0 <= k < |ts| && ts[k] == Some(out.t)
    ensures hit ==> Within(out.t, tMin, tMax) && out.p == At(r, out.t)
    ensures !hit ==> out == rec
  {
    var blank := NewRecord<Materials.Material>();
    var temp := blank;
    var closest := tMax;
    hit, out, ts := false, rec, [];
    var i := 0;
    ghost var w := 0;
    while i < |objs|
      invariant 0 <= i <= |objs| && |ts| == i
      invariant Scene.Scan(objs, r, tMin, tMax, false, rec, blank, env)
             == Scene.Scan(objs[i..], r, tMin, closest, hit, out, temp, env)
      invariant hit ==> closest == Fin(out.t) && temp == out
      invariant hit ==> Within(out.t, tMin, tMax) && out.p == At(r, out.t)
      invariant !hit ==> closest == tMax && out == rec && temp == blank
      invariant !hit ==> forall k :: 0 <= k < i ==> ts[k].None?
      invariant hit ==> forall k :: 0 <= k < i && ts[k].Some? ==> out.t <= ts[k].value
      invariant hit ==> 0 <= w < i && ts[w] == Some(out.t)
    {
      var c := Scene.Hit(objs[i], r, tMin, closest, temp, env);
      Scene.HitOnRayInWindow(objs[i], r, tMin, closest, temp, env);
      assert objs[i..][0] == objs[i] && objs[i..][1..] == objs[i + 1..];
      if c.hit {
        hit, closest, out, temp := true, Fin(c.rec.t), c.rec, c.rec;
        ts := ts + [Some(c.rec.t)];
        w := i;
      } else {
        temp := c.rec;
        ts := ts + [None];
      }
      i := i + 1;
    }
    assert objs[i..] == [];
    if hit {
      assert ts[w].Some?;
    }
  }

  // ----- Lemmas -----

  /** The list loop over `a + b` is the loop over `a` followed by the loop
      over `b`, started from the state `a` leaves: the nearest hit so far as
      the bound and as the scratch record, or the untouched start. */
  lemma {:induction false} ScanAppend(a: seq<Scene.Hittable>, b: seq<Scene.Hittable>, r: Ray, tMin: Ext, closest: Ext, found: bool, rec: Rec, temp: Rec, env: Scene.Env)
    requires Scene.AllWellFormed(a) && Scene.AllWellFormed(b) && env.o.pi > 0.0
    requires found ==> closest == Fin(rec.t) && temp == rec
    ensures Scene.AllWellFormed(a + b)
    ensures var s := Scene.Scan(a, r, tMin, closest, found, rec, temp, env);
      Scene.Scan(a + b, r, tMin, closest, found, rec, temp, env)
        == if s.hit then Scene.Scan(b, r, tMin, Fin(s.rec.t), true, s.rec, s.rec, env)
           else Scene.Scan(b, r, tMin, closest, false, rec, temp, env)
    decreases a
  {
    assert Scene.AllWellFormed(a + b) by {
      forall i | 0 <= i < |a + b|
        ensures Scene.WellFormed((a + b)[i])
      {
        if i < |a| {
          assert (a + b)[i] == a[i];
        } else {
          assert (a + b)[i] == b[i - |a|];
        }
      }
    }
    if |a| > 0 {
      assert (a + b)[0] == a[0] && (a + b)[1..] == a[1..] + b;
      Scene.TailWellFormed(a);
      var c := Scene.Hit(a[0], r, tMin, closest, temp, env);
      if c.hit {
        ScanAppend(a[1..], b, r, tMin, Fin(c.rec.t), true, c.rec, c.rec, env);
      } else {
        ScanAppend(a[1..], b, r, tMin, closest, found, rec, c.rec, env);
      }
    } else {
      assert a + b == b;
    }
  }

  /** Adding an object to a list never loses a hit nor makes it later: a list
      that hits at `t` still hits, at `t` or nearer, with one more member. */
  lemma AddKeepsNearest(objs: seq<Scene.Hittable>, h: Scene.Hittable, r: Ray, tMin: Ext, tMax: Ext, rec: Rec, env: Scene.Env)
    requires Scene.AllWellFormed(objs) && Scene.AllPhysical(objs) && Scene.WellFormed(h) && Scene.Physical(h) && Scene.EnvOk(env)
    ensures Scene.AllWellFormed(Add(objs, h))
    ensures var before := Scene.Hit(Scene.List(objs), r, tMin, tMax, rec, env);
      var after := Scene.Hit(Scene.List(Add(objs, h)), r, tMin, tMax, rec, env);
      before.hit ==> after.hit && after.rec.t <= before.rec.t
  {
    var blank := NewRecord<Materials.Material>();
    ScanAppend(objs, [h], r, tMin, tMax, false, rec, blank, env);
    var s := Scene.Scan(objs, r, tMin, tMax, false, rec, blank, env);
    if s.hit {
      assert Scene.AllPhysical([h]);
      Scene.ScanNoLater([h], r, tMin, Fin(s.rec.t), true, s.rec, s.rec, env);
    }
  }

  /** An empty list never hits and leaves the record alone, and reports no box. */
  lemma EmptyListMisses(r: Ray, tMin: Ext, tMax: Ext, rec: Rec, env: Scene.Env, time0: real, time1: real, box: Boxes.Aabb)
    requires env.o.pi > 0.0
    ensures Scene.Hit(Scene.List([]), r, tMin, tMax, rec, env) == Miss(rec)
    ensures Scene.BoundingBox(Scene.List([]), time0, time1, box) == (false, box)
  {
  }
}

=== FILE: hittables.dfy ===
/** The closed world of hittable objects: the implementations of the
    `Hiitable` trait among the modelled sources, together with the world list,
    as one datatype with one `hit` and one `bounding_box` that dispatch on the
    variant.

    - `Sphere`, `Moving`, `XyRect` are the leaves (`object.rs`,
      `moving_sphere.rs`, `aarect.rs`);
    - `RotateY` wraps a child (`Rotatey` in `hiitable.rs`);
    - `ConstantMedium` fills a boundary object (`constant_medium.rs`);
    - `List` is `HittableList` (`hittable_list.rs`), whose inherent `hit`
      scans its members with a shrinking upper bound. `HittableList` does not
      implement `Hiitable`, so the source only ever queries a list at the root
      of the scene; the datatype also lets it nest;
    - `Bvh` is `BvhNode` (`bvh.rs`) with its two children and cached box.

    The dispatcher uses the corrected list box and medium query; the
    versions as written are `ListBoxAsWritten` and `MediumHitAsWritten`. */
module Scene {
  import opened Utility
  import opened Vectors
  import opened Rays
  import opened Records
  import opened Boxes
  import Materials
  import Spheres
  import MovingSpheres
  import Rects
  import Rotations
  import Media

  type Rec = HitRecord<Materials.Material>
  type Result = HitResult<Materials.Material>

  datatype Hittable =
    | Sphere(sphere: Spheres.Sphere)
    | Moving(moving: MovingSpheres.MovingSphere)
    | XyRect(rect: Rects.XyRect)
    | RotateY(child: Hittable, rot: Rotations.Rotation)
    | ConstantMedium(boundary: Hittable, medium: Media.Medium)
    | List(objects: seq<Hittable>)
    | Bvh(left: Hittable, right: Hittable, box: Aabb)

  /** What a query needs besides the object and the ray: the transcendental
      functions and the `random_f64` a constant medium draws. */
  datatype Env = Env(o: Oracle, mediumDraw: real)

  /** Objects whose queries divide by nothing that is zero: nonzero radii, a
      moving sphere with a time interval, a rectangle with extent. */
  predicate WellFormed(h: Hittable)
    decreases h
  {
    match h
    case Sphere(s) => s.radius != 0.0
    case Moving(s) => s.radius != 0.0 && s.time1 != s.time0
    case XyRect(q) => q.x0 != q.x1 && q.y0 != q.y1
    case RotateY(child, _) => WellFormed(child)
    case ConstantMedium(boundary, _) => WellFormed(boundary)
    case List(objs) => forall i :: 0 <= i < |objs| ==> WellFormed(objs[i])
    case Bvh(left, right, _) => WellFormed(left) && WellFormed(right)
  }

  predicate AllWellFormed(objs: seq<Hittable>) {
    forall i :: 0 <= i < |objs| ==> WellFormed(objs[i])
  }

  /** Objects that behave as geometry: every rotation holds the sine and
      cosine of one angle and every medium has a positive density. */
  predicate Physical(h: Hittable)
    decreases h
  {
    match h
    case Sphere(_) => true
    case Moving(_) => true
    case XyRect(_) => true
    case RotateY(child, rot) => Rotations.Proper(rot.turn) && Physical(child)
    case ConstantMedium(boundary, m) => m.negInvDensity < 0.0 && Physical(boundary)
    case List(objs) => forall i :: 0 <= i < |objs| ==> Physical(objs[i])
    case Bvh(left, right, _) => Physical(left) && Physical(right)
  }

  predicate AllPhysical(objs: seq<Hittable>) {
    forall i :: 0 <= i < |objs| ==> Physical(objs[i])
  }

  /** An environment with the facts about the transcendentals and a medium
      draw in (0, 1). */
  ghost predicate EnvOk(env: Env) {
    Valid(env.o) && 0.0 < env.mediumDraw < 1.0
  }

  // ----- hit -----

  /** `hit` of every object. A miss returns the caller's record unchanged. */
  function Hit(h: Hittable, r: Ray, tMin: Ext, tMax: Ext, rec: Rec, env: Env): (res: Result)
    requires WellFormed(h) && env.o.pi > 0.0
    ensures !res.hit ==> res.rec == rec
    decreases h, 1
  {
    match h
    case Sphere(s) => Spheres.Hit(s, r, tMin, tMax, rec, env.o)
    case Moving(s) => MovingSpheres.Hit(s, r, tMin, tMax, rec, env.o)
    case XyRect(q) => Rects.Hit(q, r, tMin, tMax, rec)
    case RotateY(child, rot) =>
      var rotated := Rotations.RotateRay(rot.turn, r);
      var c := Hit(child, rotated, tMin, tMax, rec, env);
      if !c.hit then c
      else HitResult(true, Rotations.AfterChildHit(rot.turn, rotated, c.rec))
    case ConstantMedium(boundary, m) => MediumHit(boundary, m, r, tMin, tMax, rec, env)
    case List(objs) => Scan(objs, r, tMin, tMax, false, rec, NewRecord(), env)
    case Bvh(left, right, box) =>
      if !Boxes.Hit(box, r, tMin, tMax) then Miss(rec)
      else
        var l := Hit(left, r, tMin, tMax, rec, env);
        var rr := if l.hit then Hit(right, r, tMin, Fin(l.rec.t), l.rec, env)
                  else Hit(right, r, tMin, tMax, l.rec, env);
        HitResult(l.hit || rr.hit, rr.rec)
  }

  /** The loop of `HittableList::hit` over the remaining members: `closest`
      is `closest_so_far`, `found` is `hit_anything`, `rec` the caller's
      record and `temp` the `temp_rec` every member is handed. */
  function Scan(objs: seq<Hittable>, r: Ray, tMin: Ext, closest: Ext, found: bool, rec: Rec, temp: Rec, env: Env): (res: Result)
    requires AllWellFormed(objs) && env.o.pi > 0.0
    ensures !res.hit ==> !found && res.rec == rec
    ensures found ==> res.hit
    decreases objs, 0
  {
    if |objs| == 0 then HitResult(found, rec)
    else
      var c := Hit(objs[0], r, tMin, closest, temp, env);
      if c.hit then Scan(objs[1..], r, tMin, Fin(c.rec.t), true, c.rec, c.rec, env)
      else Scan(objs[1..], r, tMin, closest, found, rec, c.rec, env)
  }

  /** `ConstantMedium::hit`, corrected: probe the boundary over the whole
      line for the entry, probe again from just past the entry for the exit,
      each into a record the probe really writes. */
  function MediumHit(boundary: Hittable, m: Media.Medium, r: Ray, tMin: Ext, tMax: Ext, rec: Rec, env: Env): (res: Result)
    requires WellFormed(boundary) && env.o.pi > 0.0
    ensures !res.hit ==> res.rec == rec
    decreases boundary, 3
  {
    var probe1 := Probe(boundary, r, NegInf, env);
    var probe2 := Probe(boundary, r, Fin(probe1.rec.t + Media.ProbeGap), env);
    Media.Probed(m, probe1, probe2, r, tMin, tMax, rec, env.mediumDraw, env.o)
  }

  /** One probe of the boundary by `ConstantMedium::hit`: everything from
      `from` on, into a fresh record. */
  function Probe(boundary: Hittable, r: Ray, from: Ext, env: Env): (res: Result)
    requires WellFormed(boundary) && env.o.pi > 0.0
    decreases boundary, 2
  {
    Hit(boundary, r, from, PosInf, NewRecord(), env)
  }

  /** `ConstantMedium::hit` as written: the probes write into clones, so
      `rec1.t` and `rec2.t` keep the 0 of `HitRecord::new`, and the second
      probe starts at `0 + 0.0001`. */
  function MediumHitAsWritten(boundary: Hittable, m: Media.Medium, r: Ray, tMin: Ext, tMax: Ext, rec: Rec, env: Env): (res: Result)
    requires WellFormed(boundary) && env.o.pi > 0.0
    ensures !res.hit ==> res.rec == rec
  {
    var rec1, rec2 := NewRecord<Materials.Material>(), NewRecord<Materials.Material>();
    var probe1 := Hit(boundary, r, NegInf, PosInf, rec1, env);
    if !probe1.hit then Miss(rec)
    else
      var probe2 := Hit(boundary, r, Fin(rec1.t + Media.ProbeGap), PosInf, rec2, env);
      if !probe2.hit then Miss(rec)
      else Media.ResolveAsWritten(m, r, rec1.t, rec2.t, tMin, tMax, rec, env.mediumDraw, env.o)
  }

  // ----- bounding_box -----

  /** `bounding_box(time0, time1, output_box)` of every object: the flag and
      the output box, which starts as `box`. */
  function BoundingBox(h: Hittable, time0: real, time1: real, box: Aabb): (res: (bool, Aabb))
    requires WellFormed(h)
    decreases h, 1
  {
    match h
    case Sphere(s) => (true, Spheres.BoundingBox(s))
    case Moving(s) => MovingSpheres.BoundingBox(s, time0, time1)
    case XyRect(q) => Rects.BoundingBox(q)
    case RotateY(_, rot) => (rot.hasBox, rot.bbox)
    case ConstantMedium(boundary, _) => BoundingBox(boundary, time0, time1, box)
    case List(objs) =>
      if |objs| == 0 then (false, box)
      else BoxScan(objs, time0, time1, Empty(), true, box)
    case Bvh(_, _, b) => (true, b)
  }

  /** The loop of `HittableList::bounding_box` with the check the right way
      round: give up as soon as a member reports no box, otherwise grow the
      output to surround it. */
  function BoxScan(objs: seq<Hittable>, time0: real, time1: real, temp: Aabb, first: bool, output: Aabb): (res: (bool, Aabb))
    requires AllWellFormed(objs)
    decreases objs, 0
  {
    if |objs| == 0 then (true, output)
    else
      var (b, tb) := BoundingBox(objs[0], time0, time1, temp);
      if !b then (false, output)
      else BoxScan(objs[1..], time0, time1, tb, false, if first then tb else SurroundingBox(output, tb))
  }

  /** `HittableList::bounding_box` as written: it gives up as soon as a
      member DOES report a box. */
  function ListBoxAsWritten(objs: seq<Hittable>, time0: real, time1: real, box: Aabb): (res: (bool, Aabb))
    requires AllWellFormed(objs)
  {
    if |objs| == 0 then (false, box)
    else BoxScanAsWritten(objs, time0, time1, Empty(), true, box)
  }

  function BoxScanAsWritten(objs: seq<Hittable>, time0: real, time1: real, temp: Aabb, first: bool, output: Aabb): (res: (bool, Aabb))
    requires AllWellFormed(objs)
    decreases |objs|
  {
    if |objs| == 0 then (true, output)
    else
      var (b, tb) := BoundingBox(objs[0], time0, time1, temp);
      if b then (false, output)
      else BoxScanAsWritten(objs[1..], time0, time1, tb, false, if first then tb else SurroundingBox(output, tb))
  }

  // ----- Lemmas: hit -----

  /** Every hit any object reports lies in the query window and on the ray
      at the reported parameter. */
  lemma {:induction false} HitOnRayInWindow(h: Hittable, r: Ray, tMin: Ext, tMax: Ext, rec: Rec, env: Env)
    requires WellFormed(h) && Physical(h) && EnvOk(env)
    ensures var res := Hit(h, r, tMin, tMax, rec, env);
      res.hit ==> Within(res.rec.t, tMin, tMax) && res.rec.p == At(r, res.rec.t)
    decreases h, 1
  {
    match h
    case Sphere(_) =>
    case Moving(_) =>
    case XyRect(_) =>
    case RotateY(child, rot) =>
      var rotated := Rotations.RotateRay(rot.turn, r);
      HitOnRayInWindow(child, rotated, tMin, tMax, rec, env);
      var c := Hit(child, rotated, tMin, tMax, rec, env);
      if c.hit {
        Rotations.HitPointOnOriginalRay(rot.turn, r, c.rec.t);
      }
    case ConstantMedium(boundary, m) =>
      MediumScattersInside(boundary, m, r, tMin, tMax, rec, env);
    case List(objs) =>
      ScanOnRayInWindow(objs, r, tMin, tMax, tMax, false, rec, NewRecord(), env);
    case Bvh(left, right, box) =>
      if Boxes.Hit(box, r, tMin, tMax) {
        HitOnRayInWindow(left, r, tMin, tMax, rec, env);
        var l := Hit(left, r, tMin, tMax, rec, env);
        if l.hit {
          HitOnRayInWindow(right, r, tMin, Fin(l.rec.t), l.rec, env);
        } else {
          HitOnRayInWindow(right, r, tMin, tMax, l.rec, env);
        }
      }
  }

  /** The list loop keeps its record in the window and on the ray. */
  lemma {:induction false} ScanOnRayInWindow(objs: seq<Hittable>, r: Ray, tMin: Ext, tMax: Ext, closest: Ext, found: bool, rec: Rec, temp: Rec, env: Env)
    requires AllWellFormed(objs) && AllPhysical(objs) && EnvOk(env)
    requires Le(closest, tMax)
    requires found ==> Within(rec.t, tMin, tMax) && rec.p == At(r, rec.t)
    ensures var res := Scan(objs, r, tMin, closest, found, rec, temp, env);
      res.hit ==> Within(res.rec.t, tMin, tMax) && res.rec.p == At(r, res.rec.t)
    decreases objs, 0
  {
    if |objs| > 0 {
      HitOnRayInWindow(objs[0], r, tMin, closest, temp, env);
      var c := Hit(objs[0], r, tMin, closest, temp, env);
      assert AllWellFormed(objs[1..]) && AllPhysical(objs[1..]) by {
        forall i | 0 <= i < |objs[1..]|
          ensures WellFormed(objs[1..][i]) && Physical(objs[1..][i])
        {
          assert objs[1..][i] == objs[i + 1];
        }
      }
      if c.hit {
        ScanOnRayInWindow(objs[1..], r, tMin, tMax, Fin(c.rec.t), true, c.rec, c.rec, env);
      } else {
        ScanOnRayInWindow(objs[1..], r, tMin, tMax, closest, found, rec, c.rec, env);
      }
    }
  }

  /** A record with the texture coordinates blanked out, which are the only
      fields some objects leave as the caller passed them. */
  function Blank(rec: Rec): (b: Rec)
    ensures b.u == 0.0 && b.v == 0.0
    ensures b.t == rec.t && b.p == rec.p && b.normal == rec.normal
    ensures b.frontFace == rec.frontFace && b.mat == rec.mat
  {
    rec.(u := 0.0, v := 0.0)
  }

  /** Two query results that agree on the flag and, on a hit, on everything
      but the texture coordinates. */
  predicate SameHit(a: Result, b: Result) {
    a.hit == b.hit && (a.hit ==> Blank(a.rec) == Blank(b.rec))
  }

  /** What a query reports does not depend on the record the caller passes
      in, apart from texture coordinates some objects leave untouched: the
      BVH threads its record from the left child into the right one, and the
      list hands its members a scratch record, and neither changes the answer. */
  lemma {:induction false} HitIgnoresRecord(h: Hittable, r: Ray, tMin: Ext, tMax: Ext, rec1: Rec, rec2: Rec, env: Env)
    requires WellFormed(h) && env.o.pi > 0.0
    ensures SameHit(Hit(h, r, tMin, tMax, rec1, env), Hit(h, r, tMin, tMax, rec2, env))
    decreases h, 1
  {
    match h
    case Sphere(_) => LeafIgnoresRecord(h, r, tMin, tMax, rec1, rec2, env);
    case Moving(_) => LeafIgnoresRecord(h, r, tMin, tMax, rec1, rec2, env);
    case XyRect(_) => LeafIgnoresRecord(h, r, tMin, tMax, rec1, rec2, env);
    case RotateY(child, rot) =>
      var rotated := Rotations.RotateRay(rot.turn, r);
      HitIgnoresRecord(child, rotated, tMin, tMax, rec1, rec2, env);
    case ConstantMedium(boundary, m) => LeafIgnoresRecord(h, r, tMin, tMax, rec1, rec2, env);
    case List(objs) =>
      ScanIgnoresRecord(objs, r, tMin, tMax, false, rec1, rec2, NewRecord(), env);
    case Bvh(left, right, box) => BvhIgnoresRecord(h, r, tMin, tMax, rec1, rec2, env);
  }

  /** The case of `HitIgnoresRecord` for the objects that never read the
      caller's record: the leaves and the medium, which probes its boundary
      into records of its own. */
  lemma LeafIgnoresRecord(h: Hittable, r: Ray, tMin: Ext, tMax: Ext, rec1: Rec, rec2: Rec, env: Env)
    requires h.Sphere? || h.Moving? || h.XyRect? || h.ConstantMedium?
    requires WellFormed(h) && env.o.pi > 0.0
    ensures SameHit(Hit(h, r, tMin, tMax, rec1, env), Hit(h, r, tMin, tMax, rec2, env))
  {
  }

  /** The case of `HitIgnoresRecord` for a BVH node, which threads the
      record from its left child into its right one. */
  lemma {:induction false} BvhIgnoresRecord(h: Hittable, r: Ray, tMin: Ext, tMax: Ext, rec1: Rec, rec2: Rec, env: Env)
    requires h.Bvh? && WellFormed(h) && env.o.pi > 0.0
    ensures SameHit(Hit(h, r, tMin, tMax, rec1, env), Hit(h, r, tMin, tMax, rec2, env))
    decreases h, 0
  {
    var left, right := h.left, h.right;
    if Boxes.Hit(h.box, r, tMin, tMax) {
      HitIgnoresRecord(left, r, tMin, tMax, rec1, rec2, env);
      var l1 := Hit(left, r, tMin, tMax, rec1, env);
      var l2 := Hit(left, r, tMin, tMax, rec2, env);
      if l1.hit {
        HitIgnoresRecord(right, r, tMin, Fin(l1.rec.t), l1.rec, l2.rec, env);
      } else {
        HitIgnoresRecord(right, r, tMin, tMax, l1.rec, l2.rec, env);
      }
    }
  }

  lemma {:induction false} ScanIgnoresRecord(objs: seq<Hittable>, r: Ray, tMin: Ext, closest: Ext, found: bool, rec1: Rec, rec2: Rec, temp: Rec, env: Env)
    requires AllWellFormed(objs) && env.o.pi > 0.0
    requires found ==> Blank(rec1) == Blank(rec2)
    ensures SameHit(Scan(objs, r, tMin, closest, found, rec1, temp, env), Scan(objs, r, tMin, closest, found, rec2, temp, env))
    decreases objs, 0
  {
    if |objs| > 0 {
      var c := Hit(objs[0], r, tMin, closest, temp, env);
      assert AllWellFormed(objs[1..]) by {
        forall i | 0 <= i < |objs[1..]|
          ensures WellFormed(objs[1..][i])
        {
          assert objs[1..][i] == objs[i + 1];
        }
      }
      if !c.hit {
        ScanIgnoresRecord(objs[1..], r, tMin, closest, found, rec1, rec2, c.rec, env);
      }
    }
  }

  /** A BVH node whose box the ray passes answers as the list of its two
      children does: the same flag and, on a hit, the same record up to
      texture coordinates. A node whose box the ray misses reports a miss. */
  lemma BvhAgreesWithList(left: Hittable, right: Hittable, box: Aabb, r: Ray, tMin: Ext, tMax: Ext, rec: Rec, env: Env)
    requires WellFormed(left) && WellFormed(right) && env.o.pi > 0.0
    ensures Boxes.Hit(box, r, tMin, tMax) ==>
      SameHit(Hit(Bvh(left, right, box), r, tMin, tMax, rec, env), Hit(List([left, right]), r, tMin, tMax, rec, env))
    ensures !Boxes.Hit(box, r, tMin, tMax) ==>
      Hit(Bvh(left, right, box), r, tMin, tMax, rec, env) == Miss(rec)
  {
    if Boxes.Hit(box, r, tMin, tMax) {
      var blank := NewRecord<Materials.Material>();
      HitIgnoresRecord(left, r, tMin, tMax, rec, blank, env);
      var l := Hit(left, r, tMin, tMax, rec, env);
      var c1 := Hit(left, r, tMin, tMax, blank, env);
      if l.hit {
        HitIgnoresRecord(right, r, tMin, Fin(l.rec.t), l.rec, c1.rec, env);
      } else {
        HitIgnoresRecord(right, r, tMin, tMax, rec, blank, env);
      }
      ListOfTwo(left, right, r, tMin, tMax, rec, env);
    }
  }

  /** The list of two objects, unrolled. */
  lemma ListOfTwo(left: Hittable, right: Hittable, r: Ray, tMin: Ext, tMax: Ext, rec: Rec, env: Env)
    requires WellFormed(left) && WellFormed(right) && env.o.pi > 0.0
    ensures var c1 := Hit(left, r, tMin, tMax, NewRecord(), env);
      var c2 := if c1.hit then Hit(right, r, tMin, Fin(c1.rec.t), c1.rec, env) else Hit(right, r, tMin, tMax, c1.rec, env);
      Hit(List([left, right]), r, tMin, tMax, rec, env) == if c1.hit || c2.hit then HitResult(true, c2.rec) else Miss(rec)
  {
    var blank := NewRecord<Materials.Material>();
    var c1 := Hit(left, r, tMin, tMax, blank, env);
    assert [left, right][1..] == [right];
    if c1.hit {
      ScanOfOne(right, r, tMin, Fin(c1.rec.t), true, c1.rec, c1.rec, env);
    } else {
      ScanOfOne(right, r, tMin, tMax, false, rec, c1.rec, env);
    }
  }

  /** The list loop over its last member. */
  lemma ScanOfOne(h: Hittable, r: Ray, tMin: Ext, closest: Ext, found: bool, rec: Rec, temp: Rec, env: Env)
    requires WellFormed(h) && env.o.pi > 0.0
    ensures AllWellFormed([h])
    ensures var c := Hit(h, r, tMin, closest, temp, env);
      Scan([h], r, tMin, closest, found, rec, temp, env) == if c.hit then HitResult(true, c.rec) else HitResult(found, rec)
  {
    assert [h][1..] == [];
  }

  /** The leaves whose surface the ray meets at `t`, and whose `hit`
      therefore cannot miss it: a point of a sphere, of a moving sphere as it
      stands at the ray's time, or of a rectangle the ray is not parallel to. */
  predicate Meets(h: Hittable, r: Ray, t: real) {
    match h
    case Sphere(s) => SquaredLength(Sub(At(r, t), s.center)) == s.radius * s.radius
    case Moving(s) => s.time1 != s.time0
      && SquaredLength(Sub(At(r, t), MovingSpheres.Center(s, r.time))) == s.radius * s.radius
    case XyRect(q) => r.direction.z != 0.0 && Rects.OnRect(q, At(r, t))
    case _ => false
  }

  /** A leaf the ray meets at `t` inside the window reports a hit no later than `t`. */
  lemma LeafNearest(h: Hittable, r: Ray, tMin: Ext, tMax: Ext, rec: Rec, env: Env, t: real)
    requires WellFormed(h) && Valid(env.o) && SquaredLength(r.direction) != 0.0
    requires Within(t, tMin, tMax) && Meets(h, r, t)
    ensures var res := Hit(h, r, tMin, tMax, rec, env);
      res.hit && res.rec.t <= t
  {
    if h.Sphere? {
      SphereNearest(h, r, tMin, tMax, rec, env, t);
    } else if h.Moving? {
      MovingNearest(h, r, tMin, tMax, rec, env, t);
    } else if h.XyRect? {
      RectNearest(h, r, tMin, tMax, rec, env, t);
    }
  }

  lemma SphereNearest(h: Hittable, r: Ray, tMin: Ext, tMax: Ext, rec: Rec, env: Env, t: real)
    requires h.Sphere? && WellFormed(h) && Valid(env.o) && SquaredLength(r.direction) != 0.0
    requires Within(t, tMin, tMax) && Meets(h, r, t)
    ensures var res := Hit(h, r, tMin, tMax, rec, env);
      res.hit && res.rec.t <= t
  {
    Spheres.HitIsNearest(h.sphere, r, tMin, tMax, rec, env.o, t);
  }

  lemma MovingNearest(h: Hittable, r: Ray, tMin: Ext, tMax: Ext, rec: Rec, env: Env, t: real)
    requires h.Moving? && WellFormed(h) && Valid(env.o) && SquaredLength(r.direction) != 0.0
    requires Within(t, tMin, tMax) && Meets(h, r, t)
    ensures var res := Hit(h, r, tMin, tMax, rec, env);
      res.hit && res.rec.t <= t
  {
    MovingSpheres.HitIsNearest(h.moving, r, tMin, tMax, rec, env.o, t);
  }

  lemma RectNearest(h: Hittable, r: Ray, tMin: Ext, tMax: Ext, rec: Rec, env: Env, t: real)
    requires h.XyRect? && WellFormed(h) && env.o.pi > 0.0
    requires Within(t, tMin, tMax) && Meets(h, r, t)
    ensures var res := Hit(h, r, tMin, tMax, rec, env);
      res.hit && res.rec.t <= t
  {
    Rects.HitComplete(h.rect, r, tMin, tMax, rec, t);
  }

  /** A list of objects finds the nearest surface: if some member is a leaf
      the ray meets at `t` inside the window, the list hits no later than `t`. */
  lemma ListFindsNearest(objs: seq<Hittable>, r: Ray, tMin: Ext, tMax: Ext, rec: Rec, env: Env, k: int, t: real)
    requires AllWellFormed(objs) && AllPhysical(objs) && EnvOk(env) && SquaredLength(r.direction) != 0.0
    requires 0 <= k < |objs| && Within(t, tMin, tMax) && Meets(objs[k], r, t)
    ensures var res := Hit(List(objs), r, tMin, tMax, rec, env);
      res.hit && res.rec.t <= t
  {
    ScanFindsNearest(objs, r, tMin, tMax, tMax, false, rec, NewRecord(), env, k, t);
  }

  /** The list loop never reports a hit later than its current bound, and
      the bound is the parameter of the record it holds once it has found
      something. */
  lemma {:induction false} ScanNoLater(objs: seq<Hittable>, r: Ray, tMin: Ext, closest: Ext, found: bool, rec: Rec, temp: Rec, env: Env)
    requires AllWellFormed(objs) && AllPhysical(objs) && EnvOk(env)
    requires found ==> closest == Fin(rec.t)
    ensures var res := Scan(objs, r, tMin, closest, found, rec, temp, env);
      res.hit ==> Le(Fin(res.rec.t), closest)
    decreases objs
  {
    if |objs| > 0 {
      HitOnRayInWindow(objs[0], r, tMin, closest, temp, env);
      var c := Hit(objs[0], r, tMin, closest, temp, env);
      TailWellFormed(objs);
      if c.hit {
        ScanNoLater(objs[1..], r, tMin, Fin(c.rec.t), true, c.rec, c.rec, env);
      } else {
        ScanNoLater(objs[1..], r, tMin, closest, found, rec, c.rec, env);
      }
    }
  }

  lemma {:induction false} ScanFindsNearest(objs: seq<Hittable>, r: Ray, tMin: Ext, tMax: Ext, closest: Ext, found: bool, rec: Rec, temp: Rec, env: Env, k: int, t: real)
    requires AllWellFormed(objs) && AllPhysical(objs) && EnvOk(env) && SquaredLength(r.direction) != 0.0
    requires found ==> closest == Fin(rec.t)
    requires !found ==> closest == tMax
    requires 0 <= k < |objs| && Within(t, tMin, tMax) && Meets(objs[k], r, t)
    ensures var res := Scan(objs, r, tMin, closest, found, rec, temp, env);
      res.hit && res.rec.t <= t
    decreases objs
  {
    var c := Hit(objs[0], r, tMin, closest, temp, env);
    TailWellFormed(objs);
    if k == 0 {
      if Le(Fin(t), closest) {
        LeafNearest(objs[0], r, tMin, closest, temp, env, t);
        ScanNoLater(objs[1..], r, tMin, Fin(c.rec.t), true, c.rec, c.rec, env);
      } else if c.hit {
        HitOnRayInWindow(objs[0], r, tMin, closest, temp, env);
        ScanNoLater(objs[1..], r, tMin, Fin(c.rec.t), true, c.rec, c.rec, env);
      } else {
        ScanNoLater(objs[1..], r, tMin, closest, found, rec, c.rec, env);
      }
    } else if c.hit {
      HitOnRayInWindow(objs[0], r, tMin, closest, temp, env);
      if t <= c.rec.t {
        ScanFindsNearest(objs[1..], r, tMin, tMax, Fin(c.rec.t), true, c.rec, c.rec, env, k - 1, t);
      } else {
        ScanNoLater(objs[1..], r, tMin, Fin(c.rec.t), true, c.rec, c.rec, env);
      }
    } else if found && rec.t < t {
      ScanNoLater(objs[1..], r, tMin, closest, found, rec, c.rec, env);
    } else {
      ScanFindsNearest(objs[1..], r, tMin, tMax, closest, found, rec, c.rec, env, k - 1, t);
    }
  }

  lemma TailWellFormed(objs: seq<Hittable>)
    requires |objs| > 0
    ensures AllWellFormed(objs) ==> AllWellFormed(objs[1..])
    ensures AllPhysical(objs) ==> AllPhysical(objs[1..])
  {
    forall i | 0 <= i < |objs[1..]|
      ensures objs[1..][i] == objs[i + 1]
    {
    }
  }

  // ----- Lemmas: the constant medium -----

  /** As written, a constant medium reports a miss for every ray and every
      window, whatever its boundary: both probes leave 0 in the records the
      rest of `hit` reads. */
  lemma MediumAsWrittenNeverHits(boundary: Hittable, m: Media.Medium, r: Ray, tMin: Ext, tMax: Ext, rec: Rec, env: Env)
    requires WellFormed(boundary) && env.o.pi > 0.0
    ensures MediumHitAsWritten(boundary, m, r, tMin, tMax, rec, env) == Miss(rec)
  {
    Media.ZeroProbesLeaveNoSpan(tMin, tMax);
  }

  /** The corrected medium scatters inside its boundary: after the entry the
      first probe finds, no later than the exit the second probe finds, and
      inside the query window, with the medium's phase function. */
  lemma MediumScattersInside(boundary: Hittable, m: Media.Medium, r: Ray, tMin: Ext, tMax: Ext, rec: Rec, env: Env)
    requires WellFormed(boundary) && m.negInvDensity < 0.0 && EnvOk(env)
    ensures var res := MediumHit(boundary, m, r, tMin, tMax, rec, env);
      var probe1 := Probe(boundary, r, NegInf, env);
      var probe2 := Probe(boundary, r, Fin(probe1.rec.t + Media.ProbeGap), env);
      res.hit ==> (
        && probe1.hit && probe2.hit
        && probe1.rec.t < res.rec.t <= probe2.rec.t
        && Within(res.rec.t, tMin, tMax)
        && res.rec.p == At(r, res.rec.t)
        && res.rec.mat == Some(m.phase))
  {
    LengthNonneg(r.direction, env.o);
    assert Media.HitDistance(m, env.mediumDraw, env.o) > 0.0;
    MediumScattersInsideGiven(boundary, m, r, tMin, tMax, rec, env);
  }

  lemma LengthNonneg(d: Vec3, o: Oracle)
    requires Valid(o)
    ensures Length(d, o) >= 0.0
  {
    Spheres.SquaredLengthNonneg(d);
  }

  lemma MediumScattersInsideGiven(boundary: Hittable, m: Media.Medium, r: Ray, tMin: Ext, tMax: Ext, rec: Rec, env: Env)
    requires WellFormed(boundary) && env.o.pi > 0.0
    requires Length(r.direction, env.o) >= 0.0 && Media.HitDistance(m, env.mediumDraw, env.o) > 0.0
    ensures var res := MediumHit(boundary, m, r, tMin, tMax, rec, env);
      var probe1 := Probe(boundary, r, NegInf, env);
      var probe2 := Probe(boundary, r, Fin(probe1.rec.t + Media.ProbeGap), env);
      res.hit ==> (
        && probe1.hit && probe2.hit
        && probe1.rec.t < res.rec.t <= probe2.rec.t
        && Within(res.rec.t, tMin, tMax)
        && res.rec.p == At(r, res.rec.t)
        && res.rec.mat == Some(m.phase))
  {
    var probe1 := Probe(boundary, r, NegInf, env);
    var probe2 := Probe(boundary, r, Fin(probe1.rec.t + Media.ProbeGap), env);
    Media.ProbedScattersInside(m, probe1, probe2, r, tMin, tMax, rec, env.mediumDraw, env.o);
  }

  /** Conversely, the corrected medium scatters whenever both probes find the
      boundary (at `t1` and `t2`), the span between them meets the window,
      and the drawn free path fits in the distance the ray travels across
      that span; it scatters that far along the ray from the span's start. */
  lemma MediumHitsWhenPathFits(boundary: Hittable, m: Media.Medium, r: Ray, tMin: Ext, tMax: Ext, rec: Rec, env: Env, t1: real, t2: real)
    requires WellFormed(boundary) && env.o.pi > 0.0
    requires Probe(boundary, r, NegInf, env).hit && Probe(boundary, r, NegInf, env).rec.t == t1
    requires Probe(boundary, r, Fin(t1 + Media.ProbeGap), env).hit && Probe(boundary, r, Fin(t1 + Media.ProbeGap), env).rec.t == t2
    requires Media.PathFits(m, r, t1, t2, tMin, tMax, env.mediumDraw, env.o)
    ensures MediumHit(boundary, m, r, tMin, tMax, rec, env).hit
    ensures MediumHit(boundary, m, r, tMin, tMax, rec, env).rec.t == Media.ClampedSpan(t1, t2, tMin, tMax).value.0
      + Media.HitDistance(m, env.mediumDraw, env.o) / Length(r.direction, env.o)
  {
    Media.ResolveHitsWhenPathFits(m, r, t1, t2, tMin, tMax, rec, env.mediumDraw, env.o);
    assert MediumHit(boundary, m, r, tMin, tMax, rec, env) == Media.Resolve(m, r, t1, t2, tMin, tMax, rec, env.mediumDraw, env.o);
  }

  // ----- Lemmas: bounding_box -----

  /** The answer of `bounding_box` with a fresh output box. */
  function BoxOf(h: Hittable, time0: real, time1: real): (res: (bool, Aabb))
    requires WellFormed(h)
  {
    BoundingBox(h, time0, time1, Empty())
  }

  /** The flag never depends on the output box the caller passes in, and
      neither does a box that is reported. */
  lemma {:induction false} BoxIgnoresSeed(h: Hittable, time0: real, time1: real, b1: Aabb, b2: Aabb)
    requires WellFormed(h)
    ensures BoundingBox(h, time0, time1, b1).0 == BoundingBox(h, time0, time1, b2).0
    ensures BoundingBox(h, time0, time1, b1).0 ==> BoundingBox(h, time0, time1, b1).1 == BoundingBox(h, time0, time1, b2).1
    decreases h, 1
  {
    match h
    case Sphere(_) =>
    case Moving(_) =>
    case XyRect(_) =>
    case RotateY(_, _) =>
    case ConstantMedium(boundary, _) => BoxIgnoresSeed(boundary, time0, time1, b1, b2);
    case List(objs) =>
      if |objs| > 0 {
        BoxScanIgnoresSeed(objs, time0, time1, Empty(), true, b1, b2);
      }
    case Bvh(_, _, _) =>
  }

  lemma {:induction false} BoxScanIgnoresSeed(objs: seq<Hittable>, time0: real, time1: real, temp: Aabb, first: bool, out1: Aabb, out2: Aabb)
    requires AllWellFormed(objs)
    requires (first && |objs| > 0) || out1 == out2
    ensures BoxScan(objs, time0, time1, temp, first, out1).0 == BoxScan(objs, time0, time1, temp, first, out2).0
    ensures BoxScan(objs, time0, time1, temp, first, out1).0 ==>
      BoxScan(objs, time0, time1, temp, first, out1).1 == BoxScan(objs, time0, time1, temp, first, out2).1
    decreases objs, 0
  {
    if |objs| > 0 {
      var (b, tb) := BoundingBox(objs[0], time0, time1, temp);
      TailWellFormed(objs);
      if b {
        var next1 := if first then tb else SurroundingBox(out1, tb);
        var next2 := if first then tb else SurroundingBox(out2, tb);
        BoxScanIgnoresSeed(objs[1..], time0, time1, tb, false, next1, next2);
      }
    }
  }

  lemma ContainsItself(b: Aabb)
    ensures Contains(b, b)
  {
    forall a: nat | a < 3
      ensures Index(b.minimum, a) <= Index(b.minimum, a) && Index(b.maximum, a) <= Index(b.maximum, a)
    {
    }
  }

  /** The corrected list loop reports a box exactly when every remaining
      member does, and the box it reports contains every member's box and
      the output it started from. */
  lemma {:induction false} BoxScanSurrounds(objs: seq<Hittable>, time0: real, time1: real, temp: Aabb, first: bool, output: Aabb)
    requires AllWellFormed(objs)
    ensures var res := BoxScan(objs, time0, time1, temp, first, output);
      && (res.0 <==> forall i :: 0 <= i < |objs| ==> BoxOf(objs[i], time0, time1).0)
      && (res.0 ==> forall i :: 0 <= i < |objs| ==> Contains(res.1, BoxOf(objs[i], time0, time1).1))
      && (res.0 && !first ==> Contains(res.1, output))
    decreases objs
  {
    var res := BoxScan(objs, time0, time1, temp, first, output);
    if |objs| == 0 {
      ContainsItself(output);
    } else {
      var (b, tb) := BoundingBox(objs[0], time0, time1, temp);
      BoxIgnoresSeed(objs[0], time0, time1, temp, Empty());
      TailWellFormed(objs);
      if b {
        var next := if first then tb else SurroundingBox(output, tb);
        BoxScanSurrounds(objs[1..], time0, time1, tb, false, next);
        assert res == BoxScan(objs[1..], time0, time1, tb, false, next);
        if first {
          ContainsItself(tb);
        }
        assert Contains(next, tb);
        if res.0 {
          ContainsTransitive(res.1, next, tb);
          if !first {
            ContainsTransitive(res.1, next, output);
          }
          forall i | 0 <= i < |objs|
            ensures Contains(res.1, BoxOf(objs[i], time0, time1).1)
          {
            if i > 0 {
              assert objs[i] == objs[1..][i - 1];
            }
          }
        }
        forall i | 0 <= i < |objs[1..]|
          ensures objs[1..][i] == objs[i + 1]
        {
        }
      }
    }
  }

  /** The box the corrected list loop reports is the smallest such box: any
      box containing every member's box (and the output it started from)
      contains it. */
  lemma {:induction false} BoxScanTightest(objs: seq<Hittable>, time0: real, time1: real, temp: Aabb, first: bool, output: Aabb, c: Aabb)
    requires AllWellFormed(objs)
    requires forall i :: 0 <= i < |objs| ==> Contains(c, BoxOf(objs[i], time0, time1).1)
    requires !first || |objs| == 0 ==> Contains(c, output)
    ensures var res := BoxScan(objs, time0, time1, temp, first, output);
      res.0 ==> Contains(c, res.1)
    decreases objs
  {
    if |objs| > 0 {
      var (b, tb) := BoundingBox(objs[0], time0, time1, temp);
      BoxIgnoresSeed(objs[0], time0, time1, temp, Empty());
      TailWellFormed(objs);
      if b {
        var next := if first then tb else SurroundingBox(output, tb);
        assert Contains(c, tb);
        if !first {
          SurroundingBoxTightest(output, tb, c);
        }
        forall i | 0 <= i < |objs[1..]|
          ensures Contains(c, BoxOf(objs[1..][i], time0, time1).1)
        {
          assert objs[1..][i] == objs[i + 1];
        }
        BoxScanTightest(objs[1..], time0, time1, tb, false, next, c);
      }
    }
  }

  /** `HittableList::bounding_box`, corrected: a list reports a box exactly
      when it is not empty and every member reports one, and the box is the
      smallest one containing all the members' boxes. */
  lemma ListBoxSurroundsMembers(objs: seq<Hittable>, time0: real, time1: real, box: Aabb, c: Aabb)
    requires AllWellFormed(objs)
    ensures var res := BoundingBox(List(objs), time0, time1, box);
      && (res.0 <==> |objs| > 0 && forall i :: 0 <= i < |objs| ==> BoxOf(objs[i], time0, time1).0)
      && (res.0 ==> forall i :: 0 <= i < |objs| ==> Contains(res.1, BoxOf(objs[i], time0, time1).1))
      && (res.0 && (forall i :: 0 <= i < |objs| ==> Contains(c, BoxOf(objs[i], time0, time1).1)) ==> Contains(c, res.1))
  {
    if |objs| > 0 {
      BoxScanSurrounds(objs, time0, time1, Empty(), true, box);
      if forall i :: 0 <= i < |objs| ==> Contains(c, BoxOf(objs[i], time0, time1).1) {
        BoxScanTightest(objs, time0, time1, Empty(), true, box, c);
      }
    }
  }

  /** As written, a list reports a box exactly when it is not empty and NO
      member reports one: the inverted check returns false at the first
      member that has a box. */
  lemma {:induction false} ListBoxAsWrittenInverted(objs: seq<Hittable>, time0: real, time1: real, box: Aabb)
    requires AllWellFormed(objs)
    ensures ListBoxAsWritten(objs, time0, time1, box).0 <==>
      |objs| > 0 && forall i :: 0 <= i < |objs| ==> !BoxOf(objs[i], time0, time1).0
  {
    if |objs| > 0 {
      BoxScanAsWrittenInverted(objs, time0, time1, Empty(), true, box);
    }
  }

  lemma {:induction false} BoxScanAsWrittenInverted(objs: seq<Hittable>, time0: real, time1: real, temp: Aabb, first: bool, output: Aabb)
    requires AllWellFormed(objs)
    ensures BoxScanAsWritten(objs, time0, time1, temp, first, output).0 <==>
      forall i :: 0 <= i < |objs| ==> !BoxOf(objs[i], time0, time1).0
    decreases |objs|
  {
    if |objs| > 0 {
      var (b, tb) := BoundingBox(objs[0], time0, time1, temp);
      BoxIgnoresSeed(objs[0], time0, time1, temp, Empty());
      TailWellFormed(objs);
      if !b {
        var next := if first then tb else SurroundingBox(output, tb);
        BoxScanAsWrittenInverted(objs[1..], time0, time1, tb, false, next);
        forall i | 0 <= i < |objs[1..]|
          ensures objs[1..][i] == objs[i + 1]
        {
        }
      }
    }
  }

  /** A list holding one sphere: as written it reports no box; corrected it
      reports the sphere's box. */
  lemma OneSphereList(s: Spheres.Sphere, time0: real, time1: real, box: Aabb)
    requires s.radius != 0.0
    ensures !ListBoxAsWritten([Sphere(s)], time0, time1, box).0
    ensures BoundingBox(List([Sphere(s)]), time0, time1, box) == (true, Spheres.BoundingBox(s))
  {
    var objs := [Sphere(s)];
    assert objs[0] == Sphere(s) && objs[1..] == [];
    assert BoxOf(Sphere(s), time0, time1) == (true, Spheres.BoundingBox(s));
    assert BoxScan(objs, time0, time1, Empty(), true, box) == BoxScan([], time0, time1, Spheres.BoundingBox(s), false, Spheres.BoundingBox(s));
  }

  // ----- Lemmas: rotation -----

  /** `Rotatey::new`: the child's answer to `bounding_box(0, 1, ..)` on a
      fresh box, and the rotated box around it. */
  function NewRotateY(child: Hittable, angle: real, o: Oracle): (h: Hittable)
    requires WellFormed(child)
    ensures WellFormed(h) && h.RotateY? && h.child == child
    ensures h.rot.hasBox == BoxOf(child, 0.0, 1.0).0
    ensures Valid(o) ==> Rotations.Proper(h.rot.turn)
  {
    RotateY(child, Rotations.New(BoxOf(child, 0.0, 1.0), angle, o))
  }

  /** The box a rotated instance reports contains the rotation of every
      point of the box its child reported. */
  lemma RotateYBoxContainsChild(child: Hittable, angle: real, o: Oracle, time0: real, time1: real, box: Aabb, q: Vec3)
    requires WellFormed(child) && Inside(BoxOf(child, 0.0, 1.0).1, q)
    ensures var h := NewRotateY(child, angle, o);
      BoundingBox(h, time0, time1, box) == (BoxOf(child, 0.0, 1.0).0, h.rot.bbox)
      && Inside(h.rot.bbox, Rotations.ToWorld(h.rot.turn, q))
  {
    var h := NewRotateY(child, angle, o);
    Rotations.RotatedBoxContains(h.rot.turn, BoxOf(child, 0.0, 1.0).1, q);
  }
}

=== FILE: material.dfy ===
/** Materials (`material.rs`): how a surface scatters an incoming ray and
    what light it emits.

    The random draws of `scatter` arrive as a `Draws` value: the point of
    `random_in_unit_sphere` (which `random_unit_vector` normalises) and the
    `random_f64` of the dielectric. The isotropic phase function that
    `ConstantMedium` installs is defined outside the modelled sources; its
    scatter and emission are supplied by a `Foreign` value. */
module Materials {
  import opened Utility
  import opened Vectors
  import opened Rays
  import opened Records
  import Textures

  datatype Material =
    | Lambertian(albedo: Option<Textures.Texture>)
    | Metal(color: Vec3, fuzz: real)
    | Dielectric(ir: real)
    | DiffLight(emit: Option<Textures.Texture>)
    | Isotropic(arg: PhaseArg)

  /** The argument the isotropic phase function was built from: a texture
      (`Isotropic::new2`) or a colour (`Isotropic::new1`). */
  datatype PhaseArg = OfTexture(texture: Option<Textures.Texture>) | OfColor(color: Vec3)

  type Rec = HitRecord<Material>

  /** What a successful `scatter` writes: the attenuation and the scattered ray. */
  datatype Scattered = Scattered(attenuation: Vec3, ray: Ray)

  /** The random inputs of one `scatter` call. */
  datatype Draws = Draws(inSphere: Vec3, uniform: real)

  predicate DrawsOk(d: Draws) {
    SquaredLength(d.inSphere) < 1.0 && UnitDraw(d.uniform)
  }

  /** The behaviour of the isotropic phase function, whose source is not part
      of this model. */
  datatype Foreign = Foreign(
    scatter: (PhaseArg, Ray, Rec, Draws) -> Option<Scattered>,
    emitted: (PhaseArg, real, real, Vec3) -> Vec3)

  /** Materials whose calls do not panic: textures present (the source unwraps
      them) and a dielectric index whose Schlick denominator is nonzero. */
  predicate Valid(m: Material) {
    match m
    case Lambertian(albedo) => albedo.Some? && Textures.Valid(albedo.value)
    case Metal(_, _) => true
    case Dielectric(ir) => ir != 0.0 && ir != -1.0
    case DiffLight(emit) => emit.Some? && Textures.Valid(emit.value)
    case Isotropic(_) => true
  }

  // ----- Constructors -----

  /** `Lambertian::new1`: a solid-colour albedo. */
  function LambertianOfColor(a: Vec3): (m: Material)
    ensures Valid(m) && m.Lambertian? && m.albedo == Some(Textures.SolidColor(a))
  {
    Lambertian(Some(Textures.SolidColor(a)))
  }

  /** `Metal::new`: the fuzz is capped at one from above only. */
  function MetalNew(a: Vec3, num: real): (m: Material)
    ensures m.Metal? && m.color == a
    ensures m.fuzz <= 1.0
    ensures num < 1.0 ==> m.fuzz == num
    ensures num >= 1.0 ==> m.fuzz == 1.0
  {
    Metal(a, if num < 1.0 then num else 1.0)
  }

  /** `DiffLight::new2`: a solid-colour emitter. */
  function DiffLightOfColor(c: Vec3): (m: Material)
    ensures Valid(m) && m.DiffLight? && m.emit == Some(Textures.SolidColor(c))
  {
    DiffLight(Some(Textures.SolidColor(c)))
  }

  // ----- Schlick -----

  function Pow5(x: real): real {
    x * x * x * x * x
  }

  /** The reflectance at normal incidence, `((1 - ref) / (1 + ref))^2`. */
  function R0(refIdx: real): real
    requires refIdx != -1.0
  {
    var r := (1.0 - refIdx) / (1.0 + refIdx);
    r * r
  }

  /** `Dielectric::reflectance`: Schlick's approximation. */
  function Reflectance(cosine: real, refIdx: real): real
    requires refIdx != -1.0
  {
    R0(refIdx) + (1.0 - R0(refIdx)) * Pow5(1.0 - cosine)
  }

  /** The refraction ratio of `Dielectric::scatter`. */
  function RefractionRatio(ir: real, frontFace: bool): (ratio: real)
    requires ir != 0.0
    ensures frontFace ==> ratio * ir == 1.0
    ensures !frontFace ==> ratio == ir
  {
    if frontFace then 1.0 / ir else ir
  }

  /** The cosine of `Dielectric::scatter`, capped at one. */
  function CappedCosine(unitDirection: Vec3, normal: Vec3): (c: real)
    ensures c <= 1.0
    ensures Dot(Neg(unitDirection), normal) < 1.0 ==> c == Dot(Neg(unitDirection), normal)
  {
    var d := Dot(Neg(unitDirection), normal);
    if d < 1.0 then d else 1.0
  }

  /** The sine `sqrt(1 - cos^2)` of an angle with the given cosine. */
  function SineOf(cosTheta: real, o: Oracle): real {
    Sqrt(o, 1.0 - cosTheta * cosTheta)
  }

  // ----- Scatter and emit -----

  /** The direction `Dielectric::scatter` chooses for a unit incoming
      direction: the mirror reflection when refraction is impossible or when
      Schlick's reflectance beats the draw, the refraction otherwise. */
  function DielectricDirection(unitDirection: Vec3, normal: Vec3, ratio: real, cosTheta: real, sinTheta: real, draw: real, o: Oracle): Vec3
    requires ratio != -1.0
  {
    var cannotRefract := ratio * sinTheta > 1.0;
    if cannotRefract || Reflectance(cosTheta, ratio) > draw then Reflect(unitDirection, normal)
    else Refract(unitDirection, normal, ratio, o)
  }

  /** The direction of `Lambertian::scatter`: the normal plus the unit vector
      of the ball draw, or the normal when that sum is nearly zero. */
  function LambertianDirection(normal: Vec3, inSphere: Vec3, o: Oracle): Vec3 {
    var direction := Add(normal, Unit(inSphere, o));
    if NearZero(direction) then normal else direction
  }

  /** `scatter` of every material: `None` where the source returns false. */
  function Scatter(m: Material, rIn: Ray, rec: Rec, d: Draws, o: Oracle, iso: Foreign): Option<Scattered>
    requires Valid(m)
  {
    match m
    case Lambertian(albedo) =>
      Some(Scattered(Textures.Value(albedo.value, rec.u, rec.v, rec.p, o),
                     Ray(rec.p, LambertianDirection(rec.normal, d.inSphere, o), rIn.time)))
    case Metal(albedo, fuzz) =>
      var reflected := Reflect(Unit(rIn.direction, o), rec.normal);
      var scattered := Ray(rec.p, Add(reflected, Scale(d.inSphere, fuzz)), rIn.time);
      if Dot(scattered.direction, rec.normal) > 0.0 then Some(Scattered(albedo, scattered)) else None
    case Dielectric(ir) =>
      var ratio := RefractionRatio(ir, rec.frontFace);
      var unitDirection := Unit(rIn.direction, o);
      var cosTheta := CappedCosine(unitDirection, rec.normal);
      var sinTheta := SineOf(cosTheta, o);
      var direction := DielectricDirection(unitDirection, rec.normal, ratio, cosTheta, sinTheta, d.uniform, o);
      Some(Scattered(Ones(), Ray(rec.p, direction, rIn.time)))
    case DiffLight(_) => None
    case Isotropic(arg) => iso.scatter(arg, rIn, rec, d)
  }

  /** `emitted` of every material. */
  function Emitted(m: Material, u: real, v: real, p: Vec3, o: Oracle, iso: Foreign): Vec3
    requires Valid(m)
  {
    match m
    case DiffLight(emit) => Textures.Value(emit.value, u, v, p, o)
    case Isotropic(arg) => iso.emitted(arg, u, v, p)
    case _ => Zero()
  }

  // ----- Lemmas -----

  /** A mirror (fuzz 0) that a ray of nonzero direction meets from the front,
      with a unit normal, always scatters,
      along a unit vector on the normal's side that leaves at the angle it
      arrived: its normal component is the incoming unit direction's, negated. */
  lemma MirrorLeavesSurface(m: Material, rIn: Ray, rec: Rec, d: Draws, o: Oracle, iso: Foreign)
    requires m.Metal? && m.fuzz == 0.0
    requires Utility.Valid(o) && SquaredLength(rec.normal) == 1.0
    requires SquaredLength(rIn.direction) != 0.0 && Dot(rIn.direction, rec.normal) < 0.0
    ensures var s := Scatter(m, rIn, rec, d, o, iso);
      && s.Some?
      && SquaredLength(s.value.ray.direction) == 1.0
      && Dot(s.value.ray.direction, rec.normal) == -Dot(Unit(rIn.direction, o), rec.normal) > 0.0
  {
    var unitDirection := Unit(rIn.direction, o);
    UnitKeepsSide(rIn.direction, rec.normal, o);
    var reflected := Reflect(unitDirection, rec.normal);
    ReflectProperties(unitDirection, rec.normal);
    ReflectKeepsLength(unitDirection, rec.normal);
    assert Add(reflected, Scale(d.inSphere, m.fuzz)) == reflected;
  }

  /** A Lambertian surface always scatters, from the hit point at the incoming
      time, with the albedo texture's colour, along the normal plus a unit
      vector, or along the normal when that sum is nearly zero. */
  lemma LambertianScatter(m: Material, rIn: Ray, rec: Rec, d: Draws, o: Oracle, iso: Foreign)
    requires m.Lambertian? && Valid(m)
    ensures var s := Scatter(m, rIn, rec, d, o, iso);
      && s.Some?
      && s.value.ray.origin == rec.p && s.value.ray.time == rIn.time
      && s.value.attenuation == Textures.Value(m.albedo.value, rec.u, rec.v, rec.p, o)
      && s.value.ray.direction == LambertianDirection(rec.normal, d.inSphere, o)
      && var direction := Add(rec.normal, Unit(d.inSphere, o));
         (NearZero(direction) ==> s.value.ray.direction == rec.normal)
         && (!NearZero(direction) ==> s.value.ray.direction == direction)
  {
  }

  /** For a unit normal, a Lambertian surface scatters into the hemisphere on
      the normal's side: `normal + random_unit_vector()` never points below
      the surface, and neither does its near-zero replacement. */
  lemma LambertianLeavesSurface(normal: Vec3, inSphere: Vec3, o: Oracle)
    requires Utility.Valid(o) && SquaredLength(inSphere) < 1.0
    requires SquaredLength(normal) == 1.0
    ensures Dot(LambertianDirection(normal, inSphere, o), normal) >= 0.0
  {
    UnitOfBallPoint(inSphere, o);
    HemisphereSum(normal, Unit(inSphere, o));
  }

  /** A unit vector plus a vector no longer than one, and the unit vector
      itself, lie on the unit vector's side. */
  lemma HemisphereSum(n: Vec3, u: Vec3)
    requires SquaredLength(n) == 1.0 && SquaredLength(u) <= 1.0
    ensures Dot(Add(n, u), n) >= 0.0 && Dot(n, n) >= 0.0
  {
    var direction := Add(n, u);
    SquaredLengthIsSelfDot(direction);
    assert SquaredLength(direction) == SquaredLength(n) + 2.0 * Dot(u, n) + SquaredLength(u);
    assert Dot(direction, n) == SquaredLength(n) + Dot(u, n);
  }

  /** `random_unit_vector` of a point of the open unit ball is no longer than
      one: a unit vector, or the zero vector itself. */
  lemma UnitOfBallPoint(a: Vec3, o: Oracle)
    requires Utility.Valid(o) && SquaredLength(a) < 1.0
    ensures SquaredLength(Unit(a, o)) <= 1.0
  {
    if SquaredLength(a) == 0.0 {
      assert Length(a, o) == 0.0;
    }
  }

  /** A metal scatters exactly when the fuzzed reflection leaves the surface
      on the side of the normal; a mirror (fuzz 0) reflects the unit direction. */
  lemma MetalScatter(m: Material, rIn: Ray, rec: Rec, d: Draws, o: Oracle, iso: Foreign)
    requires m.Metal?
    ensures var s := Scatter(m, rIn, rec, d, o, iso);
      var direction := Add(Reflect(Unit(rIn.direction, o), rec.normal), Scale(d.inSphere, m.fuzz));
      && (s.Some? <==> Dot(direction, rec.normal) > 0.0)
      && (s.Some? ==> s.value == Scattered(m.color, Ray(rec.p, direction, rIn.time)))
      && (m.fuzz == 0.0 && s.Some? ==> s.value.ray.direction == Reflect(Unit(rIn.direction, o), rec.normal))
  {
  }

  /** A dielectric always scatters, from the hit point at the incoming time,
      with white attenuation, along `DielectricDirection` of the unit incoming
      direction, the face's refraction ratio and the capped cosine. */
  lemma DielectricScatter(m: Material, rIn: Ray, rec: Rec, d: Draws, o: Oracle, iso: Foreign)
    requires m.Dielectric? && Valid(m)
    ensures var s := Scatter(m, rIn, rec, d, o, iso);
      var unitDirection := Unit(rIn.direction, o);
      var cosTheta := CappedCosine(unitDirection, rec.normal);
      var ratio := RefractionRatio(m.ir, rec.frontFace);
      && s.Some? && s.value.attenuation == Ones()
      && s.value.ray.origin == rec.p && s.value.ray.time == rIn.time
      && s.value.ray.direction
         == DielectricDirection(unitDirection, rec.normal, ratio, cosTheta, SineOf(cosTheta, o), d.uniform, o)
  {
  }

  /** The dielectric reflects whenever the refraction ratio times the sine
      exceeds one (total internal reflection), and otherwise reflects exactly
      when the reflectance exceeds the draw. */
  lemma DielectricChoice(unitDirection: Vec3, normal: Vec3, ratio: real, cosTheta: real, sinTheta: real, draw: real, o: Oracle)
    requires ratio != -1.0
    ensures var dir := DielectricDirection(unitDirection, normal, ratio, cosTheta, sinTheta, draw, o);
      && (ratio * sinTheta > 1.0 ==> dir == Reflect(unitDirection, normal))
      && (ratio * sinTheta <= 1.0 && Reflectance(cosTheta, ratio) > draw ==> dir == Reflect(unitDirection, normal))
      && (ratio * sinTheta <= 1.0 && Reflectance(cosTheta, ratio) <= draw ==> dir == Refract(unitDirection, normal, ratio, o))
  {
  }

  /** A light never scatters and emits its texture; the other three built-in
      materials emit black. */
  lemma EmissionByKind(m: Material, rIn: Ray, rec: Rec, d: Draws, u: real, v: real, p: Vec3, o: Oracle, iso: Foreign)
    requires Valid(m)
    ensures m.DiffLight? ==> Scatter(m, rIn, rec, d, o, iso).None?
    ensures m.DiffLight? ==> Emitted(m, u, v, p, o, iso) == Textures.Value(m.emit.value, u, v, p, o)
    ensures m.Lambertian? || m.Metal? || m.Dielectric? ==> Emitted(m, u, v, p, o, iso) == Zero()
  {
  }

  /** Schlick's formula at normal incidence is the base reflectance. */
  lemma ReflectanceAtNormalIncidence(refIdx: real)
    requires refIdx != -1.0
    ensures Reflectance(1.0, refIdx) == R0(refIdx)
  {
  }

  /** For a positive index the base reflectance lies in [0, 1]. */
  lemma R0Bounds(refIdx: real)
    requires refIdx > 0.0
    ensures 0.0 <= R0(refIdx) <= 1.0
  {
    var r := (1.0 - refIdx) / (1.0 + refIdx);
    var inv := 1.0 / (1.0 + refIdx);
    assert inv * (1.0 + refIdx) == 1.0;
    assert r == (1.0 - refIdx) * inv;
    assert -1.0 <= r <= 1.0 by {
      assert (1.0 + refIdx) * r == 1.0 - refIdx;
    }
    MulMono(r * r, 1.0, 1.0);
    if r >= 0.0 {
      MulMono(r, 1.0, r);
    } else {
      MulMono(-r, 1.0, -r);
    }
  }

  /** A product of two numbers in [0, 1] stays in [0, 1]. */
  lemma ProductInUnit(a: real, b: real)
    requires 0.0 <= a <= 1.0 && 0.0 <= b <= 1.0
    ensures 0.0 <= a * b <= 1.0
  {
    MulMono(a, 1.0, b);
    assert a * b <= 1.0 * b;
    assert 1.0 * b == b;
  }

  /** A fifth power of a number in [0, 1] stays in [0, 1]. */
  lemma Pow5Bounds(x: real)
    requires 0.0 <= x <= 1.0
    ensures 0.0 <= Pow5(x) <= 1.0
  {
    ProductInUnit(x, x);
    ProductInUnit(x * x, x);
    ProductInUnit(x * x * x, x);
    ProductInUnit(x * x * x * x, x);
  }

  /** For a cosine in [0, 1] and a positive index, Schlick's reflectance lies
      between the base reflectance and one. */
  lemma ReflectanceBounds(cosine: real, refIdx: real)
    requires 0.0 <= cosine <= 1.0 && refIdx > 0.0
    ensures R0(refIdx) <= Reflectance(cosine, refIdx) <= 1.0
  {
    R0Bounds(refIdx);
    Pow5Bounds(1.0 - cosine);
    var r0, q := R0(refIdx), Pow5(1.0 - cosine);
    MulNonneg(1.0 - r0, q);
    MulMono(q, 1.0, 1.0 - r0);
  }
}

=== FILE: moving_sphere.dfy ===
/** Moving spheres (`moving_sphere.rs`): a sphere whose centre travels in a
    straight line from `center0` at `time_0` to `center1` at `time_1`. A ray
    meets the sphere where it stands at the ray's own time. Unlike the static
    sphere, `hit` leaves the texture coordinates of the record as they were. */
module MovingSpheres {
  import opened Utility
  import opened Vectors
  import opened Rays
  import opened Records
  import opened Boxes
  import Materials
  import Spheres

  type Rec = HitRecord<Materials.Material>

  datatype MovingSphere = MovingSphere(
    center0: Vec3, center1: Vec3,
    time0: real, time1: real,
    radius: real,
    mat: Option<Materials.Material>)

  /** `MovingSphere::new_0`: everything zero, no material. */
  function NewEmpty(): (s: MovingSphere)
    ensures s.center0 == Zero() && s.center1 == Zero()
    ensures s.time0 == 0.0 && s.time1 == 0.0 && s.radius == 0.0 && s.mat.None?
  {
    MovingSphere(Zero(), Zero(), 0.0, 0.0, 0.0, None)
  }

  /** `MovingSphere::center`: `center0 + (center1 - center0) * (time - time_0) / (time_1 - time_0)`.
      The source divides by the length of the time interval without a check. */
  function Center(s: MovingSphere, time: real): Vec3
    requires s.time1 != s.time0
  {
    Add(s.center0, Div(Scale(Sub(s.center1, s.center0), time - s.time0), s.time1 - s.time0))
  }

  /** The sphere as it stands at one instant. */
  function At(s: MovingSphere, time: real): (st: Spheres.Sphere)
    requires s.time1 != s.time0
    ensures st.radius == s.radius && st.mat == s.mat
  {
    Spheres.Sphere(Center(s, time), s.radius, s.mat)
  }

  /** `MovingSphere::hit`: the quadratic of the static sphere with the centre
      taken at the ray's time; on a hit `t`, the point, the normal with its face
      and the material are written, and `u`, `v` are not. */
  function Hit(s: MovingSphere, r: Ray, tMin: Ext, tMax: Ext, rec: Rec, o: Oracle): (res: HitResult<Materials.Material>)
    requires s.radius != 0.0 && s.time1 != s.time0
    ensures !res.hit ==> res.rec == rec
    ensures res.hit ==> (
      && Within(res.rec.t, tMin, tMax)
      && res.rec.p == Rays.At(r, res.rec.t)
      && res.rec.mat == s.mat
      && res.rec.u == rec.u && res.rec.v == rec.v)
    ensures Spheres.Discriminant(Sub(r.origin, Center(s, r.time)), r.direction, s.radius) < 0.0 ==> !res.hit
    ensures var root := Spheres.NearestRoot(Sub(r.origin, Center(s, r.time)), r.direction, s.radius, tMin, tMax, o);
      res.hit == root.Some? && (res.hit ==> res.rec.t == root.value)
  {
    var center := Center(s, r.time);
    match Spheres.NearestRoot(Sub(r.origin, center), r.direction, s.radius, tMin, tMax, o)
    case None => Miss(rec)
    case Some(root) =>
      var p := Rays.At(r, root);
      var outward := Div(Sub(p, center), s.radius);
      var rec1 := rec.(t := root, p := p, normal := outward);
      HitResult(true, SetFrontFace(rec1, r, outward).(mat := s.mat))
  }

  /** `MovingSphere::bounding_box`: the surrounding box of the sphere's boxes
      at the two ends of the query interval; it always reports a box. */
  function BoundingBox(s: MovingSphere, time0: real, time1: real): (res: (bool, Aabb))
    requires s.time1 != s.time0
    ensures res.0
    ensures Contains(res.1, Spheres.BoundingBox(At(s, time0)))
    ensures Contains(res.1, Spheres.BoundingBox(At(s, time1)))
    ensures res.1 == SurroundingBox(Spheres.BoundingBox(At(s, time0)), Spheres.BoundingBox(At(s, time1)))
  {
    var r := Vec3(s.radius, s.radius, s.radius);
    var box0 := Aabb(Sub(Center(s, time0), r), Add(Center(s, time0), r));
    var box1 := Aabb(Sub(Center(s, time1), r), Add(Center(s, time1), r));
    (true, SurroundingBox(box0, box1))
  }

  // ----- Lemmas -----

  /** The centre is `center0` at `time_0` and `center1` at `time_1`. */
  lemma CenterEndpoints(s: MovingSphere)
    requires s.time1 != s.time0
    ensures Center(s, s.time0) == s.center0
    ensures Center(s, s.time1) == s.center1
  {
    var d := s.time1 - s.time0;
    var w := Sub(s.center1, s.center0);
    assert Scale(w, d) == Vec3(w.x * d, w.y * d, w.z * d);
    assert w.x * d / d == w.x && w.y * d / d == w.y && w.z * d / d == w.z;
  }

  /** A sphere whose two centres agree stands still. */
  lemma StationaryCenter(s: MovingSphere, time: real)
    requires s.time1 != s.time0 && s.center0 == s.center1
    ensures Center(s, time) == s.center0
  {
  }

  /** The centre moves at constant velocity: equal time steps move it by equal
      displacements. */
  lemma CenterAffine(s: MovingSphere, time: real, dt: real)
    requires s.time1 != s.time0
    ensures Sub(Center(s, time + dt), Center(s, time))
         == Sub(Center(s, s.time0 + dt), Center(s, s.time0))
  {
    CoordinateAffine(s.center0.x, s.center1.x, s.time0, s.time1, time, dt);
    CoordinateAffine(s.center0.y, s.center1.y, s.time0, s.time1, time, dt);
    CoordinateAffine(s.center0.z, s.center1.z, s.time0, s.time1, time, dt);
  }

  /** `CenterAffine` for one coordinate. */
  lemma CoordinateAffine(c0: real, c1: real, time0: real, time1: real, time: real, dt: real)
    requires time1 != time0
    ensures var at := (t: real) => c0 + ((c1 - c0) * (t - time0)) / (time1 - time0);
      at(time + dt) - at(time) == at(time0 + dt) - at(time0)
  {
    var d := time1 - time0;
    var a := c1 - c0;
    ShiftQuotient(a, time - time0, dt, d);
    assert (time + dt) - time0 == (time - time0) + dt;
    assert (time0 + dt) - time0 == dt && time0 - time0 == 0.0;
  }

  lemma ShiftQuotient(a: real, x: real, dt: real, d: real)
    requires d != 0.0
    ensures (a * (x + dt)) / d - (a * x) / d == (a * dt) / d
  {
    assert a * (x + dt) - a * x == a * dt;
  }

  /** The moving sphere's `hit` is the static sphere's `hit` at the ray's time
      in everything but the texture coordinates. */
  lemma HitIsStaticHitAtRayTime(s: MovingSphere, r: Ray, tMin: Ext, tMax: Ext, rec: Rec, o: Oracle)
    requires s.radius != 0.0 && s.time1 != s.time0 && o.pi > 0.0
    ensures var res := Hit(s, r, tMin, tMax, rec, o);
      var st := Spheres.Hit(At(s, r.time), r, tMin, tMax, rec, o);
      && res.hit == st.hit
      && res.rec.(u := st.rec.u, v := st.rec.v) == st.rec
  {
  }

  /** A hit of the moving sphere is a point of the sphere as it stands at the
      ray's time. */
  lemma HitOnSphere(s: MovingSphere, r: Ray, tMin: Ext, tMax: Ext, rec: Rec, o: Oracle)
    requires s.radius != 0.0 && s.time1 != s.time0 && Valid(o) && SquaredLength(r.direction) != 0.0
    ensures var res := Hit(s, r, tMin, tMax, rec, o);
      res.hit ==> SquaredLength(Sub(res.rec.p, Center(s, r.time))) == s.radius * s.radius
  {
    HitIsStaticHitAtRayTime(s, r, tMin, tMax, rec, o);
    Spheres.HitOnSphere(At(s, r.time), r, tMin, tMax, rec, o);
  }

  /** A hit of the moving sphere is the nearest point of the window on the
      sphere as it stands at the ray's time; a miss means there is none. */
  lemma HitIsNearest(s: MovingSphere, r: Ray, tMin: Ext, tMax: Ext, rec: Rec, o: Oracle, t: real)
    requires s.radius != 0.0 && s.time1 != s.time0 && Valid(o) && SquaredLength(r.direction) != 0.0
    requires Within(t, tMin, tMax) && SquaredLength(Sub(Rays.At(r, t), Center(s, r.time))) == s.radius * s.radius
    ensures var res := Hit(s, r, tMin, tMax, rec, o);
      res.hit && res.rec.t <= t
  {
    Spheres.NearestRootIsNearest(r, Center(s, r.time), s.radius, tMin, tMax, o, t);
  }

  /** With a positive radius, every point of the sphere at either end of the
      query interval lies in the reported box. */
  /** The reported box is the smallest one holding the sphere's boxes at both
      ends of the query interval: any box containing both contains it. */
  lemma BoundingBoxTightest(s: MovingSphere, time0: real, time1: real, c: Aabb)
    requires s.time1 != s.time0
    requires Contains(c, Spheres.BoundingBox(At(s, time0))) && Contains(c, Spheres.BoundingBox(At(s, time1)))
    ensures Contains(c, BoundingBox(s, time0, time1).1)
  {
    SurroundingBoxTightest(Spheres.BoundingBox(At(s, time0)), Spheres.BoundingBox(At(s, time1)), c);
  }

  lemma BoxContainsEndSpheres(s: MovingSphere, time0: real, time1: real, p: Vec3)
    requires s.time1 != s.time0 && s.radius > 0.0
    requires SquaredLength(Sub(p, Center(s, time0))) == s.radius * s.radius
          || SquaredLength(Sub(p, Center(s, time1))) == s.radius * s.radius
    ensures Inside(BoundingBox(s, time0, time1).1, p)
  {
    var b := BoundingBox(s, time0, time1).1;
    if SquaredLength(Sub(p, Center(s, time0))) == s.radius * s.radius {
      Spheres.BoxContainsSphere(At(s, time0), p);
      ContainsInside(b, Spheres.BoundingBox(At(s, time0)), p);
    } else {
      Spheres.BoxContainsSphere(At(s, time1), p);
      ContainsInside(b, Spheres.BoundingBox(At(s, time1)), p);
    }
  }
}

=== FILE: perlin.dfy ===
/** Perlin noise (`perlin.rs`): the random permutation tables, the lattice
    hashing that indexes the table of random vectors, trilinear interpolation
    with smoothstep weights, and turbulence.

    The integer arithmetic of the source is written out: `floor() as i32`
    saturates, `i + di` is an i32 addition (wrapping, as in a release build),
    `as usize` sign-extends to 64 bits and `& 255` and `^` act on the 64-bit
    pattern.
 */
module Noise {
  import opened Utility
  import opened Vectors

  /** `point_count` in the source. */
  const PointCount: nat := 256

  const I32Min: int := -0x8000_0000
  const I32Max: int := 0x7FFF_FFFF

  datatype Perlin = Perlin(ranvec: seq<Vec3>, permX: seq<int>, permY: seq<int>, permZ: seq<int>)

  /** Every entry of a permutation table indexes the random vectors. */
  predicate TableOk(t: seq<int>) {
    |t| == PointCount && forall i :: 0 <= i < |t| ==> 0 <= t[i] < PointCount
  }

  /** The shape `Perlin::new` builds: 256 random vectors and three tables. */
  predicate Valid(pl: Perlin) {
    |pl.ranvec| == PointCount && TableOk(pl.permX) && TableOk(pl.permY) && TableOk(pl.permZ)
  }

  // ----- Permutations -----

  /** `p.swap(i, j)`. */
  function Swap(p: seq<int>, i: nat, j: nat): (q: seq<int>)
    requires i < |p| && j < |p|
    ensures |q| == |p| && q[i] == p[j] && q[j] == p[i]
    ensures forall k :: 0 <= k < |p| && k != i && k != j ==> q[k] == p[k]
  {
    p[i := p[j]][j := p[i]]
  }

  /** The targets `random_i32_1(0, n - i)` drawn by `permute` for i in 1..n:
      `targets[i - 1]` lies in [0, n - i). */
  predicate TargetsOk(n: int, targets: seq<int>) {
    |targets| >= n - 1 && forall m :: 0 <= m < n - 1 ==> 0 <= targets[m] < n - 1 - m
  }

  /** Reference definition of `permute`: the swaps for i, i + 1, ..., n - 1. */
  function PermuteFrom(p: seq<int>, n: int, targets: seq<int>, i: nat): (q: seq<int>)
    requires 1 <= i && n <= |p| && TargetsOk(n, targets)
    ensures |q| == |p|
    decreases n - i
  {
    if i >= n then p
    else PermuteFrom(Swap(p, i, targets[i - 1]), n, targets, i + 1)
  }

  lemma SwapMultiset(p: seq<int>, i: nat, j: nat)
    requires i < |p| && j < |p|
    ensures multiset(Swap(p, i, j)) == multiset(p)
  {
    var q := p[i := p[j]];
    assert multiset(q) == multiset(p) - multiset{p[i]} + multiset{p[j]};
    assert multiset(q[j := p[i]]) == multiset(q) - multiset{q[j]} + multiset{p[i]};
  }

  /** `permute`: the swap loop. Every swap is in bounds, and the result is the
      reference definition, so a permutation of the input that leaves the
      entries from `n` on in place. */
  method Permute(p: seq<int>, n: int, targets: seq<int>) returns (q: seq<int>)
    requires n <= |p| && TargetsOk(n, targets)
    ensures q == PermuteFrom(p, n, targets, 1)
    ensures multiset(q) == multiset(p)
    ensures forall k :: 0 <= k < |p| && k >= n ==> q[k] == p[k]
    ensures n <= 1 ==> q == p
  {
    q := p;
    var i := 1;
    while i < n
      invariant 1 <= i && (n >= 1 ==> i <= n)
      invariant |q| == |p|
      invariant PermuteFrom(q, n, targets, i) == PermuteFrom(p, n, targets, 1)
      invariant multiset(q) == multiset(p)
      invariant forall k :: 0 <= k < |p| && k >= n ==> q[k] == p[k]
    {
      var target := targets[i - 1];
      SwapMultiset(q, i, target);
      q := Swap(q, i, target);
      i := i + 1;
    }
  }

  /** 0, 1, ..., n - 1. */
  function Iota(n: nat): (s: seq<int>)
    ensures |s| == n && forall k :: 0 <= k < n ==> s[k] == k
  {
    seq(n, k => k)
  }

  /** `perlin_generate_perm`: the identity table of 256 entries, permuted. */
  method GeneratePerm(targets: seq<int>) returns (p: seq<int>)
    requires TargetsOk(PointCount, targets)
    ensures |p| == PointCount && multiset(p) == multiset(Iota(PointCount))
    ensures TableOk(p)
    ensures forall i, j :: 0 <= i < j < |p| ==> p[i] != p[j]
  {
    p := Permute(Iota(PointCount), PointCount, targets);
    PermutationOfIota(p, PointCount);
  }

  lemma IotaCount(n: nat, v: int)
    ensures multiset(Iota(n))[v] == if 0 <= v < n then 1 else 0
  {
    if n > 0 {
      assert Iota(n) == Iota(n - 1) + [n - 1];
      IotaCount(n - 1, v);
    }
  }

  /** A sequence with the multiset of 0..n-1 holds each of them exactly once. */
  lemma {:induction false} PermutationOfIota(p: seq<int>, n: nat)
    requires multiset(p) == multiset(Iota(n))
    ensures |p| == n
    ensures forall i :: 0 <= i < |p| ==> 0 <= p[i] < n
    ensures forall i, j :: 0 <= i < j < |p| ==> p[i] != p[j]
  {
    assert |p| == |multiset(p)| == |multiset(Iota(n))| == n;
    forall i | 0 <= i < |p|
      ensures 0 <= p[i] < n
    {
      assert p[i] in multiset(p);
      IotaCount(n, p[i]);
    }
    forall i, j | 0 <= i < j < |p|
      ensures p[i] != p[j]
    {
      if p[i] == p[j] {
        TwiceCounted(p, i, j);
        IotaCount(n, p[i]);
        assert false;
      }
    }
  }

  lemma TwiceCounted(p: seq<int>, i: nat, j: nat)
    requires i < j < |p| && p[i] == p[j]
    ensures multiset(p)[p[i]] >= 2
  {
    assert p == p[..i] + [p[i]] + p[i + 1..j] + [p[j]] + p[j + 1..];
  }

  // ----- Hashing -----

  /** `f64::floor() as i32`: saturates at the i32 range. */
  function FloorI32(x: real): (i: int)
    ensures I32Min <= i <= I32Max
    ensures I32Min <= x.Floor <= I32Max ==> i == x.Floor
  {
    var f := x.Floor;
    if f < I32Min then I32Min else if f > I32Max then I32Max else f
  }

  /** i32 `+` with wrap-around. */
  function WrappingAdd(a: int, b: int): (s: int)
    ensures I32Min <= s <= I32Max
    ensures I32Min <= a + b <= I32Max ==> s == a + b
  {
    (a + b - I32Min) % 0x1_0000_0000 + I32Min
  }

  /** `x as usize` for an i32 `x`: sign extension to the 64-bit pattern. */
  function AsUsize(x: int): (u: nat)
    requires I32Min <= x <= I32Max
    ensures u < 0x1_0000_0000_0000_0000
  {
    if x < 0 then x + 0x1_0000_0000_0000_0000 else x
  }

  function Pow2(k: nat): (p: nat)
    ensures p >= 1
  {
    if k == 0 then 1 else 2 * Pow2(k - 1)
  }

  /** Bitwise `&` of two unsigned integers, bit by bit from the lowest. */
  function BitAnd(a: nat, b: nat): nat {
    if a == 0 || b == 0 then 0
    else 2 * BitAnd(a / 2, b / 2) + (if a % 2 == 1 && b % 2 == 1 then 1 else 0)
  }

  /** `((x as usize) & 255)`, the table index of lattice coordinate `x`:
      masking with 255 keeps the low byte of the 64-bit pattern, which
      `MaskIsLowByte` proves about the bitwise definition `BitAnd`. */
  function HashIndex(x: int): nat
    requires I32Min <= x <= I32Max
  {
    AsUsize(x) % 256
  }

  /** The mask `& 255` used by `noise` is the remainder modulo 256. */
  lemma MaskIsLowByte(x: int)
    requires I32Min <= x <= I32Max
    ensures BitAnd(AsUsize(x), 255) == HashIndex(x)
  {
    assert Pow2(8) == 256;
    LowBits(AsUsize(x), 8);
  }

  /** The hash is the lattice coordinate modulo 256, negative coordinates
      included, because 2^64 is a multiple of 256. */
  lemma HashIndexIsMod(x: int)
    requires I32Min <= x <= I32Max
    ensures HashIndex(x) == x % 256
    ensures HashIndex(x) < PointCount
  {
    if x < 0 {
      ModUnique(AsUsize(x), 256, 0x1_0000_0000_0000_00 + x / 256, x % 256);
    }
  }

  /** Masking with 2^k - 1 keeps the value modulo 2^k. */
  lemma {:induction false} LowBits(u: nat, k: nat)
    ensures BitAnd(u, Pow2(k) - 1) == u % Pow2(k)
  {
    if k == 0 {
    } else if u == 0 {
    } else {
      var m := Pow2(k) - 1;
      assert m / 2 == Pow2(k - 1) - 1;
      assert m % 2 == 1;
      LowBits(u / 2, k - 1);
      ModSplit(u, Pow2(k - 1));
    }
  }

  lemma ModSplit(u: nat, p: nat)
    requires p >= 1
    ensures 2 * ((u / 2) % p) + u % 2 == u % (2 * p)
  {
    var q, r := u / 2, u % 2;
    var s, t := q / p, q % p;
    assert u == 2 * q + r;
    assert q == p * s + t;
    assert u == (2 * p) * s + (2 * t + r);
    ModUnique(u, 2 * p, s, 2 * t + r);
  }

  lemma ModUnique(u: int, d: int, q: int, r: int)
    requires d > 0 && u == d * q + r && 0 <= r < d
    ensures u % d == r
  {
    var q', r' := u / d, u % d;
    assert u == d * q' + r';
    if q' > q {
      assert d * q' >= d * (q + 1) by { MulMonoInt(q + 1, q', d); }
      assert false;
    } else if q' < q {
      assert d * q >= d * (q' + 1) by { MulMonoInt(q' + 1, q, d); }
      assert false;
    }
  }

  lemma MulMonoInt(a: int, b: int, d: int)
    requires a <= b && d > 0
    ensures d * a <= d * b
  {
  }

  /** `perm_x[..] ^ perm_y[..] ^ perm_z[..]` on table entries below 256: the
      XOR of values below 256 only touches their low byte, so it is computed
      on bytes; the result indexes the 256 random vectors. */
  function Xor3(a: nat, b: nat, c: nat): (r: nat)
    requires a < PointCount && b < PointCount && c < PointCount
    ensures r < PointCount
  {
    ((a as bv8) ^ (b as bv8) ^ (c as bv8)) as nat
  }

  /** The random vector at lattice corner (i + di, j + dj, k + dk). */
  function Corner(pl: Perlin, i: int, j: int, k: int, di: int, dj: int, dk: int): Vec3
    requires Valid(pl)
    requires I32Min <= i <= I32Max && I32Min <= j <= I32Max && I32Min <= k <= I32Max
  {
    var hx, hy, hz := HashIndex(WrappingAdd(i, di)), HashIndex(WrappingAdd(j, dj)), HashIndex(WrappingAdd(k, dk));
    HashIndexIsMod(WrappingAdd(i, di));
    HashIndexIsMod(WrappingAdd(j, dj));
    HashIndexIsMod(WrappingAdd(k, dk));
    pl.ranvec[Xor3(pl.permX[hx], pl.permY[hy], pl.permZ[hz])]
  }

  // ----- Interpolation -----

  /** The smoothstep `u * u * (3 - 2 * u)`. */
  function Smooth(u: real): real {
    u * u * (3.0 - 2.0 * u)
  }

  /** The weight of corner coordinate `i` (0 or 1) for a smoothed fraction `s`. */
  function CornerWeight(i: int, s: real): real {
    i as real * s + (1 - i) as real * (1.0 - s)
  }

  /** One corner's term of `trilinear_interp`. */
  function Term(c: seq<Vec3>, i: int, j: int, k: int, u: real, v: real, w: real): real
    requires |c| == 8 && 0 <= i < 2 && 0 <= j < 2 && 0 <= k < 2
  {
    CornerWeight(i, Smooth(u)) * CornerWeight(j, Smooth(v)) * CornerWeight(k, Smooth(w))
      * Dot(c[4 * i + 2 * j + k], Vec3(u - i as real, v - j as real, w - k as real))
  }

  /** `trilinear_interp`, with `c[i][j][k]` stored at index 4i + 2j + k. */
  function TrilinearInterp(c: seq<Vec3>, u: real, v: real, w: real): real
    requires |c| == 8
  {
    Term(c, 0, 0, 0, u, v, w) + Term(c, 0, 0, 1, u, v, w) + Term(c, 0, 1, 0, u, v, w) + Term(c, 0, 1, 1, u, v, w)
    + Term(c, 1, 0, 0, u, v, w) + Term(c, 1, 0, 1, u, v, w) + Term(c, 1, 1, 0, u, v, w) + Term(c, 1, 1, 1, u, v, w)
  }

  /** The fractional part `x - floor(x)`, in [0, 1). */
  function Fraction(x: real): (f: real)
    ensures 0.0 <= f < 1.0
  {
    x - x.Floor as real
  }

  /** `noise`: the eight hashed corner vectors interpolated at the fractional position. */
  function NoiseAt(pl: Perlin, p: Vec3): real
    requires Valid(pl)
  {
    TrilinearInterp(Corners(pl, p), Fraction(p.x), Fraction(p.y), Fraction(p.z))
  }

  /** The random vectors at the eight corners of the lattice cell around `p`,
      `c[di][dj][dk]` at index 4di + 2dj + dk. */
  function Corners(pl: Perlin, p: Vec3): (c: seq<Vec3>)
    requires Valid(pl)
    ensures |c| == 8
  {
    CornersFrom(pl, FloorI32(p.x), FloorI32(p.y), FloorI32(p.z), 0)
  }

  /** The corners n, n + 1, ..., 7 of the cell at lattice point (i, j, k). */
  function CornersFrom(pl: Perlin, i: int, j: int, k: int, n: nat): (c: seq<Vec3>)
    requires Valid(pl) && n <= 8
    requires I32Min <= i <= I32Max && I32Min <= j <= I32Max && I32Min <= k <= I32Max
    ensures |c| == 8 - n
    decreases 8 - n
  {
    if n == 8 then [] else [Corner(pl, i, j, k, n / 4, (n / 2) % 2, n % 2)] + CornersFrom(pl, i, j, k, n + 1)
  }

  /** The smoothstep maps [0, 1] into [0, 1], fixing both ends. */
  lemma SmoothBounds(u: real)
    requires 0.0 <= u <= 1.0
    ensures 0.0 <= Smooth(u) <= 1.0
    ensures Smooth(0.0) == 0.0 && Smooth(1.0) == 1.0
  {
    MulNonneg(u, u);
    MulNonneg(u * u, 3.0 - 2.0 * u);
    // 1 - s = (1 - u)^2 (1 + 2u)
    assert 1.0 - Smooth(u) == (1.0 - u) * (1.0 - u) * (1.0 + 2.0 * u);
    MulNonneg(1.0 - u, 1.0 - u);
    MulNonneg((1.0 - u) * (1.0 - u), 1.0 + 2.0 * u);
  }

  /** The eight trilinear weights sum to one, whatever the smoothed fractions. */
  lemma WeightsSumToOne(su: real, sv: real, sw: real)
    ensures CornerWeight(0, su) + CornerWeight(1, su) == 1.0
    ensures CornerWeight(0, su) * CornerWeight(0, sv) * CornerWeight(0, sw)
          + CornerWeight(0, su) * CornerWeight(0, sv) * CornerWeight(1, sw)
          + CornerWeight(0, su) * CornerWeight(1, sv) * CornerWeight(0, sw)
          + CornerWeight(0, su) * CornerWeight(1, sv) * CornerWeight(1, sw)
          + CornerWeight(1, su) * CornerWeight(0, sv) * CornerWeight(0, sw)
          + CornerWeight(1, su) * CornerWeight(0, sv) * CornerWeight(1, sw)
          + CornerWeight(1, su) * CornerWeight(1, sv) * CornerWeight(0, sw)
          + CornerWeight(1, su) * CornerWeight(1, sv) * CornerWeight(1, sw) == 1.0
  {
    var a0, a1 := CornerWeight(0, su), CornerWeight(1, su);
    var b0, b1 := CornerWeight(0, sv), CornerWeight(1, sv);
    var c0, c1 := CornerWeight(0, sw), CornerWeight(1, sw);
    assert a0 + a1 == 1.0 && b0 + b1 == 1.0 && c0 + c1 == 1.0;
    assert a0 * b0 * c0 + a0 * b0 * c1 + a0 * b1 * c0 + a0 * b1 * c1
         + a1 * b0 * c0 + a1 * b0 * c1 + a1 * b1 * c0 + a1 * b1 * c1
        == (a0 + a1) * (b0 + b1) * (c0 + c1);
  }

  /** Noise vanishes on the integer lattice: there the only corner with weight
      one is the point itself, whose offset vector is zero. */
  lemma NoiseZeroAtLattice(pl: Perlin, p: Vec3)
    requires Valid(pl)
    requires p.x == p.x.Floor as real && p.y == p.y.Floor as real && p.z == p.z.Floor as real
    ensures NoiseAt(pl, p) == 0.0
  {
    assert Fraction(p.x) == 0.0 && Fraction(p.y) == 0.0 && Fraction(p.z) == 0.0;
    TrilinearAtCorner(Corners(pl, p));
  }

  /** At the corner (0, 0, 0) of the cell the interpolation is zero. */
  lemma TrilinearAtCorner(c: seq<Vec3>)
    requires |c| == 8
    ensures TrilinearInterp(c, 0.0, 0.0, 0.0) == 0.0
  {
    assert Smooth(0.0) == 0.0;
    assert Term(c, 0, 0, 0, 0.0, 0.0, 0.0) == 0.0;
  }

  // ----- Turbulence -----

  function Pow(b: real, n: nat): real {
    if n == 0 then 1.0 else Pow(b, n - 1) * b
  }

  /** The noise function of a generator. */
  function NoiseOf(pl: Perlin): (f: Vec3 --> real)
    requires Valid(pl)
    ensures forall q :: f.requires(q)
  {
    q requires Valid(pl) => NoiseAt(pl, q)
  }

  lemma NoiseOfIsNoise(pl: Perlin, q: Vec3)
    requires Valid(pl)
    ensures NoiseOf(pl)(q) == NoiseAt(pl, q)
  {
  }

  /** The turbulence series: the k-th term is `2^-k * noise(p * 2^k)`. */
  function TurbSeries(noise: Vec3 --> real, p: Vec3, n: nat): real
    requires forall q :: noise.requires(q)
  {
    if n == 0 then 0.0
    else TurbSeries(noise, p, n - 1) + Pow(0.5, n - 1) * noise(Scale(p, Pow(2.0, n - 1)))
  }

  /** The loop of `turb` for a given noise function. */
  method TurbWith(noise: Vec3 --> real, p: Vec3, depth: int) returns (r: real)
    requires forall q :: noise.requires(q)
    ensures r >= 0.0
    ensures depth <= 0 ==> r == 0.0
    ensures depth > 0 ==> r == Abs(TurbSeries(noise, p, depth))
  {
    var accum := 0.0;
    var tempP := p;
    var weight := 1.0;
    var i := 0;
    while i < depth
      invariant 0 <= i && (depth >= 0 ==> i <= depth) && (depth <= 0 ==> i == 0)
      invariant accum == TurbSeries(noise, p, i)
      invariant weight == Pow(0.5, i)
      invariant tempP == Scale(p, Pow(2.0, i))
    {
      accum := accum + weight * noise(tempP);
      weight := weight * 0.5;
      ScaleTwice(p, Pow(2.0, i), 2.0);
      tempP := Scale(tempP, 2.0);
      i := i + 1;
    }
    r := Abs(accum);
  }

  /** `turb`: the sum of `depth` octaves of noise, then its absolute value. */
  method Turb(pl: Perlin, p: Vec3, depth: int) returns (r: real)
    requires Valid(pl)
    ensures r >= 0.0
    ensures depth <= 0 ==> r == 0.0
    ensures depth > 0 ==> r == Abs(TurbSeries(NoiseOf(pl), p, depth))
  {
    r := TurbWith(NoiseOf(pl), p, depth);
  }

  /** The first octave of the series is the noise at `p` itself. */
  lemma TurbFirstOctave(pl: Perlin, p: Vec3)
    requires Valid(pl)
    ensures TurbSeries(NoiseOf(pl), p, 1) == NoiseAt(pl, p)
  {
    assert Scale(p, Pow(2.0, 0)) == p;
    NoiseOfIsNoise(pl, p);
  }

  lemma ScaleTwice(p: Vec3, a: real, b: real)
    ensures Scale(Scale(p, a), b) == Scale(p, a * b)
  {
  }

  function Abs(x: real): (r: real)
    ensures r >= 0.0 && (r == x || r == -x)
  {
    if x < 0.0 then -x else x
  }

  // ----- Construction -----

  /** `Perlin::new`: 256 unit vectors from cube draws and three generated tables. */
  method New(draws: seq<Vec3>, tx: seq<int>, ty: seq<int>, tz: seq<int>, o: Oracle) returns (pl: Perlin)
    requires |draws| == PointCount && forall i :: 0 <= i < |draws| ==> CubeDraw(draws[i])
    requires TargetsOk(PointCount, tx) && TargetsOk(PointCount, ty) && TargetsOk(PointCount, tz)
    ensures Valid(pl)
    ensures forall i :: 0 <= i < PointCount ==> pl.ranvec[i] == Unit(RandomVec(-1.0, 1.0, draws[i]), o)
  {
    var ranvec := seq(PointCount, i requires 0 <= i < PointCount && CubeDraw(draws[i]) =>
                        Unit(RandomVec(-1.0, 1.0, draws[i]), o));
    var px := GeneratePerm(tx);
    var py := GeneratePerm(ty);
    var pz := GeneratePerm(tz);
    pl := Perlin(ranvec, px, py, pz);
  }
}

=== FILE: ray.dfy ===
/** Rays (`ray.rs`): an origin, a direction and the shutter time at which the
    ray was cast. */
module Rays {
  import opened Vectors

  datatype Ray = Ray(origin: Vec3, direction: Vec3, time: real)

  /** `at`: the point `origin + direction * t`. */
  function At(r: Ray, t: real): (p: Vec3)
    ensures Sub(p, r.origin) == Scale(r.direction, t)
  {
    Add(r.origin, Scale(r.direction, t))
  }

  /** The ray starts at its origin and moves affinely in its parameter. */
  lemma AtAffine(r: Ray, s: real, t: real)
    ensures At(r, 0.0) == r.origin
    ensures At(r, s + t) == Add(At(r, s), Scale(r.direction, t))
    ensures Sub(At(r, t), At(r, s)) == Scale(r.direction, t - s)
  {
  }
}

=== FILE: render.dfy ===
/** The renderer of `main.rs`: the recursive radiance estimate `ray_color`,
    and the arithmetic of the worker loop — the rows of the image split into
    `jobs` bands, one per thread, the row flip applied when a pixel is
    written, the per-pixel sum of sample estimates and the jittered sample
    coordinate. The threads themselves, the progress bar and the image file
    are left out. */
module Render {
  import opened Utility
  import opened Vectors
  import opened Rays
  import opened Records
  import Materials
  import Scene

  /** The random inputs consumed at one bounce: the draw of the scattering
      medium's `ln` and those of the material's `scatter`. */
  datatype Bounce = Bounce(mediumDraw: real, mat: Materials.Draws)

  /** The near end of the window `ray_color` searches, which keeps a
      scattered ray from hitting the surface it leaves. */
  const ShadowBias: real := 0.001

  /** The closest hit of the world along `r`, as `ray_color` asks for it. */
  function WorldHit(r: Ray, world: seq<Scene.Hittable>, bounce: Bounce, o: Oracle): (h: HitResult<Materials.Material>)
    requires Scene.AllWellFormed(world) && o.pi > 0.0
    ensures !h.hit ==> h.rec == NewRecord()
  {
    Scene.Hit(Scene.List(world), r, Fin(ShadowBias), PosInf, NewRecord(), Scene.Env(o, bounce.mediumDraw))
  }

  /** What one bounce of `ray_color` does with a ray. */
  datatype Outcome =
    | Escaped                                   // nothing hit: the background
    | Broken                                    // the unwrap of a missing material panics
    | Absorbed(emitted: Vec3)                   // hit, no scattered ray
    | Scattered(emitted: Vec3, attenuation: Vec3, next: Ray)

  /** One bounce: the closest hit, its material's emitted light and its
      scattered ray. `Broken` stands for the panic of
      `rec.mat.clone().unwrap()` on a hit that carries no material, and for a
      material whose own calls would panic or leave the reals (a missing
      texture, a dielectric index of 0 or -1). */
  function Step(r: Ray, world: seq<Scene.Hittable>, bounce: Bounce, o: Oracle, iso: Materials.Foreign): (out: Outcome)
    requires Scene.AllWellFormed(world) && o.pi > 0.0
    ensures out.Escaped? <==> !WorldHit(r, world, bounce, o).hit
  {
    var h := WorldHit(r, world, bounce, o);
    if !h.hit then Escaped
    else if h.rec.mat.None? || !Materials.Valid(h.rec.mat.value) then Broken
    else
      var m := h.rec.mat.value;
      var emitted := Materials.Emitted(m, h.rec.u, h.rec.v, h.rec.p, o, iso);
      match Materials.Scatter(m, r, h.rec, bounce.mat, o, iso)
      case None => Absorbed(emitted)
      case Some(s) => Scattered(emitted, s.attenuation, s.ray)
  }

  /** `ray_color`, with the draws of bounce `d` taken from `draws(d)`; `None`
      for a path that meets a `Broken` bounce. */
  function RayColor(r: Ray, background: Vec3, world: seq<Scene.Hittable>, depth: int,
                    draws: int -> Bounce, o: Oracle, iso: Materials.Foreign): (c: Option<Vec3>)
    requires Scene.AllWellFormed(world) && o.pi > 0.0
    ensures depth <= 0 ==> c == Some(Zero())
    ensures depth > 0 && !WorldHit(r, world, draws(depth), o).hit ==> c == Some(background)
    decreases depth
  {
    if depth <= 0 then Some(Zero())
    else
      match Step(r, world, draws(depth), o, iso)
      case Escaped => Some(background)
      case Broken => None
      case Absorbed(emitted) => Some(emitted)
      case Scattered(emitted, attenuation, next) =>
        Combine(emitted, attenuation, RayColor(next, background, world, depth - 1, draws, o, iso))
  }

  /** What remains of a path after a prefix: `acc` collected so far, `thr` the
      product of the attenuations, `rest` the estimate of the remaining path. */
  function Combine(acc: Vec3, thr: Vec3, rest: Option<Vec3>): Option<Vec3> {
    match rest
    case None => None
    case Some(c) => Some(Add(acc, Elemul(thr, c)))
  }

  /** `ray_color` unrolled into a loop that carries the light collected so
      far and the product of the attenuations; it computes what the
      recursion computes. */
  method RayColorLoop(r: Ray, background: Vec3, world: seq<Scene.Hittable>, depth: int,
                      draws: int -> Bounce, o: Oracle, iso: Materials.Foreign) returns (c: Option<Vec3>)
    requires Scene.AllWellFormed(world) && o.pi > 0.0
    ensures c == RayColor(r, background, world, depth, draws, o, iso)
  {
    var acc, thr, ray, d := Zero(), Ones(), r, depth;
    CombineIdentity(RayColor(r, background, world, depth, draws, o, iso));
    while d > 0
      invariant Combine(acc, thr, RayColor(ray, background, world, d, draws, o, iso))
             == RayColor(r, background, world, depth, draws, o, iso)
      decreases d
    {
      match Step(ray, world, draws(d), o, iso)
      case Escaped =>
        return Combine(acc, thr, Some(background));
      case Broken =>
        return None;
      case Absorbed(emitted) =>
        return Combine(acc, thr, Some(emitted));
      case Scattered(emitted, attenuation, next) =>
        CombineStep(acc, thr, emitted, attenuation, RayColor(next, background, world, d - 1, draws, o, iso));
        acc, thr, ray, d := Add(acc, Elemul(thr, emitted)), Elemul(thr, attenuation), next, d - 1;
    }
    c := Combine(acc, thr, Some(Zero()));
  }

  /** Nothing collected and full throughput leaves an estimate unchanged. */
  lemma CombineIdentity(x: Option<Vec3>)
    ensures Combine(Zero(), Ones(), x) == x
  {
  }

  /** Folding one bounce into the prefix: `acc + thr * (e + a * c)` is
      `(acc + thr * e) + (thr * a) * c`, and a failure stays a failure. */
  lemma CombineStep(acc: Vec3, thr: Vec3, e: Vec3, a: Vec3, rest: Option<Vec3>)
    ensures Combine(acc, thr, Combine(e, a, rest)) == Combine(Add(acc, Elemul(thr, e)), Elemul(thr, a), rest)
  {
    if rest.Some? {
      var c := rest.value;
      var lhs := Add(acc, Elemul(thr, Add(e, Elemul(a, c))));
      var rhs := Add(Add(acc, Elemul(thr, e)), Elemul(Elemul(thr, a), c));
      assert lhs.x == rhs.x by {
        assert thr.x * (e.x + a.x * c.x) == thr.x * e.x + (thr.x * a.x) * c.x;
      }
      assert lhs.y == rhs.y by {
        assert thr.y * (e.y + a.y * c.y) == thr.y * e.y + (thr.y * a.y) * c.y;
      }
      assert lhs.z == rhs.z by {
        assert thr.z * (e.z + a.z * c.z) == thr.z * e.z + (thr.z * a.z) * c.z;
      }
    }
  }

  /** A hit whose material does not scatter yields exactly the emitted light. */
  lemma NoScatterIsEmitted(r: Ray, background: Vec3, world: seq<Scene.Hittable>, depth: int,
                           draws: int -> Bounce, o: Oracle, iso: Materials.Foreign)
    requires Scene.AllWellFormed(world) && o.pi > 0.0 && depth > 0
    requires var h := WorldHit(r, world, draws(depth), o);
      h.hit && h.rec.mat.Some? && Materials.Valid(h.rec.mat.value)
      && Materials.Scatter(h.rec.mat.value, r, h.rec, draws(depth).mat, o, iso).None?
    ensures var h := WorldHit(r, world, draws(depth), o);
      RayColor(r, background, world, depth, draws, o, iso)
        == Some(Materials.Emitted(h.rec.mat.value, h.rec.u, h.rec.v, h.rec.p, o, iso))
  {
  }

  // ----- Row bands -----

  /** The first row of band `c`: `height * c / job_times`. */
  function BandStart(height: nat, jobs: nat, c: nat): nat
    requires jobs > 0
  {
    height * c / jobs
  }

  /** Integer division by a positive number is monotone. */
  lemma DivMonotone(a: nat, b: nat, n: nat)
    requires a <= b && n > 0
    ensures a / n <= b / n
  {
    var q1, r1, q2, r2 := a / n, a % n, b / n, b % n;
    assert a == n * q1 + r1 && 0 <= r1 < n;
    assert b == n * q2 + r2 && 0 <= r2 < n;
    if q1 > q2 {
      MulNonnegInt(n, q1 - q2 - 1);
    }
  }

  /** The bands start at row 0 and the last one ends at row `height`. */
  lemma BandEnds(height: nat, jobs: nat)
    requires jobs > 0
    ensures BandStart(height, jobs, 0) == 0 && BandStart(height, jobs, jobs) == height
  {
    DivExact(height * jobs, jobs, height);
  }

  /** A multiple of `n` divided by `n` gives the factor back. */
  lemma DivExact(p: nat, n: nat, k: nat)
    requires n > 0 && p == n * k
    ensures p / n == k
  {
    var q, r := p / n, p % n;
    assert p == n * q + r && 0 <= r < n;
    if q > k {
      MulNonnegInt(n, q - k - 1);
    } else if q < k {
      MulNonnegInt(n, k - q - 1);
    }
  }

  lemma MulNonnegInt(a: int, b: int)
    requires a >= 0 && b >= 0
    ensures a * b >= 0
  {
  }

  /** The band starts never decrease, so band `c` is the half-open range
      [BandStart(c), BandStart(c + 1)). */
  lemma BandsOrdered(height: nat, jobs: nat, c1: nat, c2: nat)
    requires jobs > 0 && c1 <= c2
    ensures BandStart(height, jobs, c1) <= BandStart(height, jobs, c2)
  {
    var p1, p2 := height * c1, height * c2;
    assert p1 <= p2 by {
      MulNonnegInt(height, c2 - c1);
      assert p2 - p1 == height * (c2 - c1);
    }
    DivMonotone(p1, p2, jobs);
  }

  /** No row lies in two bands. */
  lemma BandsDisjoint(height: nat, jobs: nat, c1: nat, c2: nat, j: nat)
    requires jobs > 0
    requires BandStart(height, jobs, c1) <= j < BandStart(height, jobs, c1 + 1)
    requires BandStart(height, jobs, c2) <= j < BandStart(height, jobs, c2 + 1)
    ensures c1 == c2
  {
    if c1 < c2 {
      BandsOrdered(height, jobs, c1 + 1, c2);
    } else if c2 < c1 {
      BandsOrdered(height, jobs, c2 + 1, c1);
    }
  }

  /** Every row of the image lies in the band of one of the `jobs` workers,
      found by walking the bands in order. */
  method FindBand(height: nat, jobs: nat, j: nat) returns (c: nat)
    requires jobs > 0 && j < height
    ensures c < jobs
    ensures BandStart(height, jobs, c) <= j < BandStart(height, jobs, c + 1)
  {
    c := 0;
    BandEnds(height, jobs);
    while BandStart(height, jobs, c + 1) <= j
      invariant c < jobs && BandStart(height, jobs, c) <= j
      decreases jobs - c
    {
      c := c + 1;
    }
  }

  /** The number of rows in bands `0 .. k`. */
  function RowsBefore(height: nat, jobs: nat, k: nat): int
    requires jobs > 0
  {
    if k == 0 then 0
    else RowsBefore(height, jobs, k - 1) + (BandStart(height, jobs, k) - BandStart(height, jobs, k - 1))
  }

  /** The bands together hold exactly the `height` rows of the image. */
  lemma {:induction false} BandsCoverImage(height: nat, jobs: nat, k: nat)
    requires jobs > 0
    ensures RowsBefore(height, jobs, k) == BandStart(height, jobs, k)
    ensures RowsBefore(height, jobs, jobs) == height
  {
    RowsTelescope(height, jobs, k);
    RowsTelescope(height, jobs, jobs);
    BandEnds(height, jobs);
  }

  lemma {:induction false} RowsTelescope(height: nat, jobs: nat, k: nat)
    requires jobs > 0
    ensures RowsBefore(height, jobs, k) == BandStart(height, jobs, k) - BandStart(height, jobs, 0)
  {
    if k > 0 {
      RowsTelescope(height, jobs, k - 1);
    }
  }

  // ----- Writing a pixel -----

  /** The image row `write_color` receives for scene row `j`: the scene counts
      rows upward, the image downward. */
  function FlipRow(height: int, j: int): (row: int)
    ensures 0 <= j < height ==> 0 <= row < height
    ensures j + row == height - 1
  {
    height - j - 1
  }

  /** Flipping twice gives the row back, so no two rows share an image row. */
  lemma FlipRowInvolution(height: int, j: int, k: int)
    ensures FlipRow(height, FlipRow(height, j)) == j
    ensures FlipRow(height, j) == FlipRow(height, k) ==> j == k
  {
  }

  /** The sum of the sample estimates, first sample first. */
  function SumVec(s: seq<Vec3>): Vec3 {
    if |s| == 0 then Zero() else Add(s[0], SumVec(s[1..]))
  }

  /** Summing a sequence split in two is summing each part. */
  lemma {:induction false} SumAppend(a: seq<Vec3>, b: seq<Vec3>)
    ensures SumVec(a + b) == Add(SumVec(a), SumVec(b))
  {
    if |a| == 0 {
      assert a + b == b;
    } else {
      assert (a + b)[1..] == a[1..] + b;
      SumAppend(a[1..], b);
    }
  }

  /** The pixel loop: `pixel_color` starts at zero and each sample's estimate
      is added to it component by component. */
  method AccumulatePixel(samples: seq<Vec3>) returns (pixel: Vec3)
    ensures pixel == SumVec(samples)
  {
    pixel := Zero();
    var i := 0;
    while i < |samples|
      invariant 0 <= i <= |samples|
      invariant pixel == SumVec(samples[..i])
    {
      SumAppend(samples[..i], [samples[i]]);
      assert samples[..i + 1] == samples[..i] + [samples[i]];
      pixel := Vec3(pixel.x + samples[i].x, pixel.y + samples[i].y, pixel.z + samples[i].z);
      i := i + 1;
    }
    assert samples[..i] == samples;
  }

  /** Samples whose components lie in [0, 1] sum to a pixel whose components
      lie in [0, n] for n samples. */
  lemma {:induction false} SumBounds(s: seq<Vec3>)
    requires forall k :: 0 <= k < |s| ==> 0.0 <= s[k].x <= 1.0 && 0.0 <= s[k].y <= 1.0 && 0.0 <= s[k].z <= 1.0
    ensures var p := SumVec(s);
      0.0 <= p.x <= |s| as real && 0.0 <= p.y <= |s| as real && 0.0 <= p.z <= |s| as real
  {
    if |s| > 0 {
      SumBounds(s[1..]);
    }
  }

  /** The jittered coordinate `(i + random_f64()) / (n - 1)` of a sample in
      pixel column (or row) `i` of an image `n` pixels wide. */
  function SampleCoord(i: int, n: int, draw: real): (u: real)
    requires UnitDraw(draw) && n != 1
    ensures n > 1 ==> (i as real) / ((n - 1) as real) <= u < ((i + 1) as real) / ((n - 1) as real)
  {
    var d := (n - 1) as real;
    assert n > 1 ==> (i as real) / d <= (i as real + draw) / d < ((i + 1) as real) / d by {
      if n > 1 {
        DivideMonotone(i as real, i as real + draw, d);
        DivideStrict(i as real + draw, (i + 1) as real, d);
      }
    }
    (i as real + draw) / d
  }

  lemma DivideMonotone(a: real, b: real, d: real)
    requires a <= b && d > 0.0
    ensures a / d <= b / d
  {
    assert b / d - a / d == (b - a) / d;
  }

  lemma DivideStrict(a: real, b: real, d: real)
    requires a < b && d > 0.0
    ensures a / d < b / d
  {
    assert b / d - a / d == (b - a) / d;
  }
}

=== FILE: rotate.dfy ===
/** Rotation about the y axis (`Rotatey` in `hiitable.rs`). The instance keeps
    `sin θ`, `cos θ`, the child's `hasbox` flag and a box around the rotated
    child box. A query rotates the ray into the child's frame by -θ, asks the
    child, and rotates the reported point and normal back by θ. The child
    itself belongs to the closed hittable type (`Scene`); this module holds
    the arithmetic around it. */
module Rotations {
  import opened Utility
  import opened Vectors
  import opened Rays
  import opened Records
  import opened Boxes

  /** `sin_theta` and `cos_theta`. */
  datatype Turn = Turn(sinTheta: real, cosTheta: real)

  datatype Rotation = Rotation(turn: Turn, hasBox: bool, bbox: Aabb)

  /** The sine and cosine of one angle. */
  predicate Proper(rot: Turn) {
    rot.sinTheta * rot.sinTheta + rot.cosTheta * rot.cosTheta == 1.0
  }

  /** World to object frame, as `hit` turns the ray's origin and direction. */
  function ToLocal(rot: Turn, p: Vec3): (q: Vec3)
    ensures q.y == p.y
  {
    Vec3(rot.cosTheta * p.x - rot.sinTheta * p.z, p.y, rot.sinTheta * p.x + rot.cosTheta * p.z)
  }

  /** Object to world frame, as `hit` turns the point and normal back and
      `new` turns the corners of the child box. */
  function ToWorld(rot: Turn, p: Vec3): (q: Vec3)
    ensures q.y == p.y
  {
    Vec3(rot.cosTheta * p.x + rot.sinTheta * p.z, p.y, -rot.sinTheta * p.x + rot.cosTheta * p.z)
  }

  /** The ray `hit` hands to the child. */
  function RotateRay(rot: Turn, r: Ray): (rr: Ray)
    ensures rr.time == r.time
    ensures Proper(rot) ==> ToWorld(rot, rr.origin) == r.origin && ToWorld(rot, rr.direction) == r.direction
  {
    InverseMaps(rot, r.origin);
    InverseMaps(rot, r.direction);
    Ray(ToLocal(rot, r.origin), ToLocal(rot, r.direction), r.time)
  }

  /** The record after the child has hit: the point and the normal are turned
      back to the world frame and the face is set against the rotated ray;
      `t`, `u`, `v` and the material stay as the child left them. */
  function AfterChildHit<M>(rot: Turn, rotated: Ray, rec: HitRecord<M>): (rec': HitRecord<M>)
    ensures rec'.p == ToWorld(rot, rec.p)
    ensures rec'.normal == ToWorld(rot, rec.normal) || rec'.normal == Neg(ToWorld(rot, rec.normal))
    ensures rec'.frontFace <==> Dot(rotated.direction, ToWorld(rot, rec.normal)) < 0.0
    ensures rec'.t == rec.t && rec'.u == rec.u && rec'.v == rec.v && rec'.mat == rec.mat
  {
    var p := ToWorld(rot, rec.p);
    var normal := ToWorld(rot, rec.normal);
    SetFrontFace(rec.(p := p), rotated, normal)
  }

  // ----- The rotated box of `Rotatey::new` -----

  /** The corner `(i, j, k)` of the loop in `new`. The source computes
      `i * max.x + (1 - i) * min.x`, and likewise for y with `j` and z with
      `k`; with each index 0 or 1 that picks the minimum or the maximum. */
  function Corner(b: Aabb, i: int, j: int, k: int): (c: Vec3)
    requires 0 <= i < 2 && 0 <= j < 2 && 0 <= k < 2
  {
    Vec3(if i == 0 then b.minimum.x else b.maximum.x,
         if j == 0 then b.minimum.y else b.maximum.y,
         if k == 0 then b.minimum.z else b.maximum.z)
  }

  /** The source's weighted form of a corner coordinate agrees with `Corner`. */
  lemma CornerWeighted(b: Aabb, i: int, j: int, k: int)
    requires 0 <= i < 2 && 0 <= j < 2 && 0 <= k < 2
    ensures Corner(b, i, j, k) == Vec3(
      i as real * b.maximum.x + (1 - i) as real * b.minimum.x,
      j as real * b.maximum.y + (1 - j) as real * b.minimum.y,
      k as real * b.maximum.z + (1 - k) as real * b.minimum.z)
  {
    if i == 0 {} else { assert i == 1; }
    if j == 0 {} else { assert j == 1; }
    if k == 0 {} else { assert k == 1; }
  }

  /** The eight rotated corners in the order of the nested loops over i, j, k. */
  function RotatedCorners(rot: Turn, b: Aabb): (cs: seq<Vec3>)
    ensures |cs| == 8
  {
    seq(8, n requires 0 <= n < 8 => ToWorld(rot, Corner(b, n / 4, (n / 2) % 2, n % 2)))
  }

  /** One coordinate of every point. */
  function Coordinates(vs: seq<Vec3>, a: nat): (xs: seq<real>)
    requires a < 3
    ensures |xs| == |vs|
    ensures forall n :: 0 <= n < |vs| ==> xs[n] == Index(vs[n], a)
  {
    seq(|vs|, n requires 0 <= n < |vs| => Index(vs[n], a))
  }

  /** The running `fmin` of the loop, from its start value on. */
  function FoldMin(xs: seq<real>, acc: Ext): Ext {
    if |xs| == 0 then acc else FoldMin(xs[1..], ExtMin(acc, Fin(xs[0])))
  }

  /** The running `fmax` of the loop, from its start value on. */
  function FoldMax(xs: seq<real>, acc: Ext): Ext {
    if |xs| == 0 then acc else FoldMax(xs[1..], ExtMax(acc, Fin(xs[0])))
  }

  /** `min` and `max` of `Rotatey::new` after the loop: folded from
      `INFINITY` and `-INFINITY` over the rotated corners. */
  function CornerBox(rot: Turn, b: Aabb): (box: Aabb)
    ensures forall n, a: nat :: 0 <= n < 8 && a < 3 ==>
      Index(box.minimum, a) <= Index(RotatedCorners(rot, b)[n], a) <= Index(box.maximum, a)
  {
    var cs := RotatedCorners(rot, b);
    var lo := seq(3, a requires 0 <= a < 3 => FoldMin(Coordinates(cs, a), PosInf));
    var hi := seq(3, a requires 0 <= a < 3 => FoldMax(Coordinates(cs, a), NegInf));
    forall a: nat | a < 3
      ensures lo[a].Fin? && hi[a].Fin?
      ensures forall n :: 0 <= n < 8 ==> lo[a].v <= Index(cs[n], a) <= hi[a].v
    {
      FoldMinBelow(Coordinates(cs, a), PosInf);
      FoldMaxAbove(Coordinates(cs, a), NegInf);
    }
    var box := Aabb(Vec3(lo[0].v, lo[1].v, lo[2].v), Vec3(hi[0].v, hi[1].v, hi[2].v));
    assert forall a: nat :: a < 3 ==> Index(box.minimum, a) == lo[a].v && Index(box.maximum, a) == hi[a].v;
    box
  }

  /** The sine and cosine `Rotatey::new` takes of the angle, given in degrees. */
  function TurnOf(angle: real, o: Oracle): (turn: Turn)
    ensures Valid(o) ==> Proper(turn)
  {
    var radians := DegreesToRadians(angle, o.pi);
    SinCosSquares(o, radians);
    Turn(Sin(o, radians), Cos(o, radians))
  }

  /** `Rotatey::new` given the child's `bounding_box(0, 1, ..)` answer: the
      flag and the box the child reported (or left). */
  function New(child: (bool, Aabb), angle: real, o: Oracle): (rot: Rotation)
    ensures rot.hasBox == child.0
    ensures Valid(o) ==> Proper(rot.turn)
  {
    var turn := TurnOf(angle, o);
    Rotation(turn, child.0, CornerBox(turn, child.1))
  }

  // ----- Lemmas -----

  /** The two maps of `hit` are mutual inverses when `sin² + cos² = 1`. */
  lemma InverseMaps(rot: Turn, p: Vec3)
    ensures Proper(rot) ==> ToWorld(rot, ToLocal(rot, p)) == p && ToLocal(rot, ToWorld(rot, p)) == p
  {
    var s, c := rot.sinTheta, rot.cosTheta;
    assert c * (c * p.x - s * p.z) + s * (s * p.x + c * p.z) == (s * s + c * c) * p.x;
    assert -s * (c * p.x - s * p.z) + c * (s * p.x + c * p.z) == (s * s + c * c) * p.z;
    assert c * (c * p.x + s * p.z) - s * (-s * p.x + c * p.z) == (s * s + c * c) * p.x;
    assert s * (c * p.x + s * p.z) + c * (-s * p.x + c * p.z) == (s * s + c * c) * p.z;
  }

  /** Turning back to the world frame is linear. */
  lemma ToWorldLinear(rot: Turn, a: Vec3, b: Vec3, t: real)
    ensures ToWorld(rot, Add(a, Scale(b, t))) == Add(ToWorld(rot, a), Scale(ToWorld(rot, b), t))
  {
    var s, c := rot.sinTheta, rot.cosTheta;
    assert c * (a.x + b.x * t) + s * (a.z + b.z * t) == (c * a.x + s * a.z) + (c * b.x + s * b.z) * t;
    assert -s * (a.x + b.x * t) + c * (a.z + b.z * t) == (-s * a.x + c * a.z) + (-s * b.x + c * b.z) * t;
  }

  /** The point the child reports at parameter t on the rotated ray, turned
      back, is the point of the original ray at the same t: the rotation keeps
      the ray parameter and so the child's interval. */
  lemma HitPointOnOriginalRay(rot: Turn, r: Ray, t: real)
    requires Proper(rot)
    ensures ToWorld(rot, At(RotateRay(rot, r), t)) == At(r, t)
  {
    var rr := RotateRay(rot, r);
    ToWorldLinear(rot, rr.origin, rr.direction, t);
  }

  /** The rotation keeps lengths. */
  lemma ToWorldKeepsLength(rot: Turn, p: Vec3)
    requires Proper(rot)
    ensures SquaredLength(ToWorld(rot, p)) == SquaredLength(p)
  {
    var s, c := rot.sinTheta, rot.cosTheta;
    var q := ToWorld(rot, p);
    assert q.x * q.x + q.z * q.z == (s * s + c * c) * (p.x * p.x + p.z * p.z);
  }

  lemma {:induction false} FoldMinBelow(xs: seq<real>, acc: Ext)
    requires !acc.NegInf? && (|xs| > 0 || acc.Fin?)
    ensures FoldMin(xs, acc).Fin?
    ensures Le(FoldMin(xs, acc), acc)
    ensures forall n :: 0 <= n < |xs| ==> FoldMin(xs, acc).v <= xs[n]
    ensures FoldMin(xs, acc) == acc || exists n :: 0 <= n < |xs| && FoldMin(xs, acc) == Fin(xs[n])
    decreases |xs|
  {
    if |xs| > 0 {
      var acc' := ExtMin(acc, Fin(xs[0]));
      FoldMinBelow(xs[1..], acc');
      var m := FoldMin(xs[1..], acc');
      assert m == FoldMin(xs, acc);
      forall n | 0 <= n < |xs|
        ensures m.v <= xs[n]
      {
        if n > 0 {
          assert xs[n] == xs[1..][n - 1];
        }
      }
      if m != acc' {
        var n :| 0 <= n < |xs[1..]| && m == Fin(xs[1..][n]);
        assert m == Fin(xs[n + 1]);
      } else if acc' != acc {
        assert m == Fin(xs[0]);
      }
    }
  }

  lemma {:induction false} FoldMaxAbove(xs: seq<real>, acc: Ext)
    requires !acc.PosInf? && (|xs| > 0 || acc.Fin?)
    ensures FoldMax(xs, acc).Fin?
    ensures Le(acc, FoldMax(xs, acc))
    ensures forall n :: 0 <= n < |xs| ==> xs[n] <= FoldMax(xs, acc).v
    ensures FoldMax(xs, acc) == acc || exists n :: 0 <= n < |xs| && FoldMax(xs, acc) == Fin(xs[n])
    decreases |xs|
  {
    if |xs| > 0 {
      var acc' := ExtMax(acc, Fin(xs[0]));
      FoldMaxAbove(xs[1..], acc');
      var m := FoldMax(xs[1..], acc');
      assert m == FoldMax(xs, acc);
      forall n | 0 <= n < |xs|
        ensures xs[n] <= m.v
      {
        if n > 0 {
          assert xs[n] == xs[1..][n - 1];
        }
      }
      if m != acc' {
        var n :| 0 <= n < |xs[1..]| && m == Fin(xs[1..][n]);
        assert m == Fin(xs[n + 1]);
      } else if acc' != acc {
        assert m == Fin(xs[0]);
      }
    }
  }

  /** Every rotated corner of the box lies in the corner box. */
  lemma RotatedCornersInside(turn: Turn, b: Aabb, i: int, j: int, k: int)
    requires 0 <= i < 2 && 0 <= j < 2 && 0 <= k < 2
    ensures Inside(CornerBox(turn, b), ToWorld(turn, Corner(b, i, j, k)))
  {
    var n := 4 * i + 2 * j + k;
    assert n / 4 == i && (n / 2) % 2 == j && n % 2 == k;
    var cs := RotatedCorners(turn, b);
    assert cs[n] == ToWorld(turn, Corner(b, i, j, k));
    var box := CornerBox(turn, b);
    forall a: nat | a < 3
      ensures Index(box.minimum, a) <= Index(cs[n], a) <= Index(box.maximum, a)
    {
    }
  }

  /** `c x + s z` does not decrease from `(xl, zl)` to `(x, z)` when each
      coordinate moves in the direction of the sign of its coefficient. */
  lemma LinearDominated(c: real, s: real, xl: real, zl: real, x: real, z: real)
    requires c >= 0.0 ==> xl <= x
    requires c < 0.0 ==> x <= xl
    requires s >= 0.0 ==> zl <= z
    requires s < 0.0 ==> z <= zl
    ensures c * xl + s * zl <= c * x + s * z
  {
    assert c * xl <= c * x by {
      if c >= 0.0 { assert c * x - c * xl == c * (x - xl); } else { assert c * xl - c * x == (-c) * (x - xl); }
    }
    assert s * zl <= s * z by {
      if s >= 0.0 { assert s * z - s * zl == s * (z - zl); } else { assert s * zl - s * z == (-s) * (z - zl); }
    }
  }

  /** The rotated x of `p` is at most that of `q` when `q` is no smaller
      than `p` along x where `cos θ >= 0` and along z where `sin θ >= 0`
      (and no larger where the sign is negative). */
  lemma ToWorldXOrdered(turn: Turn, p: Vec3, q: Vec3)
    requires turn.cosTheta >= 0.0 ==> p.x <= q.x
    requires turn.cosTheta < 0.0 ==> q.x <= p.x
    requires turn.sinTheta >= 0.0 ==> p.z <= q.z
    requires turn.sinTheta < 0.0 ==> q.z <= p.z
    ensures ToWorld(turn, p).x <= ToWorld(turn, q).x
  {
    LinearDominated(turn.cosTheta, turn.sinTheta, p.x, p.z, q.x, q.z);
  }

  /** The rotated z of `p` is at most that of `q`, likewise with the signs of
      `-sin θ` and `cos θ`. */
  lemma ToWorldZOrdered(turn: Turn, p: Vec3, q: Vec3)
    requires -turn.sinTheta >= 0.0 ==> p.x <= q.x
    requires -turn.sinTheta < 0.0 ==> q.x <= p.x
    requires turn.cosTheta >= 0.0 ==> p.z <= q.z
    requires turn.cosTheta < 0.0 ==> q.z <= p.z
    ensures ToWorld(turn, p).z <= ToWorld(turn, q).z
  {
    LinearDominated(-turn.sinTheta, turn.cosTheta, p.x, p.z, q.x, q.z);
  }

  lemma InsideComponents(b: Aabb, q: Vec3)
    requires Inside(b, q)
    ensures b.minimum.x <= q.x <= b.maximum.x
    ensures b.minimum.y <= q.y <= b.maximum.y
    ensures b.minimum.z <= q.z <= b.maximum.z
  {
    assert Index(b.minimum, 0) <= Index(q, 0) <= Index(b.maximum, 0);
    assert Index(b.minimum, 1) <= Index(q, 1) <= Index(b.maximum, 1);
    assert Index(b.minimum, 2) <= Index(q, 2) <= Index(b.maximum, 2);
  }

  /** The box holds all eight rotated corners of `b`. */
  predicate CornersInside(turn: Turn, b: Aabb, box: Aabb) {
    forall i, j, k :: 0 <= i < 2 && 0 <= j < 2 && 0 <= k < 2 ==> Inside(box, ToWorld(turn, Corner(b, i, j, k)))
  }

  /** The rotated x of a point of the box lies between the rotated x of two corners. */
  lemma RotatedXInside(turn: Turn, b: Aabb, box: Aabb, q: Vec3)
    requires Inside(b, q) && CornersInside(turn, b, box)
    ensures box.minimum.x <= ToWorld(turn, q).x <= box.maximum.x
  {
    var i, k := (if turn.cosTheta >= 0.0 then 0 else 1), (if turn.sinTheta >= 0.0 then 0 else 1);
    assert Inside(box, ToWorld(turn, Corner(b, i, 0, k)));
    assert Inside(box, ToWorld(turn, Corner(b, 1 - i, 0, 1 - k)));
    XBetweenCorners(turn, b, box, q, i, k);
  }

  /** The step of `RotatedXInside` once the two corners that minimise and
      maximise `cos * x + sin * z` are known to lie in the box. */
  lemma XBetweenCorners(turn: Turn, b: Aabb, box: Aabb, q: Vec3, i: int, k: int)
    requires i == (if turn.cosTheta >= 0.0 then 0 else 1) && k == (if turn.sinTheta >= 0.0 then 0 else 1)
    requires Inside(b, q)
    requires Inside(box, ToWorld(turn, Corner(b, i, 0, k))) && Inside(box, ToWorld(turn, Corner(b, 1 - i, 0, 1 - k)))
    ensures box.minimum.x <= ToWorld(turn, q).x <= box.maximum.x
  {
    var s, c := turn.sinTheta, turn.cosTheta;
    var cl, ch := Corner(b, i, 0, k), Corner(b, 1 - i, 0, 1 - k);
    var lo, hi := ToWorld(turn, cl), ToWorld(turn, ch);
    var w := ToWorld(turn, q);
    assert (c >= 0.0 ==> cl.x <= q.x <= ch.x) && (c < 0.0 ==> ch.x <= q.x <= cl.x)
        && (s >= 0.0 ==> cl.z <= q.z <= ch.z) && (s < 0.0 ==> ch.z <= q.z <= cl.z) by {
      InsideComponents(b, q);
    }
    ToWorldXOrdered(turn, cl, q);
    ToWorldXOrdered(turn, q, ch);
    InsideComponents(box, lo);
    InsideComponents(box, hi);
  }

  /** The rotated z of a point of the box lies between the rotated z of two corners. */
  lemma RotatedZInside(turn: Turn, b: Aabb, box: Aabb, q: Vec3)
    requires Inside(b, q) && CornersInside(turn, b, box)
    ensures box.minimum.z <= ToWorld(turn, q).z <= box.maximum.z
  {
    var i, k := (if -turn.sinTheta >= 0.0 then 0 else 1), (if turn.cosTheta >= 0.0 then 0 else 1);
    assert Inside(box, ToWorld(turn, Corner(b, i, 0, k)));
    assert Inside(box, ToWorld(turn, Corner(b, 1 - i, 0, 1 - k)));
    ZBetweenCorners(turn, b, box, q, i, k);
  }

  /** The step of `RotatedZInside` once the two corners that minimise and
      maximise `-sin * x + cos * z` are known to lie in the box. */
  lemma ZBetweenCorners(turn: Turn, b: Aabb, box: Aabb, q: Vec3, i: int, k: int)
    requires i == (if -turn.sinTheta >= 0.0 then 0 else 1) && k == (if turn.cosTheta >= 0.0 then 0 else 1)
    requires Inside(b, q)
    requires Inside(box, ToWorld(turn, Corner(b, i, 0, k))) && Inside(box, ToWorld(turn, Corner(b, 1 - i, 0, 1 - k)))
    ensures box.minimum.z <= ToWorld(turn, q).z <= box.maximum.z
  {
    var s, c := turn.sinTheta, turn.cosTheta;
    var cl, ch := Corner(b, i, 0, k), Corner(b, 1 - i, 0, 1 - k);
    var lo, hi := ToWorld(turn, cl), ToWorld(turn, ch);
    var w := ToWorld(turn, q);
    assert (-s >= 0.0 ==> cl.x <= q.x <= ch.x) && (-s < 0.0 ==> ch.x <= q.x <= cl.x)
        && (c >= 0.0 ==> cl.z <= q.z <= ch.z) && (c < 0.0 ==> ch.z <= q.z <= cl.z) by {
      InsideComponents(b, q);
    }
    ToWorldZOrdered(turn, cl, q);
    ToWorldZOrdered(turn, q, ch);
    InsideComponents(box, lo);
    InsideComponents(box, hi);
  }

  /** The y of a point of the box lies between the y of the lowest and highest corners. */
  lemma RotatedYInside(turn: Turn, b: Aabb, box: Aabb, q: Vec3)
    requires Inside(b, q) && CornersInside(turn, b, box)
    ensures box.minimum.y <= ToWorld(turn, q).y <= box.maximum.y
  {
    InsideComponents(b, q);
    InsideComponents(box, ToWorld(turn, Corner(b, 0, 0, 0)));
    InsideComponents(box, ToWorld(turn, Corner(b, 0, 1, 0)));
  }

  /** Not only the corners: every point of the child box, rotated, lies in
      the box of `new`, because each rotated coordinate is linear in the point
      and so is extreme at a corner. */
  lemma RotatedBoxContains(turn: Turn, b: Aabb, q: Vec3)
    requires Inside(b, q)
    ensures Inside(CornerBox(turn, b), ToWorld(turn, q))
  {
    var box, w := CornerBox(turn, b), ToWorld(turn, q);
    forall i, j, k | 0 <= i < 2 && 0 <= j < 2 && 0 <= k < 2
      ensures Inside(box, ToWorld(turn, Corner(b, i, j, k)))
    {
      RotatedCornersInside(turn, b, i, j, k);
    }
    RotatedXInside(turn, b, box, q);
    RotatedYInside(turn, b, box, q);
    RotatedZInside(turn, b, box, q);
    assert Index(box.minimum, 0) <= Index(w, 0) <= Index(box.maximum, 0);
    assert Index(box.minimum, 1) <= Index(w, 1) <= Index(box.maximum, 1);
    assert Index(box.minimum, 2) <= Index(w, 2) <= Index(box.maximum, 2);
  }
}

=== FILE: sphere.dfy ===
/** Spheres (`object.rs`): the quadratic ray-sphere intersection shared with
    the moving sphere, `Sphere::hit` and `Sphere::bounding_box`.

    With `oc = origin - center`, a point `at(t)` lies on the sphere exactly when
    `a t^2 + 2 half_b t + c = 0`, where `a = |dir|^2`, `half_b = oc . dir` and
    `c = |oc|^2 - radius^2`. `hit` tries the smaller root first and the larger
    one second, each against the closed window [t_min, t_max]. A ray with a
    zero direction (`a = 0`) divides by zero in the source; here it misses. */
module Spheres {
  import opened Utility
  import opened Vectors
  import opened Rays
  import opened Records
  import opened Boxes
  import Materials

  type Rec = HitRecord<Materials.Material>

  datatype Sphere = Sphere(center: Vec3, radius: real, mat: Option<Materials.Material>)

  // ----- The quadratic -----

  /** `half_b * half_b - a * c`. */
  function Discriminant(oc: Vec3, dir: Vec3, radius: real): real {
    Dot(oc, dir) * Dot(oc, dir) - SquaredLength(dir) * (SquaredLength(oc) - radius * radius)
  }

  /** `(-half_b - sqrtd) / a`, the root `hit` tries first. */
  function SmallRoot(oc: Vec3, dir: Vec3, radius: real, o: Oracle): real
    requires SquaredLength(dir) != 0.0
  {
    (-Dot(oc, dir) - Sqrt(o, Discriminant(oc, dir, radius))) / SquaredLength(dir)
  }

  /** `(-half_b + sqrtd) / a`, the root `hit` tries second. */
  function LargeRoot(oc: Vec3, dir: Vec3, radius: real, o: Oracle): real
    requires SquaredLength(dir) != 0.0
  {
    (-Dot(oc, dir) + Sqrt(o, Discriminant(oc, dir, radius))) / SquaredLength(dir)
  }

  /** The root selection of `hit`: none for a negative discriminant, else the
      first of the two roots that lies in [t_min, t_max]. */
  function NearestRoot(oc: Vec3, dir: Vec3, radius: real, tMin: Ext, tMax: Ext, o: Oracle): (root: Option<real>)
    ensures root.Some? ==> Within(root.value, tMin, tMax)
    ensures Discriminant(oc, dir, radius) < 0.0 ==> root.None?
    ensures root.Some? ==> (
      && SquaredLength(dir) != 0.0
      && (Within(SmallRoot(oc, dir, radius, o), tMin, tMax) ==> root.value == SmallRoot(oc, dir, radius, o))
      && (!Within(SmallRoot(oc, dir, radius, o), tMin, tMax) ==> root.value == LargeRoot(oc, dir, radius, o)))
    ensures root.None? && SquaredLength(dir) != 0.0 && Discriminant(oc, dir, radius) >= 0.0 ==>
      !Within(SmallRoot(oc, dir, radius, o), tMin, tMax) && !Within(LargeRoot(oc, dir, radius, o), tMin, tMax)
  {
    if Discriminant(oc, dir, radius) < 0.0 || SquaredLength(dir) == 0.0 then None
    else if Within(SmallRoot(oc, dir, radius, o), tMin, tMax) then Some(SmallRoot(oc, dir, radius, o))
    else if Within(LargeRoot(oc, dir, radius, o), tMin, tMax) then Some(LargeRoot(oc, dir, radius, o))
    else None
  }

  // ----- Sphere -----

  /** `get_sphere_uv` of a point on the unit sphere: u from the longitude
      `atan2(-z, x) + PI` over `2 PI`, v from the colatitude `acos(-y)` over `PI`. */
  function SphereUv(p: Vec3, o: Oracle): (real, real)
    requires o.pi > 0.0
  {
    ((Atan2(o, -p.z, p.x) + o.pi) / (2.0 * o.pi), Acos(o, -p.y) / o.pi)
  }

  /** `Sphere::hit`. */
  function Hit(s: Sphere, r: Ray, tMin: Ext, tMax: Ext, rec: Rec, o: Oracle): (res: HitResult<Materials.Material>)
    requires s.radius != 0.0 && o.pi > 0.0
    ensures !res.hit ==> res.rec == rec
    ensures res.hit ==> Within(res.rec.t, tMin, tMax) && res.rec.p == At(r, res.rec.t) && res.rec.mat == s.mat
    ensures Discriminant(Sub(r.origin, s.center), r.direction, s.radius) < 0.0 ==> !res.hit
    ensures var root := NearestRoot(Sub(r.origin, s.center), r.direction, s.radius, tMin, tMax, o);
      res.hit == root.Some? && (res.hit ==> res.rec.t == root.value)
  {
    match NearestRoot(Sub(r.origin, s.center), r.direction, s.radius, tMin, tMax, o)
    case None => Miss(rec)
    case Some(root) =>
      var rec1 := rec.(t := root, p := At(r, root));
      var outward := Div(Sub(rec1.p, s.center), s.radius);
      var rec2 := SetFrontFace(rec1, r, outward);
      var (u, v) := SphereUv(outward, o);
      HitResult(true, rec2.(u := u, v := v, mat := s.mat))
  }

  /** `Sphere::bounding_box`: the cube from `center - radius` to `center + radius`. */
  function BoundingBox(s: Sphere): (b: Aabb)
    ensures b.minimum == SubScalar(s.center, s.radius) && b.maximum == AddScalar(s.center, s.radius)
  {
    Aabb(Sub(s.center, Vec3(s.radius, s.radius, s.radius)), Add(s.center, Vec3(s.radius, s.radius, s.radius)))
  }

  // ----- Lemmas -----

  lemma DivMul(x: real, a: real)
    requires a != 0.0
    ensures a * (x / a) == x
  {
  }

  /** The squared distance from the centre along the ray is the quadratic
      `|oc|^2 + 2 t half_b + t^2 a`. */
  lemma DistanceAlongRay(r: Ray, center: Vec3, t: real)
    ensures var oc := Sub(r.origin, center);
      SquaredLength(Sub(At(r, t), center))
      == SquaredLength(oc) + 2.0 * t * Dot(oc, r.direction) + t * t * SquaredLength(r.direction)
  {
    var oc, d := Sub(r.origin, center), r.direction;
    assert Sub(At(r, t), center) == Add(oc, Scale(d, t));
    var w := Add(oc, Scale(d, t));
    assert w.x * w.x == oc.x * oc.x + 2.0 * t * (oc.x * d.x) + t * t * (d.x * d.x);
    assert w.y * w.y == oc.y * oc.y + 2.0 * t * (oc.y * d.y) + t * t * (d.y * d.y);
    assert w.z * w.z == oc.z * oc.z + 2.0 * t * (oc.z * d.z) + t * t * (d.z * d.z);
  }

  /** With `s^2` the discriminant and `a > 0`, the quadratic vanishes exactly
      at the two roots `a t = -half_b - s` and `a t = -half_b + s`. */
  lemma QuadraticRoots(a: real, halfB: real, c: real, s: real, t: real)
    requires a > 0.0 && s * s == halfB * halfB - a * c
    ensures a * t * t + 2.0 * halfB * t + c == 0.0 <==> (a * t == -halfB - s || a * t == -halfB + s)
  {
    var q := a * t * t + 2.0 * halfB * t + c;
    var e := a * t + halfB;
    assert a * q == e * e - s * s;
    assert e * e - s * s == (e - s) * (e + s);
    if q == 0.0 {
      assert (e - s) * (e + s) == 0.0;
    } else {
      assert a * q != 0.0 by { MulPos(a, if q > 0.0 then q else -q); }
    }
  }

  /** The same, with the roots given as numbers `r1`, `r2` with `a r1 = -half_b - s`
      and `a r2 = -half_b + s`. */
  lemma QuadraticRootValues(a: real, halfB: real, c: real, s: real, t: real, r1: real, r2: real)
    requires a > 0.0 && s * s == halfB * halfB - a * c
    requires a * r1 == -halfB - s && a * r2 == -halfB + s
    ensures a * t * t + 2.0 * halfB * t + c == 0.0 <==> (t == r1 || t == r2)
  {
    QuadraticRoots(a, halfB, c, s, t);
    RootUnique(a, t, r1);
    RootUnique(a, t, r2);
  }

  /** The quadratic of the ray: its value at t is the squared distance from the
      centre minus radius^2. */
  lemma QuadraticOfRay(r: Ray, center: Vec3, radius: real, t: real)
    ensures var oc := Sub(r.origin, center);
      SquaredLength(Sub(At(r, t), center)) - radius * radius
      == SquaredLength(r.direction) * t * t + 2.0 * Dot(oc, r.direction) * t + (SquaredLength(oc) - radius * radius)
  {
    DistanceAlongRay(r, center, t);
  }

  /** The two roots, multiplied by `a`. */
  lemma RootsTimesA(oc: Vec3, dir: Vec3, radius: real, o: Oracle)
    requires SquaredLength(dir) != 0.0
    ensures SquaredLength(dir) * SmallRoot(oc, dir, radius, o) == -Dot(oc, dir) - Sqrt(o, Discriminant(oc, dir, radius))
    ensures SquaredLength(dir) * LargeRoot(oc, dir, radius, o) == -Dot(oc, dir) + Sqrt(o, Discriminant(oc, dir, radius))
  {
    var a, s := SquaredLength(dir), Sqrt(o, Discriminant(oc, dir, radius));
    DivMul(-Dot(oc, dir) - s, a);
    DivMul(-Dot(oc, dir) + s, a);
  }

  /** A parameter lies on the sphere exactly when it is one of the two roots. */
  lemma OnSphereIffRoot(r: Ray, center: Vec3, radius: real, t: real, o: Oracle)
    requires Valid(o) && SquaredLength(r.direction) != 0.0
    requires Discriminant(Sub(r.origin, center), r.direction, radius) >= 0.0
    ensures var oc := Sub(r.origin, center);
      SquaredLength(Sub(At(r, t), center)) == radius * radius
      <==> (t == SmallRoot(oc, r.direction, radius, o) || t == LargeRoot(oc, r.direction, radius, o))
  {
    var oc, d := Sub(r.origin, center), r.direction;
    var a, halfB, c := SquaredLength(d), Dot(oc, d), SquaredLength(oc) - radius * radius;
    var r1, r2 := SmallRoot(oc, d, radius, o), LargeRoot(oc, d, radius, o);
    assert (a * t * t + 2.0 * halfB * t + c == 0.0) <==> (t == r1 || t == r2) by {
      var disc := Discriminant(oc, d, radius);
      var s := Sqrt(o, disc);
      assert s * s == halfB * halfB - a * c;
      SquaredLengthNonneg(d);
      RootsTimesA(oc, d, radius, o);
      QuadraticRootValues(a, halfB, c, s, t, r1, r2);
    }
    QuadraticOfRay(r, center, radius, t);
  }

  lemma RootUnique(a: real, t: real, u: real)
    requires a != 0.0
    ensures a * t == a * u <==> t == u
  {
    if a * t == a * u {
      assert a * (t - u) == 0.0;
    }
  }

  lemma SquaredLengthNonneg(d: Vec3)
    ensures SquaredLength(d) >= 0.0
    ensures SquaredLength(d) != 0.0 ==> SquaredLength(d) > 0.0
  {
    SquareNonneg(d.x);
    SquareNonneg(d.y);
    SquareNonneg(d.z);
  }

  /** The smaller root is at most the larger one. */
  lemma RootsOrdered(oc: Vec3, dir: Vec3, radius: real, o: Oracle)
    requires Valid(o) && SquaredLength(dir) != 0.0 && Discriminant(oc, dir, radius) >= 0.0
    ensures SmallRoot(oc, dir, radius, o) <= LargeRoot(oc, dir, radius, o)
  {
    var a := SquaredLength(dir);
    var s := Sqrt(o, Discriminant(oc, dir, radius));
    assert s >= 0.0;
    SquaredLengthNonneg(dir);
    RootsTimesA(oc, dir, radius, o);
    OrderByPositiveFactor(a, SmallRoot(oc, dir, radius, o), LargeRoot(oc, dir, radius, o));
  }

  lemma OrderByPositiveFactor(a: real, x: real, y: real)
    requires a > 0.0 && a * x <= a * y
    ensures x <= y
  {
    if x > y {
      MulPos(a, x - y);
    }
  }

  /** The sphere's `hit` prefers the smaller root: it reports the smaller root
      whenever that lies in the window, and the larger one otherwise. */
  lemma HitPrefersSmallerRoot(s: Sphere, r: Ray, tMin: Ext, tMax: Ext, rec: Rec, o: Oracle)
    requires s.radius != 0.0 && o.pi > 0.0
    ensures var res := Hit(s, r, tMin, tMax, rec, o);
      var oc := Sub(r.origin, s.center);
      res.hit ==> (
        && SquaredLength(r.direction) != 0.0
        && (Within(SmallRoot(oc, r.direction, s.radius, o), tMin, tMax) ==> res.rec.t == SmallRoot(oc, r.direction, s.radius, o))
        && (!Within(SmallRoot(oc, r.direction, s.radius, o), tMin, tMax) ==> res.rec.t == LargeRoot(oc, r.direction, s.radius, o)))
  {
  }

  /** The root `hit` picks lies on the sphere. */
  lemma NearestRootOnSphere(r: Ray, center: Vec3, radius: real, tMin: Ext, tMax: Ext, o: Oracle)
    requires Valid(o) && SquaredLength(r.direction) != 0.0
    ensures var root := NearestRoot(Sub(r.origin, center), r.direction, radius, tMin, tMax, o);
      root.Some? ==> SquaredLength(Sub(At(r, root.value), center)) == radius * radius
  {
    var root := NearestRoot(Sub(r.origin, center), r.direction, radius, tMin, tMax, o);
    if root.Some? {
      OnSphereIffRoot(r, center, radius, root.value, o);
    }
  }

  /** No parameter of the window that lies on the sphere comes before the
      root `hit` picks; in particular, when `hit` finds no root, no parameter
      of the window lies on the sphere at all. */
  lemma NearestRootIsNearest(r: Ray, center: Vec3, radius: real, tMin: Ext, tMax: Ext, o: Oracle, t: real)
    requires Valid(o) && SquaredLength(r.direction) != 0.0
    requires Within(t, tMin, tMax) && SquaredLength(Sub(At(r, t), center)) == radius * radius
    ensures var root := NearestRoot(Sub(r.origin, center), r.direction, radius, tMin, tMax, o);
      root.Some? && root.value <= t
  {
    var oc := Sub(r.origin, center);
    assert Discriminant(oc, r.direction, radius) >= 0.0 by {
      if Discriminant(oc, r.direction, radius) < 0.0 {
        NegativeDiscriminantMisses(r, center, radius, t);
      }
    }
    OnSphereIffRoot(r, center, radius, t, o);
    RootsOrdered(oc, r.direction, radius, o);
  }

  /** A hit of the sphere is a point of the sphere. */
  lemma HitOnSphere(s: Sphere, r: Ray, tMin: Ext, tMax: Ext, rec: Rec, o: Oracle)
    requires s.radius != 0.0 && Valid(o) && SquaredLength(r.direction) != 0.0
    ensures var res := Hit(s, r, tMin, tMax, rec, o);
      res.hit ==> SquaredLength(Sub(res.rec.p, s.center)) == s.radius * s.radius
  {
    NearestRootOnSphere(r, s.center, s.radius, tMin, tMax, o);
  }

  /** A hit of the sphere is the nearest point of the window on the sphere;
      a miss means there is none. */
  lemma HitIsNearest(s: Sphere, r: Ray, tMin: Ext, tMax: Ext, rec: Rec, o: Oracle, t: real)
    requires s.radius != 0.0 && Valid(o) && SquaredLength(r.direction) != 0.0
    requires Within(t, tMin, tMax) && SquaredLength(Sub(At(r, t), s.center)) == s.radius * s.radius
    ensures var res := Hit(s, r, tMin, tMax, rec, o);
      res.hit && res.rec.t <= t
  {
    NearestRootIsNearest(r, s.center, s.radius, tMin, tMax, o, t);
  }

  /** With a negative discriminant no point of the ray lies on the sphere. */
  lemma NegativeDiscriminantMisses(r: Ray, center: Vec3, radius: real, t: real)
    requires Discriminant(Sub(r.origin, center), r.direction, radius) < 0.0
    ensures SquaredLength(Sub(At(r, t), center)) != radius * radius
  {
    var oc, d := Sub(r.origin, center), r.direction;
    var a, halfB, c := SquaredLength(d), Dot(oc, d), SquaredLength(oc) - radius * radius;
    DistanceAlongRay(r, center, t);
    SquaredLengthNonneg(d);
    var q := a * t * t + 2.0 * halfB * t + c;
    var e := a * t + halfB;
    assert a * q == e * e - (halfB * halfB - a * c);
    SquareNonneg(e);
    assert a * q > 0.0;
  }

  /** With a positive radius, every point of the sphere lies in its box. */
  lemma BoxContainsSphere(s: Sphere, p: Vec3)
    requires s.radius > 0.0 && SquaredLength(Sub(p, s.center)) == s.radius * s.radius
    ensures Inside(BoundingBox(s), p)
  {
    var w := Sub(p, s.center);
    SquareNonneg(w.x);
    SquareNonneg(w.y);
    SquareNonneg(w.z);
    SquareBound(w.x, s.radius);
    SquareBound(w.y, s.radius);
    SquareBound(w.z, s.radius);
    forall a: nat | a < 3
      ensures Index(BoundingBox(s).minimum, a) <= Index(p, a) <= Index(BoundingBox(s).maximum, a)
    {
    }
  }

  /** A number whose square is at most r^2 (r > 0) lies in [-r, r]. */
  lemma SquareBound(x: real, r: real)
    requires r > 0.0 && x * x <= r * r
    ensures -r <= x <= r
  {
    if x > r {
      MulPos(x - r, x + r);
      assert false;
    } else if x < -r {
      MulPos(-x - r, r - x);
      assert false;
    }
  }
}

=== FILE: texture.dfy ===
/** Textures (`texture.rs`): a colour as a function of the surface
    coordinates (u, v) and the hit point.

    `ImageTexture::value` is given twice. `ImageValueAsWritten` follows the
    source, whose "no data" guard compares the buffer with the two-byte buffer
    [0, 0] and so misses the empty buffer that `ImageTexture::new_0` builds;
    there the index arithmetic goes negative and the lookup panics (`None`).
    `ImageValue` guards on the empty buffer instead, and is the one `Value` uses.
 */
module Textures {
  import opened Utility
  import opened Vectors
  import Noise

  /** A `u8` of the image buffer. */
  newtype byte = x: int | 0 <= x < 256

  datatype Texture =
    | SolidColor(color: Vec3)
    | Checker(odd: Option<Texture>, even: Option<Texture>)
    | NoiseTexture(noise: Noise.Perlin, scale: real)
    | Image(data: seq<byte>, width: int, height: int, bytesPerScanline: int)

  /** `CheckerTexture::new_2`: solid `c1` on even cells, solid `c2` on odd ones. */
  function CheckerOfColors(c1: Vec3, c2: Vec3): (t: Texture)
    ensures Valid(t)
  {
    Checker(Some(SolidColor(c2)), Some(SolidColor(c1)))
  }

  /** `ImageTexture::new_0`: no data and zero dimensions. */
  function EmptyImage(): (t: Texture)
    ensures Valid(t)
  {
    Image([], 0, 0, 0)
  }

  /** What `ImageTexture::new` builds from a decoded 8-bit RGB picture of the
      given size, small enough that the last byte index `value` computes in
      i32, `height * bytes_per_scanline - 1`, does not overflow. */
  predicate WellSizedImage(data: seq<byte>, width: int, height: int, bytesPerScanline: int) {
    1 <= width <= Noise.I32Max && 1 <= height <= Noise.I32Max
    && bytesPerScanline == 3 * width && |data| >= height * bytesPerScanline
    && height * bytesPerScanline - 1 <= Noise.I32Max
  }

  /** Textures the renderer can build: checkers with both sides present, Perlin
      noise from `Perlin::new`, and images that are empty or well sized. */
  predicate Valid(t: Texture)
    decreases t
  {
    match t
    case SolidColor(_) => true
    case Checker(odd, even) =>
      odd.Some? && even.Some? && Valid(odd.value) && Valid(even.value)
    case NoiseTexture(noise, _) => Noise.Valid(noise)
    case Image(data, w, h, bps) => |data| == 0 || WellSizedImage(data, w, h, bps)
  }

  /** `f64 as i32`: truncation toward zero, saturating at the i32 range. */
  function TruncI32(x: real): (i: int)
    ensures x >= 0.0 ==> 0 <= i
    ensures 0.0 <= x <= Noise.I32Max as real ==> i as real <= x < i as real + 1.0
  {
    var t := if x >= 0.0 then x.Floor else -((-x).Floor);
    if t < Noise.I32Min then Noise.I32Min else if t > Noise.I32Max then Noise.I32Max else t
  }

  /** The column and row of `ImageTexture::value`: u clamped, v clamped and
      flipped, scaled by the dimensions and truncated, then pulled back from the
      far edge. */
  function PixelIndex(u: real, v: real, width: int, height: int): (ij: (int, int)) {
    var u' := Clamp(u, 0.0, 1.0);
    var v' := 1.0 - Clamp(v, 0.0, 1.0);
    var i := TruncI32(u' * width as real);
    var j := TruncI32(v' * height as real);
    (if i >= width then width - 1 else i, if j >= height then height - 1 else j)
  }

  /** The colour of the three bytes at `idx`, each scaled by 1/255. */
  function PixelColor(data: seq<byte>, idx: int): Vec3
    requires 0 <= idx && idx + 2 < |data|
  {
    var s := 1.0 / 255.0;
    Vec3(s * data[idx] as real, s * data[idx + 1] as real, s * data[idx + 2] as real)
  }

  /** `ImageTexture::value` as written: `None` where the source panics on an
      out-of-range index. */
  function ImageValueAsWritten(data: seq<byte>, width: int, height: int, bps: int, u: real, v: real): Option<Vec3> {
    if data == [0, 0] then Some(Vec3(0.0, 1.0, 1.0))
    else
      var (i, j) := PixelIndex(u, v, width, height);
      var idx := j * bps + i * 3;
      if 0 <= idx && idx + 2 < |data| then Some(PixelColor(data, idx)) else None
  }

  /** `ImageTexture::value` with the guard on the empty buffer. */
  function ImageValue(data: seq<byte>, width: int, height: int, bps: int, u: real, v: real): (c: Vec3)
    requires |data| == 0 || WellSizedImage(data, width, height, bps)
    ensures |data| == 0 ==> c == Vec3(0.0, 1.0, 1.0)
    ensures 0.0 <= c.x <= 1.0 && 0.0 <= c.y <= 1.0 && 0.0 <= c.z <= 1.0
  {
    if |data| == 0 then Vec3(0.0, 1.0, 1.0)
    else
      var (i, j) := PixelIndex(u, v, width, height);
      PixelIndexBounds(u, v, width, height);
      ByteIndexInBounds(data, width, height, bps, i, j);
      var c := PixelColor(data, j * bps + i * 3);
      PixelColorRange(data, j * bps + i * 3);
      c
  }

  /** The product of the three sines that picks the checker cell. */
  function CheckerSines(p: Vec3, o: Oracle): real {
    Sin(o, p.x * 10.0) * Sin(o, p.y * 10.0) * Sin(o, p.z * 10.0)
  }

  /** The depth `NoiseTexture::value` passes to `turb`. */
  const TurbDepth: nat := 7

  /** `turb(p, 7)` of the texture's generator. */
  function Turbulence(noise: Noise.Perlin, p: Vec3): real
    requires Noise.Valid(noise)
  {
    Noise.Abs(Noise.TurbSeries(Noise.NoiseOf(noise), p, TurbDepth))
  }

  /** The grey `0.5 * (1 + s)` of the marble pattern for a sine value `s`. */
  function Marble(s: real): (c: Vec3)
    ensures c.x == c.y == c.z
    ensures -1.0 <= s <= 1.0 ==> 0.0 <= c.x <= 1.0
  {
    Scale(Scale(Ones(), 0.5), 1.0 + s)
  }

  /** `value` of every texture. */
  function Value(t: Texture, u: real, v: real, p: Vec3, o: Oracle): Vec3
    requires Valid(t)
    decreases t
  {
    match t
    case SolidColor(c) => c
    case Checker(odd, even) =>
      if CheckerSines(p, o) < 0.0 then Value(odd.value, u, v, p, o) else Value(even.value, u, v, p, o)
    case NoiseTexture(noise, scale) =>
      Marble(Sin(o, scale * p.z + Turbulence(noise, p) * 10.0))
    case Image(data, w, h, bps) => ImageValue(data, w, h, bps, u, v)
  }

  // ----- Lemmas -----

  /** A solid colour ignores u, v and the point; a checker shows its odd side
      exactly where the product of sines is negative. */
  lemma ValueDispatch(t: Texture, u: real, v: real, p: Vec3, o: Oracle, u': real, v': real, p': Vec3)
    requires Valid(t)
    ensures t.SolidColor? ==> Value(t, u, v, p, o) == Value(t, u', v', p', o) == t.color
    ensures t.Checker? && CheckerSines(p, o) < 0.0 ==> Value(t, u, v, p, o) == Value(t.odd.value, u, v, p, o)
    ensures t.Checker? && CheckerSines(p, o) >= 0.0 ==> Value(t, u, v, p, o) == Value(t.even.value, u, v, p, o)
  {
  }

  /** `CheckerTexture::new_2(c1, c2)` shows `c2` where the sines are negative and `c1` elsewhere. */
  lemma CheckerOfColorsValue(c1: Vec3, c2: Vec3, u: real, v: real, p: Vec3, o: Oracle)
    ensures Value(CheckerOfColors(c1, c2), u, v, p, o) == (if CheckerSines(p, o) < 0.0 then c2 else c1)
  {
  }

  /** The clamped u and the flipped v lie in [0, 1]. */
  lemma UvClampedAndFlipped(u: real, v: real)
    ensures 0.0 <= Clamp(u, 0.0, 1.0) <= 1.0
    ensures 0.0 <= 1.0 - Clamp(v, 0.0, 1.0) <= 1.0
    ensures 0.0 <= u <= 1.0 ==> Clamp(u, 0.0, 1.0) == u
    ensures 0.0 <= v <= 1.0 ==> 1.0 - Clamp(v, 0.0, 1.0) == 1.0 - v
  {
  }

  lemma ScaledFraction(f: real, n: int)
    requires 0.0 <= f <= 1.0 && n >= 1
    ensures 0.0 <= f * n as real <= n as real
  {
    MulNonneg(f, n as real);
    MulMono(f, 1.0, n as real);
  }

  /** For an image of at least one pixel, the column lies in [0, width - 1] and
      the row in [0, height - 1]. */
  lemma PixelIndexBounds(u: real, v: real, width: int, height: int)
    requires width >= 1 && height >= 1
    requires width <= Noise.I32Max && height <= Noise.I32Max
    ensures 0 <= PixelIndex(u, v, width, height).0 < width
    ensures 0 <= PixelIndex(u, v, width, height).1 < height
  {
    var u' := Clamp(u, 0.0, 1.0);
    var v' := 1.0 - Clamp(v, 0.0, 1.0);
    ScaledFraction(u', width);
    ScaledFraction(v', height);
  }

  /** With three bytes per pixel and enough rows, the three byte indices of any
      in-range pixel are inside the buffer, and the i32 sums that compute them
      do not overflow. */
  lemma ByteIndexInBounds(data: seq<byte>, width: int, height: int, bps: int, i: int, j: int)
    requires WellSizedImage(data, width, height, bps)
    requires 0 <= i < width && 0 <= j < height
    ensures 0 <= j * bps + i * 3 && j * bps + i * 3 + 2 < |data|
    ensures j * bps + i * 3 + 2 <= Noise.I32Max
  {
    assert j * bps + i * 3 + 2 < (j + 1) * bps;
    MulMonoInt(j + 1, height, bps);
  }

  lemma MulMonoInt(a: int, b: int, d: int)
    requires a <= b && d >= 0
    ensures a * d <= b * d
  {
  }

  /** Every channel is a byte over 255, hence in [0, 1]. */
  lemma PixelColorRange(data: seq<byte>, idx: int)
    requires 0 <= idx && idx + 2 < |data|
    ensures var c := PixelColor(data, idx); 0.0 <= c.x <= 1.0 && 0.0 <= c.y <= 1.0 && 0.0 <= c.z <= 1.0
  {
  }

  /** The texture `ImageTexture::new_0` builds panics for every (u, v): the
      guard misses the empty buffer, the column and row become -1, and the
      byte index is negative. */
  lemma EmptyImagePanics(u: real, v: real)
    ensures var t := EmptyImage();
      ImageValueAsWritten(t.data, t.width, t.height, t.bytesPerScanline, u, v).None?
  {
    var u' := Clamp(u, 0.0, 1.0);
    var v' := 1.0 - Clamp(v, 0.0, 1.0);
    assert u' * 0.0 == 0.0 && v' * 0.0 == 0.0;
    assert PixelIndex(u, v, 0, 0) == (-1, -1);
  }

  /** With the corrected guard the empty texture shows the "no data" colour,
      and on every well-sized image the two definitions agree. */
  lemma ImageValueCorrected(data: seq<byte>, width: int, height: int, bps: int, u: real, v: real)
    requires |data| == 0 || WellSizedImage(data, width, height, bps)
    requires width <= Noise.I32Max && height <= Noise.I32Max
    ensures |data| == 0 ==> ImageValue(data, width, height, bps, u, v) == Vec3(0.0, 1.0, 1.0)
    ensures |data| > 0 ==> ImageValueAsWritten(data, width, height, bps, u, v) == Some(ImageValue(data, width, height, bps, u, v))
  {
    if |data| > 0 {
      assert |data| >= 3 by {
        assert height * bps >= 1 * 3 by { MulMonoInt(1, height, bps); }
      }
      assert data != [0, 0];
      var (i, j) := PixelIndex(u, v, width, height);
      PixelIndexBounds(u, v, width, height);
      ByteIndexInBounds(data, width, height, bps, i, j);
    }
  }

  /** The sine of the oracle lies in [-1, 1]. */
  lemma SinBounded(o: Oracle, x: real)
    requires Utility.Valid(o)
    ensures -1.0 <= Sin(o, x) <= 1.0
  {
    var s, c := Sin(o, x), Cos(o, x);
    assert s * s + c * c == 1.0;
    assert c * c >= 0.0 by { SquareNonneg(c); }
    if s > 1.0 {
      MulMono(1.0, s, s);
      assert false;
    } else if s < -1.0 {
      MulMono(1.0, -s, -s);
      assert false;
    }
  }

  /** The marble texture's colour is a grey level in [0, 1]. */
  lemma NoiseTextureRange(t: Texture, u: real, v: real, p: Vec3, o: Oracle)
    requires t.NoiseTexture? && Valid(t) && Utility.Valid(o)
    ensures var c := Value(t, u, v, p, o);
            c.x == c.y == c.z && 0.0 <= c.x <= 1.0
  {
    var arg := t.scale * p.z + Turbulence(t.noise, p) * 10.0;
    SinBounded(o, arg);
  }
}

=== FILE: utility.dfy ===
/** Utility functions of the renderer (`rtweekend.rs`): the f64 helpers `fmax`,
    `fmin`, `clamp`, `random_f64_1` and `degrees_to_radians`, together with the
    two modelling devices the rest of the project shares:

    - `Ext`, the extended reals used for ray-parameter bounds, because the
      renderer passes `f64::INFINITY` and `-f64::INFINITY` as interval ends;
    - `Oracle`, the transcendental functions of the standard library (`sqrt`,
      `sin`, `cos`, `tan`, `acos`, `atan2`, `ln`) and the constant `PI`, passed
      in as values; `Valid` states the few facts about them the proofs use.
 */
module Utility {

  datatype Option<+T> = None | Some(value: T)

  /** An f64 interval bound: a finite value or one of the two infinities. */
  datatype Ext = NegInf | Fin(v: real) | PosInf

  /** The order of the extended reals (f64 `<=` without NaN). */
  predicate Le(a: Ext, b: Ext) {
    a.NegInf? || b.PosInf? || (a.Fin? && b.Fin? && a.v <= b.v)
  }

  predicate Lt(a: Ext, b: Ext) {
    !Le(b, a)
  }

  /** `t` lies in the closed interval [lo, hi]. */
  predicate Within(t: real, lo: Ext, hi: Ext) {
    Le(lo, Fin(t)) && Le(Fin(t), hi)
  }

  /** `fmax` lifted to interval bounds: `if x >= y { x } else { y }`. */
  function ExtMax(x: Ext, y: Ext): (r: Ext)
    ensures r == x || r == y
    ensures Le(x, r) && Le(y, r)
  {
    if Le(y, x) then x else y
  }

  /** `fmin` lifted to interval bounds: `if x >= y { y } else { x }`. */
  function ExtMin(x: Ext, y: Ext): (r: Ext)
    ensures r == x || r == y
    ensures Le(r, x) && Le(r, y)
  {
    if Le(y, x) then y else x
  }

  /** `fmax`: the larger argument, the first one on a tie. */
  function Fmax(x: real, y: real): (r: real)
    ensures r == x || r == y
    ensures r >= x && r >= y
  {
    if x >= y then x else y
  }

  /** `fmin`: the smaller argument, the second one on a tie. */
  function Fmin(x: real, y: real): (r: real)
    ensures r == x || r == y
    ensures r <= x && r <= y
  {
    if x >= y then y else x
  }

  /** `clamp`: below `min` gives `min`, above `max` gives `max`, otherwise `x`. */
  function Clamp(x: real, min: real, max: real): (r: real)
    ensures min <= max ==> min <= r <= max
    ensures min <= x <= max ==> r == x
    ensures x < min ==> r == min
  {
    if x < min then min
    else if x > max then max
    else x
  }

  /** A uniform draw in [0, 1), as `random_f64` returns. */
  predicate UnitDraw(r: real) {
    0.0 <= r < 1.0
  }

  /** `random_f64_1(min, max)` with the draw of `random_f64` passed as `draw`. */
  function RandomRange(min: real, max: real, draw: real): (r: real)
    requires UnitDraw(draw)
    ensures min < max ==> min <= r < max
    ensures min == max ==> r == min
  {
    var w := max - min;
    assert min < max ==> 0.0 <= w * draw < w by {
      if min < max {
        MulLtOne(w, draw);
        MulNonneg(w, draw);
      }
    }
    assert min == max ==> w * draw == 0.0;
    min + w * draw
  }

  /** `degrees_to_radians`, with `PI` passed in. */
  function DegreesToRadians(degrees: real, pi: real): real {
    degrees * pi / 180.0
  }

  lemma DegreesToRadiansLinear(a: real, b: real, k: real, pi: real)
    ensures DegreesToRadians(0.0, pi) == 0.0
    ensures DegreesToRadians(180.0, pi) == pi
    ensures DegreesToRadians(a + b, pi) == DegreesToRadians(a, pi) + DegreesToRadians(b, pi)
    ensures DegreesToRadians(k * a, pi) == k * DegreesToRadians(a, pi)
  {
  }

  /** The transcendental functions the renderer calls, and `PI`. */
  datatype Oracle = Oracle(
    sqrt: real -> real,
    sin: real -> real,
    cos: real -> real,
    tan: real -> real,
    acos: real -> real,
    atan2: (real, real) -> real,
    ln: real -> real,
    pi: real)

  // The oracle's functions, by name.
  function Sqrt(o: Oracle, x: real): real { o.sqrt(x) }
  function Sin(o: Oracle, x: real): real { o.sin(x) }
  function Cos(o: Oracle, x: real): real { o.cos(x) }
  function Tan(o: Oracle, x: real): real { o.tan(x) }
  function Acos(o: Oracle, x: real): real { o.acos(x) }
  function Atan2(o: Oracle, y: real, x: real): real { o.atan2(y, x) }
  function Ln(o: Oracle, x: real): real { o.ln(x) }

  /** The facts about the oracle that the proofs rely on, and nothing more. */
  ghost predicate Valid(o: Oracle) {
    && o.pi > 0.0
    && Sqrt(o, 0.0) == 0.0
    && (forall x: real :: 0.0 <= x ==> 0.0 <= Sqrt(o, x) && Sqrt(o, x) * Sqrt(o, x) == x)
    && (forall x: real :: Sin(o, x) * Sin(o, x) + Cos(o, x) * Cos(o, x) == 1.0)
    && (forall x: real :: 0.0 < x < 1.0 ==> Ln(o, x) < 0.0)
  }

  /** A valid oracle's sine and cosine of one angle satisfy `sin² + cos² = 1`. */
  lemma SinCosSquares(o: Oracle, x: real)
    ensures Valid(o) ==> Sin(o, x) * Sin(o, x) + Cos(o, x) * Cos(o, x) == 1.0
  {
  }

  /** A square root of a non-negative number is monotone in its argument. */
  lemma SqrtMonotone(o: Oracle, a: real, b: real)
    requires Valid(o)
    requires 0.0 <= a <= b
    ensures Sqrt(o, a) <= Sqrt(o, b)
  {
    var sa, sb := Sqrt(o, a), Sqrt(o, b);
    assert sa * sa == a && sb * sb == b && sa >= 0.0 && sb >= 0.0;
    if sa + sb > 0.0 {
      assert (sb - sa) * (sb + sa) == b - a;
      NonnegFactor(sb - sa, sb + sa);
    }
  }

  /** The square root is the non-negative number whose square is the argument. */
  lemma SqrtExact(o: Oracle, a: real, s: real)
    requires Valid(o) && s >= 0.0 && s * s == a
    ensures Sqrt(o, a) == s
  {
    var r := Sqrt(o, a);
    assert r >= 0.0 && r * r == a;
    assert (r - s) * (r + s) == 0.0;
    if r + s > 0.0 {
      NonnegFactor(r - s, r + s);
      NonnegFactor(s - r, r + s);
    }
  }

  // Small facts of real arithmetic the solver needs spelled out.

  lemma MulPos(a: real, b: real)
    requires a > 0.0 && b > 0.0
    ensures a * b > 0.0
  {
  }

  lemma MulNonneg(a: real, b: real)
    requires a >= 0.0 && b >= 0.0
    ensures a * b >= 0.0
  {
  }

  lemma NonnegFactor(x: real, y: real)
    requires y > 0.0 && x * y >= 0.0
    ensures x >= 0.0
  {
  }

  lemma MulLtOne(a: real, d: real)
    requires a > 0.0 && 0.0 <= d < 1.0
    ensures a * d < a
  {
  }

  lemma MulMono(a: real, b: real, c: real)
    requires a <= b && c >= 0.0
    ensures a * c <= b * c
  {
  }
}

=== FILE: vec3.dfy ===
/** Three-component vectors (`vec3.rs`), used as points, directions and
    colours. Every operator of the source is componentwise except the dot
    product (`Mul` of two vectors) and the cross product. The `random_*`
    constructors take their draws as parameters; the rejection loops run over a
    finite supply of draws and report `None` when the supply runs out, where the
    source would keep drawing.
 */
module Vectors {
  import opened Utility

  datatype Vec3 = Vec3(x: real, y: real, z: real)

  function Zero(): Vec3 {
    Vec3(0.0, 0.0, 0.0)
  }

  function Ones(): Vec3 {
    Vec3(1.0, 1.0, 1.0)
  }

  /** `Add` for two vectors. */
  function Add(a: Vec3, b: Vec3): Vec3 {
    Vec3(a.x + b.x, a.y + b.y, a.z + b.z)
  }

  /** `Add<f64>`: the scalar is added to every component. */
  function AddScalar(a: Vec3, s: real): Vec3 {
    Vec3(a.x + s, a.y + s, a.z + s)
  }

  function Sub(a: Vec3, b: Vec3): Vec3 {
    Vec3(a.x - b.x, a.y - b.y, a.z - b.z)
  }

  function SubScalar(a: Vec3, s: real): Vec3 {
    Vec3(a.x - s, a.y - s, a.z - s)
  }

  function Neg(a: Vec3): Vec3 {
    Vec3(-a.x, -a.y, -a.z)
  }

  /** `Mul<f64>`: scaling by a scalar. */
  function Scale(a: Vec3, s: real): Vec3 {
    Vec3(a.x * s, a.y * s, a.z * s)
  }

  /** `Div<f64>`; the divisor must be nonzero (the source would yield infinities). */
  function Div(a: Vec3, s: real): Vec3
    requires s != 0.0
  {
    Vec3(a.x / s, a.y / s, a.z / s)
  }

  /** `Mul` of two vectors: the dot product. */
  function Dot(a: Vec3, b: Vec3): real {
    a.x * b.x + a.y * b.y + a.z * b.z
  }

  function Cross(a: Vec3, b: Vec3): Vec3 {
    Vec3(a.y * b.z - b.y * a.z,
         a.z * b.x - b.z * a.x,
         a.x * b.y - b.x * a.y)
  }

  /** `elemul`: the componentwise (Hadamard) product used to filter colours. */
  function Elemul(a: Vec3, b: Vec3): Vec3 {
    Vec3(a.x * b.x, a.y * b.y, a.z * b.z)
  }

  function SquaredLength(a: Vec3): real {
    a.x * a.x + a.y * a.y + a.z * a.z
  }

  /** `length`, with the square root taken from the oracle. */
  function Length(a: Vec3, o: Oracle): real {
    Sqrt(o, SquaredLength(a))
  }

  /** `unit`: the vector divided by its length. For the zero vector the source
      prints an error and divides by zero; the model returns the vector
      unchanged there. */
  function Unit(a: Vec3, o: Oracle): (r: Vec3)
    ensures Valid(o) && SquaredLength(a) != 0.0 ==> SquaredLength(r) == 1.0
  {
    var len := Length(a, o);
    if len == 0.0 then a
    else
      var r := Div(a, len);
      assert Valid(o) ==> SquaredLength(r) == 1.0 by {
        if Valid(o) {
          UnitLength(a, len);
        }
      }
      r
  }

  /** `Index`: 0, 1 and 2 select x, y and z; any other index panics. */
  function Index(a: Vec3, i: nat): real
    requires i < 3
  {
    match i
    case 0 => a.x
    case 1 => a.y
    case 2 => a.z
  }

  /** `near_zero`: every component strictly inside (-1e-7, 1e-7). */
  predicate NearZero(a: Vec3) {
    var s := 0.0000001;
    a.x < s && a.x > -s && a.y < s && a.y > -s && a.z < s && a.z > -s
  }

  /** `reflect`: v - n (v . n) 2. */
  function Reflect(v: Vec3, n: Vec3): Vec3 {
    Sub(v, Scale(Scale(n, Dot(v, n)), 2.0))
  }

  /** `refract`, structurally: the perpendicular part scaled by the ratio of
      indices and a parallel part of the length that completes it to a unit
      vector (or its reciprocal square root when that length would be imaginary). */
  function Refract(uv: Vec3, n: Vec3, etaiOverEtat: real, o: Oracle): Vec3 {
    var cosTheta := if Dot(Neg(uv), n) < 1.0 then Dot(Neg(uv), n) else 1.0;
    var rOutPerp := Scale(Add(uv, Scale(n, cosTheta)), etaiOverEtat);
    var rOutParallel :=
      if 1.0 > SquaredLength(rOutPerp) then Scale(n, -Sqrt(o, 1.0 - SquaredLength(rOutPerp)))
      else Scale(n, -Sqrt(o, SquaredLength(rOutPerp) - 1.0));
    Add(rOutPerp, rOutParallel)
  }

  /** Three draws of `random_f64`, each in [0, 1). */
  predicate CubeDraw(d: Vec3) {
    UnitDraw(d.x) && UnitDraw(d.y) && UnitDraw(d.z)
  }

  /** `random_vec3_2(min, max)`, with the three draws of `random_f64` passed in. */
  function RandomVec(min: real, max: real, d: Vec3): Vec3
    requires CubeDraw(d)
  {
    Vec3(RandomRange(min, max, d.x), RandomRange(min, max, d.y), RandomRange(min, max, d.z))
  }

  /** The candidate `random_in_unit_sphere` draws in one round of its loop. */
  function SphereCandidate(d: Vec3): Vec3
    requires CubeDraw(d)
  {
    RandomVec(-1.0, 1.0, d)
  }

  /** `random_in_unit_sphere`: the first candidate strictly inside the unit ball. */
  method RandomInUnitSphere(draws: seq<Vec3>) returns (p: Option<Vec3>)
    requires forall i :: 0 <= i < |draws| ==> CubeDraw(draws[i])
    ensures p.Some? <==> exists i :: 0 <= i < |draws| && SquaredLength(SphereCandidate(draws[i])) < 1.0
    ensures p.Some? ==> SquaredLength(p.value) < 1.0
    ensures p.Some? ==> exists k :: 0 <= k < |draws| && p.value == SphereCandidate(draws[k]) &&
                                 (forall j :: 0 <= j < k ==> SquaredLength(SphereCandidate(draws[j])) >= 1.0)
  {
    var i := 0;
    while i < |draws|
      invariant 0 <= i <= |draws|
      invariant forall j :: 0 <= j < i ==> SquaredLength(SphereCandidate(draws[j])) >= 1.0
    {
      var c := SphereCandidate(draws[i]);
      if SquaredLength(c) < 1.0 {
        return Some(c);
      }
      i := i + 1;
    }
    return None;
  }

  predicate SquareDraw(d: (real, real)) {
    UnitDraw(d.0) && UnitDraw(d.1)
  }

  /** `random_in_unit_disk`: the first candidate (x, y, 0) strictly inside the
      unit disk, from pairs of draws. */
  function RandomInUnitDisk(draws: seq<(real, real)>): (p: Option<Vec3>)
    requires forall i :: 0 <= i < |draws| ==> SquareDraw(draws[i])
    ensures p.Some? ==> SquaredLength(p.value) < 1.0 && p.value.z == 0.0
    ensures p.Some? ==> -1.0 <= p.value.x < 1.0 && -1.0 <= p.value.y < 1.0
  {
    if |draws| == 0 then None
    else
      assert SquareDraw(draws[0]);
      var c := Vec3(RandomRange(-1.0, 1.0, draws[0].0), RandomRange(-1.0, 1.0, draws[0].1), 0.0);
      if SquaredLength(c) < 1.0 then Some(c) else RandomInUnitDisk(draws[1..])
  }

  /** `random_in_hemisphere`: the unit-ball sample flipped onto the side of `normal`. */
  function RandomInHemisphere(inUnitSphere: Vec3, normal: Vec3): (r: Vec3)
    ensures Dot(r, normal) >= 0.0
    ensures r == inUnitSphere || r == Neg(inUnitSphere)
    ensures SquaredLength(r) == SquaredLength(inUnitSphere)
  {
    if Dot(inUnitSphere, normal) > 0.0 then inUnitSphere else Neg(inUnitSphere)
  }

  // ----- Lemmas -----

  lemma UnitLength(a: Vec3, len: real)
    requires len > 0.0 && len * len == SquaredLength(a)
    ensures SquaredLength(Div(a, len)) == 1.0
  {
    var inv := 1.0 / len;
    assert Div(a, len) == Scale(a, inv);
    ScaleSquaredLength(a, inv);
    assert inv * len == 1.0;
    assert (inv * inv) * (len * len) == (inv * len) * (inv * len);
  }

  /** Scaling by `k` scales the squared length by `k * k`. */
  lemma ScaleSquaredLength(a: Vec3, k: real)
    ensures SquaredLength(Scale(a, k)) == (k * k) * SquaredLength(a)
  {
    var b := Scale(a, k);
    assert b.x * b.x == (k * k) * (a.x * a.x);
    assert b.y * b.y == (k * k) * (a.y * a.y);
    assert b.z * b.z == (k * k) * (a.z * a.z);
  }

  lemma SquareNonneg(x: real)
    ensures x * x >= 0.0
  {
    if x >= 0.0 {
      MulNonneg(x, x);
    } else {
      MulNonneg(-x, -x);
    }
  }

  /** The examples of the source's unit tests. */
  lemma ArithmeticExamples()
    ensures Add(Vec3(1.0, 0.0, -1.0), Vec3(2.0, 4.0, 6.0)) == Vec3(3.0, 4.0, 5.0)
    ensures AddScalar(Vec3(1.0, 0.0, -1.0), 233.0) == Vec3(234.0, 233.0, 232.0)
    ensures SquaredLength(Vec3(1.0, 2.0, 3.0)) == 14.0
  {
  }

  /** Adding vectors and adding a scalar act on each component separately. */
  lemma AddComponentwise(a: Vec3, b: Vec3, s: real, i: nat)
    requires i < 3
    ensures Index(Add(a, b), i) == Index(a, i) + Index(b, i)
    ensures Index(AddScalar(a, s), i) == Index(a, i) + s
  {
  }

  /** Indexing at 0, 1, 2 recovers the vector. */
  lemma IndexRoundTrip(a: Vec3)
    ensures Vec3(Index(a, 0), Index(a, 1), Index(a, 2)) == a
  {
  }

  /** The squared length is the dot product of a vector with itself, hence never negative. */
  lemma SquaredLengthIsSelfDot(a: Vec3)
    ensures SquaredLength(a) == Dot(a, a)
    ensures SquaredLength(a) >= 0.0
  {
    SquareNonneg(a.x);
    SquareNonneg(a.y);
    SquareNonneg(a.z);
  }

  /** The cross product is orthogonal to both of its arguments. */
  lemma CrossOrthogonal(a: Vec3, b: Vec3)
    ensures Dot(Cross(a, b), a) == 0.0
    ensures Dot(Cross(a, b), b) == 0.0
  {
    var c := Cross(a, b);
    assert Dot(c, a) == (a.y * b.z - b.y * a.z) * a.x + (a.z * b.x - b.z * a.x) * a.y
                        + (a.x * b.y - b.x * a.y) * a.z;
    assert Dot(c, b) == (a.y * b.z - b.y * a.z) * b.x + (a.z * b.x - b.z * a.x) * b.y
                        + (a.x * b.y - b.x * a.y) * b.z;
  }

  /** The dot product distributes over subtraction and pulls out scalars. */
  lemma DotLinear(a: Vec3, b: Vec3, n: Vec3, s: real)
    ensures Dot(Sub(a, b), n) == Dot(a, n) - Dot(b, n)
    ensures Dot(Scale(a, s), n) == s * Dot(a, n)
  {
  }

  /** For a unit normal, reflection negates the normal component and is an involution. */
  lemma ReflectProperties(v: Vec3, n: Vec3)
    requires SquaredLength(n) == 1.0
    ensures Dot(Reflect(v, n), n) == -Dot(v, n)
    ensures Reflect(Reflect(v, n), n) == v
  {
    var d := Dot(v, n);
    DotLinear(v, Scale(Scale(n, d), 2.0), n, 0.0);
    DotLinear(Scale(n, d), n, n, 2.0);
    DotLinear(n, n, n, d);
    assert Dot(n, n) == 1.0;
    assert Dot(Scale(Scale(n, d), 2.0), n) == 2.0 * (d * 1.0);
    assert Dot(Reflect(v, n), n) == -d;
    var w := Reflect(v, n);
    assert Reflect(w, n) == Sub(w, Scale(Scale(n, -d), 2.0));
  }

  /** For a unit normal, reflection keeps the squared length. */
  lemma ReflectKeepsLength(v: Vec3, n: Vec3)
    requires SquaredLength(n) == 1.0
    ensures SquaredLength(Reflect(v, n)) == SquaredLength(v)
  {
    var d := Dot(v, n);
    var k := Scale(n, 2.0 * d);
    assert Reflect(v, n) == Sub(v, k);
    assert SquaredLength(Sub(v, k)) == SquaredLength(v) - 2.0 * Dot(v, k) + SquaredLength(k);
    assert Dot(v, k) == Dot(k, v);
    DotLinear(n, n, v, 2.0 * d);
    ScaleSquaredLength(n, 2.0 * d);
  }

  /** Normalising keeps the sign of the component along any direction. */
  lemma UnitKeepsSide(a: Vec3, n: Vec3, o: Oracle)
    requires Valid(o)
    ensures Dot(a, n) < 0.0 ==> Dot(Unit(a, o), n) < 0.0
  {
    var len := Length(a, o);
    if len != 0.0 {
      var inv := 1.0 / len;
      assert Unit(a, o) == Scale(a, inv);
      DotLinear(a, a, n, inv);
    }
  }

  /** `near_zero` holds exactly when every indexed component is within 1e-7 of zero. */
  lemma NearZeroIff(a: Vec3)
    ensures NearZero(a) <==> forall i: nat :: i < 3 ==> -0.0000001 < Index(a, i) < 0.0000001
  {
    if !NearZero(a) {
      if !(-0.0000001 < a.x < 0.0000001) {
        assert !(-0.0000001 < Index(a, 0) < 0.0000001);
      } else if !(-0.0000001 < a.y < 0.0000001) {
        assert !(-0.0000001 < Index(a, 1) < 0.0000001);
      } else {
        assert !(-0.0000001 < Index(a, 2) < 0.0000001);
      }
    }
  }
}
